=== FILE: README.md ===
# Add Any File — a Dafny model of its core

Add Any File is a Visual Studio extension. The user types one line into a
dialog, for example `home.(html,js), about.(html,js,css)` or `folder\`. The
extension expands that line into relative paths and refuses reserved device
names. For each remaining path it picks a template and fills in the namespace
and item name. It normalises line endings, writes the file, hooks the file into
the project's item tree and puts the caret where the template's `$` marker was.
The repository also carries an older template subsystem (`src/Templates/`).
There, regular-expression rules map typed names onto Visual Studio item
templates, and separate creators add templated or plain items.

This project models that core in Dafny, one module per source file:

- `AddAnyFilePackage` (add_any_file_package.dfy) models src/AddAnyFilePackage.cs
- `TemplateMap` (template_map.dfy) models src/Templatemap.cs
- `ProjectHelpers` (project_helpers.dfy) models src/Helpers/ProjectHelpers.cs
- `LegacyTemplateMap` (legacy_template_map.dfy) models src/Templates/TemplateMap.cs
- `LegacyTemplateMapping` (legacy_template_mapping.dfy) models src/Templates/TemplateMapping.cs
- `ItemManager` (project_item_manager.dfy) models src/Templates/ProjectItemManager.cs
- `TemplatedItems` (templated_item_creator.dfy) models src/Templates/TemplatedItemCreator.cs
- `PlainItems` (non_templated_item_creator.dfy) models src/Templates/NonTemplatedItemCreator.cs
- `ItemTargets` (new_item_target.dfy) models src/NewItemTarget.cs

Supporting modules:
- `Wrappers`: `Option`.
- `Text`: the `string` operations the code calls, such as `Trim`, `Split`, `Replace`, `IndexOf` and ordinal case-insensitive comparison.
- `Paths`: `System.IO.Path` and `DirectoryInfo` on Windows path strings.
- `Seqs`: `Reverse`.
- `Regexes`: compiled-regex objects and an abstract matcher.

How the model takes the source's form:
- Pure code becomes functions with contracts.
- Loops become methods with invariants, proved against a specification
  function:
  - `GetParsedInput` and its inner loop;
  - `AddTemplatesFromCurrentFolder`;
  - the climb and walk of `AddFolders`;
  - `GetItemParent`;
  - `GetTemplate`;
  - `LoadDefaultMappings`;
  - `GetSolutionFolderPath`.
- Objects whose fields change become classes:
  - the project item tree;
  - template mappings with their compiled-pattern cache;
  - the template map list;
  - the file system and project seen by the plain creator.
- Host state is passed in as values:
  - the file system is a set of directories and a map from files to their text,
    both keyed by the upper-cased path (`Paths.PathKey`), so a file is found
    whatever the letter case it is asked for in, as on Windows;
  - the Solution Explorer selection is a sequence of nodes;
  - `FindProjectItem` is a map.
- `None` stands for a null result or for an exception the code lets escape. The
  datatype comments say which.

## Model

| member | source | states |
|---|---|---|
| `AddAnyFilePackage.TrimLeadingSeparators` | src/AddAnyFilePackage.cs:68 | the result is a suffix of the input; every dropped character is `/` or `\`; the result does not start with one |
| `AddAnyFilePackage.NormalizeInput` | src/AddAnyFilePackage.cs:68 | no leading separator and no `/` remain; every kept character is the input's, with `/` turned into `\` |
| `AddAnyFilePackage.NormalizeInputIdempotent` | src/AddAnyFilePackage.cs:68 | normalising the dialog text twice is normalising it once |
| `AddAnyFilePackage.MatchAt` | src/AddAnyFilePackage.cs:222 | the expansion pattern's match at a position, in the engine's backtracking order; it succeeds at every position before the end and always consumes input there |
| `AddAnyFilePackage.NextMatch` | src/AddAnyFilePackage.cs:242 | the next match starts strictly after the previous one and stays inside the input, so the loop ends |
| `AddAnyFilePackage.ValuesOf` | src/AddAnyFilePackage.cs:229-234 | one value per comma-separated alternative, in order: the trimmed prefix followed by the trimmed alternative |
| `AddAnyFilePackage.GetParsedInput` | src/AddAnyFilePackage.cs:217-245 | the `while` loop over matches returns exactly `ParsedInput`, the filtered values of all matches in match order |
| `AddAnyFilePackage.AddValues` | src/AddAnyFilePackage.cs:232-241 | the inner `foreach` appends exactly the values that are acceptable and not yet present, ignoring case |
| `AddAnyFilePackage.AcceptableIgnoresCase` | src/AddAnyFilePackage.cs:237 | two values equal ignoring case are both acceptable or both not |
| `AddAnyFilePackage.CollectWellFormed` | src/AddAnyFilePackage.cs:236-240 | the filter keeps the results free of empty values, of values ending in `.` and of case-insensitive duplicates |
| `AddAnyFilePackage.CollectComplete` | src/AddAnyFilePackage.cs:236-240 | every acceptable value seen is represented in the results, ignoring case |
| `AddAnyFilePackage.ParsedInputProperties` | src/AddAnyFilePackage.cs:237 | no result is empty or ends in `.`; no two results are equal ignoring case; every acceptable candidate is represented |
| `AddAnyFilePackage.CollectIsFirstOccurrences` | src/AddAnyFilePackage.cs:236-240 | the filtering loop equals an independent definition: keep each acceptable value that equals no earlier value ignoring case |
| `AddAnyFilePackage.ParsedInputIsFirstOccurrences` | src/AddAnyFilePackage.cs:217-245 | `GetParsedInput` is the first-occurrence de-duplication of the candidates, in match order and then alternative order |
| `AddAnyFilePackage.FinalValues` | src/AddAnyFilePackage.cs:222-226 | at the end of an input that does not end in `(`, the engine's last, empty match yields exactly one value, the empty one |
| `AddAnyFilePackage.SingleMatch` | src/AddAnyFilePackage.cs:222 | an entry without `(` or `,` is matched whole, as the prefix |
| `AddAnyFilePackage.SingleName` | src/AddAnyFilePackage.cs:219-221 | entries such as `folder\file.txt` or `.ignore` expand to themselves trimmed, or to nothing when that is empty or ends in `.` |
| `AddAnyFilePackage.NoAlternatives` | src/AddAnyFilePackage.cs:229-234 | a match without alternatives yields its trimmed prefix alone |
| `AddAnyFilePackage.DropsEmpty` | src/AddAnyFilePackage.cs:237 | a value followed by the empty value leaves that value alone when it is acceptable, and nothing otherwise |
| `AddAnyFilePackage.GroupMatch` | src/AddAnyFilePackage.cs:222 | `name(a,b,...)` is one match whose prefix is `name` and whose alternatives are `a,b,...` |
| `AddAnyFilePackage.Group` | src/AddAnyFilePackage.cs:221-243 | `name(a,b,...)` expands to the trimmed name followed by each trimmed alternative, in order, keeping only the first of values equal ignoring case |
| `AddAnyFilePackage.ReservedNamesAreUpper` | src/AddAnyFilePackage.cs:169 | every reserved device name is upper case, has no `.` and is three or four characters long |
| `AddAnyFilePackage.ReservedNameShape` | src/AddAnyFilePackage.cs:167-171 | a name is refused exactly when its upper-casing is a reserved name; a name with a `.`, or one not three or four characters long, is allowed |
| `AddAnyFilePackage.ReservedNameExamples` | src/AddAnyFilePackage.cs:167-171 | `CON.txt` may be created; `con` and `Lpt0` may not |
| `AddAnyFilePackage.ExtensionIs` | src/AddAnyFilePackage.cs:207-209 | the lower-cased extension is a given plain extension exactly when the path ends with it ignoring case |
| `AddAnyFilePackage.WritesBomBySuffix` | src/AddAnyFilePackage.cs:204-215 | no byte-order mark is written exactly when the path ends in `.cmd`, `.bat` or `.json`, in any letter case |
| `AddAnyFilePackage.RemoveCaretMarker` | src/AddAnyFilePackage.cs:173-194 | see "Contracts in detail" below |
| `AddAnyFilePackage.CaretOffset` | src/AddAnyFilePackage.cs:142-149 | the caret moves only for a positive position, and then to exactly that offset |
| `AddAnyFilePackage.CaretLandsOnMarker` | src/AddAnyFilePackage.cs:142-149 | a `$` after the first character puts the caret where the `$` was, with the same text in front of it; otherwise the caret stays at 0 |
| `AddAnyFilePackage.CaretMarkerRoundTrip` | src/AddAnyFilePackage.cs:180-185 | putting `$` back at the returned index gives the template again |
| `AddAnyFilePackage.WithFolderSentinel` | src/AddAnyFilePackage.cs:81-84 | an entry ending in `\` gets `__dummy__` appended; any other entry is unchanged |
| `AddAnyFilePackage.EntryOutcomeOf` | src/AddAnyFilePackage.cs:80-158 | a name that is not valid is refused, with that name; otherwise the path is the folder combined with the entry (with `__dummy__` after a trailing `\`); the item is left alone exactly when that path names an existing file in any letter case; for a new file, the write fails and nothing is created exactly when the template named for it cannot be read (the exception ends in the `catch`); otherwise it is created at that path, which ends with the entry; a created item is deleted again exactly when the entry ends in `\` or in `__dummy__` |
| `AddAnyFilePackage.ExistingFileInOtherCase` | src/AddAnyFilePackage.cs:114 | `Foo.cs` typed into a folder that holds `foo.cs` is found to exist, as Windows finds it, and is left alone |
| `AddAnyFilePackage.SentinelHasNoBoundary` | src/AddAnyFilePackage.cs:133 | the last nine characters of a name ending in `__dummy__` contain no separator or drive colon |
| `AddAnyFilePackage.FolderEntryIsSentinel` | src/AddAnyFilePackage.cs:81-137 | the full name ends in `__dummy__` exactly when the entry ends in `\` or in `__dummy__`, whatever the folder |
| `TemplateMap.StaticTemplates` | src/Templatemap.cs:20-33 | the profile templates (when the folder exists) come before the installed templates; a missing installed folder gives `None` (`GetFiles` throws); folders are found in any letter case |
| `TemplateMap.CollectStep` | src/Templatemap.cs:56-66 | one turn of the loop appends the templates of the current `.templates` folder, if it exists, and moves to the parent |
| `TemplateMap.TemplatesUpFollowsAncestors` | src/Templatemap.cs:56-66 | the templates collected upwards are those of each directory of the ancestor chain, nearest first |
| `TemplateMap.AddTemplatesFromCurrentFolder` | src/Templatemap.cs:51-69 | the result is the templates from the directory up to the root, followed by the given list |
| `TemplateMap.FirstMatch` | src/Templatemap.cs:79-81 | `FirstOrDefault`: none exactly when no path qualifies; otherwise the least index that qualifies |
| `TemplateMap.FirstMatchAppend` | src/Templatemap.cs:41-45 | a match in the front part of the list hides every match behind it; otherwise the first match is found in the back part, shifted |
| `TemplateMap.NearestTemplateWins` | src/Templatemap.cs:51-69 | a template in the target directory's own `.templates` folder is found before any template from a parent, the profile or the installation |
| `TemplateMap.LocalTemplatesFirst` | src/Templatemap.cs:41-45 | templates along the directory chain are found before the profile and installed templates |
| `TemplateMap.SafeName` | src/Templatemap.cs:37-38 | the whole file name when it starts with `.`; otherwise the file name cut before its last `.` |
| `TemplateMap.AdjustForSpecific` | src/Templatemap.cs:141-157 | `^I[A-Z]` gives `-interface`; otherwise `.+Enum$` gives `-enum`; otherwise `.+Controller$` in an MVC project gives `-controller`; otherwise the extension is unchanged |
| `TemplateMap.InterfaceBeforeEnum` | src/Templatemap.cs:141-157 | the interface test comes first: `IStatusEnum` gets the interface template; `Icon` is not an interface name |
| `TemplateMap.EnumNeedsPrefix` | src/Templatemap.cs:141-157 | `StatusEnum` gets the enum template; a bare `Enum` is too short to count |
| `TemplateMap.ControllerOnlyInMvc` | src/Templatemap.cs:141-157 | `HomeController` gets the controller template in an MVC project and the plain extension template otherwise |
| `TemplateMap.GetMatchingTemplate` | src/Templatemap.cs:71-102 | a direct match wins over every other tier and gives exactly that template's directory combined with name + `.txt`; a convention match is taken only without a direct match; an extension match only without either, and gives exactly its template's directory combined with the `AdjustForSpecific` name + `.txt`; none exactly when no tier matches |
| `TemplateMap.NameTemplateNotRooted` | src/Templatemap.cs:82 | a file name plus `.txt` is never rooted, so `Path.Combine` keeps the template's directory |
| `TemplateMap.ExtensionTemplateNotRooted` | src/Templatemap.cs:97-98 | the extension tier's template name is never rooted |
| `TemplateMap.NamespaceRoot` | src/Templatemap.cs:111-112 | never empty; `MyNamespace` when there is no project |
| `TemplateMap.Namespace` | src/Templatemap.cs:111-119 | the root namespace, followed by `.` and the cleaned relative folder when that folder is non-empty |
| `TemplateMap.NamespaceFolders` | src/Templatemap.cs:116-119 | below the root namespace there is one `.` per folder separator of the relative path, and no space or `-` |
| `TemplateMap.MvcNamespace` | src/Templatemap.cs:114 | non-empty exactly for a project with an MVC reference |
| `TemplateMap.ReplaceTokens` | src/Templatemap.cs:104-129 | a null or empty template path gives no text; a path naming no file, in any letter case, throws; otherwise the text is that file's content passed through `FillTokens` with the namespace of the project and folder, the item name and the MVC namespace |
| `TemplateMap.TemplateReadIgnoringCase` | src/Templatemap.cs:121 | a template asked for as `widget.cs.txt` is read from `Widget.cs.txt` and filled in |
| `TemplateMap.MissingSpecificTemplateIsUnreadable` | src/Templatemap.cs:93-121 | when only the extension tier matches and the name is interface-shaped, the `-interface` template is named next to the matched `.cs.txt`; if it is not there, reading it fails with that path |
| `TemplateMap.FillPass` | src/Templatemap.cs:125-127 | one `Replace` pass turns every placeholder of its token, and nothing else, into the replacement, when no occurrence of the token can start in any other part |
| `TemplateMap.FillTokensFillsEverySlot` | src/Templatemap.cs:125-127 | for any template made of literal text and placeholders, each in any number and order, the three passes put the namespace, the item name and the MVC namespace in every placeholder and keep the literal text, provided no token can start inside a literal and the namespace and item name hold no `{` |
| `TemplateMap.ReplaceTokensFillsTemplate` | src/Templatemap.cs:104-129 | a template file read for a matched path has every placeholder filled with the project's namespace, the item name and the MVC namespace, and its other text kept |
| `TemplateMap.FillClassTemplate` | src/Templatemap.cs:125-127 | a class template whose code braces stand around and between the tokens is filled correctly: the braces are kept and both tokens filled |
| `TemplateMap.FillRepeatedItemName` | src/Templatemap.cs:126 | an item-name token used twice, for a class and its constructor, is filled in both places |
| `TemplateMap.FillTokensInOrder` | src/Templatemap.cs:125-127 | a template holding each token once, between pieces in which no token can start (code braces are allowed), gets the namespace, the item name and the MVC namespace in their places, and keeps everything else |
| `TemplateMap.FillTokensNoBraces` | src/Templatemap.cs:125-127 | a template without `{` comes out unchanged |
| `Text.ReplaceConcat` | src/Templatemap.cs:125-127 | `string.Replace` works piece by piece: when no occurrence of the pattern straddles the seam, replacing in `x + s` is replacing in `x` followed by replacing in `s` |
| `Text.ReplaceAround` | src/Templatemap.cs:125-127 | an occurrence of the pattern between `x` and `y` becomes the replacement, and `x` and `y` are replaced on their own, unless an occurrence starting in `x` runs into it |
| `Text.ReplaceSkipsPrefix` | src/Templatemap.cs:125-127 | a leading piece in which no occurrence of the pattern can start is copied through unchanged |
| `TemplateMap.NormalizeBreaks` | src/Templatemap.cs:138 | the result holds only `\r\n` pairs and characters that are not line breaks; what it is exactly is stated by `NormalizeIsJoinOfLines` |
| `TemplateMap.FirstBreak` | src/Templatemap.cs:138 | the index of the first line-break character, or the length when there is none; nothing before it is a break |
| `TemplateMap.Lines` | src/Templatemap.cs:138 | the text between the breaks, at least one line, none holding a break character; `\r\n` and `\n\r` count as one break, two equal break characters as two |
| `TemplateMap.NormalizeIsJoinOfLines` | src/Templatemap.cs:138 | normalising is the same as splitting the text into its lines and joining them with `\r\n`: every break becomes exactly one `\r\n` and the text between breaks is kept, so no break is dropped or added |
| `TemplateMap.NormalizeSkipsLine` | src/Templatemap.cs:138 | text without a break is copied unchanged in front of the normalised rest |
| `TemplateMap.NormalizeExamples` | src/Templatemap.cs:138 | between two other characters, `\n`, `\r` and `\n\r` each become `\r\n`, and `\n\n` becomes two `\r\n` |
| `TemplateMap.NormalizeLineEndings` | src/Templatemap.cs:131-139 | null stays null and empty stays empty; anything else comes out in `\r\n` form, and is its lines joined with `\r\n` (`NormalizeIsJoinOfLines`) |
| `TemplateMap.NormalizeBreaksFixed` | src/Templatemap.cs:138 | text already in `\r\n` form is unchanged |
| `TemplateMap.NormalizeIdempotent` | src/Templatemap.cs:131-139 | a second normalisation changes nothing |
| `TemplateMap.CrLfOnlyHasNoLoneBreaks` | src/Templatemap.cs:138 | after normalisation every `\r` is followed by `\n` and every `\n` is preceded by `\r` |
| `TemplateMap.NormalizeKeepsText` | src/Templatemap.cs:138 | normalisation changes only line breaks: every other character stays, in order |
| `TemplateMap.GetTemplateFilePath` | src/Templatemap.cs:35-49 | the directory-chain templates go in front of the static list (the value of `StaticTemplates`, passed in); the result is the matching template, filled in, in `\r\n` form |
| `ProjectHelpers.CleanNameSpace` | src/Helpers/ProjectHelpers.cs:49-61 | no space, `-` or `\` remains; with `stripPeriods` every `.` comes from a `\`; without it the original dots are kept as well; no other character changes |
| `ProjectHelpers.CleanNameSpaceIsCharwise` | src/Helpers/ProjectHelpers.cs:49-61 | the chain of `Replace` calls equals an independent definition that cleans one character at a time |
| `ProjectHelpers.CleanCharsProperties` | src/Helpers/ProjectHelpers.cs:49-61 | the character-wise cleaning removes spaces, `-` and `\`, counts its dots as `CleanNameSpace` promises, and keeps every other character in order |
| `ProjectHelpers.GetRootNamespace` | src/Helpers/ProjectHelpers.cs:26-47 | none exactly for a null project; a non-empty `RootNamespace` is used, else the project name (or empty); either is cleaned with its periods kept |
| `ProjectHelpers.IsKind` | src/Helpers/ProjectHelpers.cs:234-258 | true exactly when some GUID equals the kind ignoring case; false for an empty list |
| `ProjectHelpers.FirstMvcReferenceFrom` | src/Helpers/ProjectHelpers.cs:265 | the least index, from the given one, that names an MVC assembly; none when there is none |
| `ProjectHelpers.GetMVCNamespace` | src/Helpers/ProjectHelpers.cs:260-272 | the first `Microsoft.AspNetCore.Mvc` or `System.Web.Mvc` reference; none when there is none or the project has no reference list |
| `ProjectHelpers.IsMVCProjectIff` | src/Helpers/ProjectHelpers.cs:274-277 | a project is an MVC project exactly when its reference list holds an MVC assembly |
| `ProjectHelpers.FindChild` | src/Helpers/ProjectHelpers.cs:168-173 | `FirstOrDefault` over the items under a parent: the first item with the name, or none when no item has it |
| `ProjectHelpers.Step` | src/Helpers/ProjectHelpers.cs:168-174 | one level of the walk: an existing child of that name is reused; otherwise exactly one folder is appended, and only when no such child exists |
| `ProjectHelpers.EnsurePathShape` | src/Helpers/ProjectHelpers.cs:168-177 | the walk reaches an item one level per segment, each level named like its segment, and only appends items |
| `ProjectHelpers.EnsurePathAddsOnlyTheWay` | src/Helpers/ProjectHelpers.cs:168-177 | every item the walk adds lies on the way from the start down to the item reached |
| `ProjectHelpers.EnsurePathThenLookup` | src/Helpers/ProjectHelpers.cs:168-177 | after the walk, looking up the same segments finds the item reached |
| `ProjectHelpers.LookupThenEnsurePath` | src/Helpers/ProjectHelpers.cs:168-177 | when the folders already exist, the walk adds nothing and reaches them |
| `ProjectHelpers.EnsurePathIdempotent` | src/Helpers/ProjectHelpers.cs:168-177 | walking the same folders a second time changes nothing |
| `ProjectHelpers.EnsurePathKeepsNamesUnique` | src/Helpers/ProjectHelpers.cs:168-175 | the walk never adds an item beside one of the same name |
| `ProjectHelpers.FolderSegments` | src/Helpers/ProjectHelpers.cs:156-166 | the climb collects the directory names from the target up to the root, with trailing `\` trimmed from the root, and reverses them into root-to-leaf order; it fails when the climb runs past the top |
| `ProjectHelpers.SegmentsReachAncestor` | src/Helpers/ProjectHelpers.cs:160-164 | the climb meets the root whenever some ancestor of the target equals it ignoring case |
| `ProjectHelpers.AsWrittenGuardAdmitsSibling` | src/Helpers/ProjectHelpers.cs:128 | the written test admits `C:\Proj2\a.cs` for the root `C:\Proj`, and the climb from `C:\Proj2` never meets that root (finding 1) |
| `ProjectHelpers.GuardedFolderReachesRoot` | src/Helpers/ProjectHelpers.cs:128-143 | with the corrected test, a file that does not sit directly in the root folder has a non-empty root-to-leaf folder list |
| `ProjectHelpers.ProjectTree.AddFolders` | src/Helpers/ProjectHelpers.cs:152-178 | the items after the call are the walk over the root-to-leaf folder list, reusing children that match ignoring case; nothing changes when there is no such list |
| `ProjectHelpers.ProjectTree.AddFileToProject` | src/Helpers/ProjectHelpers.cs:118-150 | ASP.NET 5 and SSDT projects are left alone; a file failing the containment test is not added and nothing changes; otherwise the file is added under the folders from the root down to its directory, which are created as needed, and the added item is that folder item followed by the file name |
| `Regexes.Regex.constructor` | src/Templates/TemplateMap.cs:111-114 | a compiled expression remembers the pattern it was built from |
| `Regexes.ScanFrom` | src/Templates/ProjectItemManager.cs:43-51 | the first pattern, in order, that matches wins with its `name` capture; a null pattern met first stops the scan; a miss means no pattern matched |
| `Regexes.ScanFindsFirst` | src/Templates/ProjectItemManager.cs:43-48 | when the `k`th pattern is the first that matches, the scan returns `k` and its capture |
| `LegacyTemplateMapping.Describe` | src/Templates/TemplateMapping.cs:44-47 | the description is the pattern, then ` => `, then the language, then `/` + template name; it is five characters longer than the three parts |
| `LegacyTemplateMapping.DescribeRoundTrip` | src/Templates/TemplateMapping.cs:44-47 | a template name without `/` is read back from the description |
| `LegacyTemplateMapping.TemplateMapping.constructor` | src/Templates/TemplateMapping.cs:32-34 | every property and the cache start out null |
| `LegacyTemplateMapping.TemplateMapping.WithRule` | src/Templates/TemplateMapping.cs:36-42 | stores the three strings and a fresh expression compiled from the pattern |
| `LegacyTemplateMapping.TemplateMapping.GetPatternExpression` | src/Templates/TemplateMapping.cs:18-25 | a cached expression is returned as it is; otherwise a fresh one is built from the current pattern and cached; it throws only for an empty cache and a null pattern; the properties are unchanged |
| `LegacyTemplateMapping.TemplateMapping.ToString` | src/Templates/TemplateMapping.cs:44-47 | the pattern, then ` => `, then the language, then `/` + template name; the template name is given back |
| `LegacyTemplateMapping.LazyCacheOutlivesPattern` | src/Templates/TemplateMapping.cs:18-25 | after the first call, reassigning `Pattern` changes nothing: the same object comes back, built from the first pattern |
| `LegacyTemplateMapping.EagerCacheOutlivesPattern` | src/Templates/TemplateMapping.cs:36-42 | the expression compiled by the constructor is returned even after `Pattern` is reassigned |
| `LegacyTemplateMap.DefaultPatternsDeclareName` | src/Templates/TemplateMap.cs:20-43 | every default pattern is anchored with `^` and declares the group `name` |
| `LegacyTemplateMap.DefaultPatterns` | src/Templates/TemplateMap.cs:18-44 | the seven default patterns, in the order they are added |
| `LegacyTemplateMap.InterfaceRuleBeforeCatchAlls` | src/Templates/TemplateMap.cs:20-43 | a name that the `I.*\.cs` rule accepts never reaches the catch-all `.cs` or `.js` rules, whatever the engine does |
| `LegacyTemplateMap.TemplateMapping.constructor` | src/Templates/TemplateMap.cs:116-118 | every property and the cache start out null |
| `LegacyTemplateMap.TemplateMapping.WithRule` | src/Templates/TemplateMap.cs:120-126 | stores the rule, with a fresh expression compiled from its pattern |
| `LegacyTemplateMap.TemplateMapping.GetPatternExpression` | src/Templates/TemplateMap.cs:99-109 | a cached expression is returned as it is; otherwise a fresh one is built from `Pattern` and cached; it throws exactly when there is neither a cache nor a pattern; the properties and the pattern it matches with never change |
| `LegacyTemplateMap.TemplateMapping.ToString` | src/Templates/TemplateMap.cs:128-131 | the pattern, then ` => `, then the language, then `/` + template name; the template name is given back |
| `LegacyTemplateMap.DefaultMappingPatterns` | src/Templates/TemplateMap.cs:18-44 | mappings that carry the default rules, in order, match with the default patterns |
| `LegacyTemplateMap.TemplateMap.constructor` | src/Templates/TemplateMap.cs:86-88 | a new map is empty |
| `LegacyTemplateMap.TemplateMap.Add` | src/Templates/TemplateMap.cs:13 | `List.Add` appends one mapping |
| `LegacyTemplateMap.TemplateMap.LoadDefaultMappings` | src/Templates/TemplateMap.cs:18-44 | appends exactly seven new, distinct mappings carrying the default rules in order; leaves the existing entries untouched |
| `ItemManager.SupportTestIsCaseSensitive` | src/Templates/ProjectItemManager.cs:32-38 | the exact comparison differs from `IsKind`: the lower-cased ASP.NET 5 kind is that kind for `IsKind`, yet it supports templates here |
| `ItemManager.LookupOf` | src/Templates/ProjectItemManager.cs:40-52 | a hit gives that mapping and the `name` capture; a miss gives neither; a null pattern gives the exception |
| `ItemManager.ProjectItemManager.constructor` | src/Templates/ProjectItemManager.cs:54-58 | keeps the template map |
| `ItemManager.ProjectItemManager.GetTemplate` | src/Templates/ProjectItemManager.cs:40-52 | returns the first mapping, in list order, whose pattern matches, with the `name` capture; compiling fills caches but changes no pattern, language or template name |
| `ItemManager.ProjectItemManager.GetCreator` | src/Templates/ProjectItemManager.cs:13-30 | splits the relative path at `\`, looks up the last segment, and picks the creator as `ChooseCreator` says |
| `ItemManager.ProjectItemManager.CreatorForPath` | src/Templates/ProjectItemManager.cs:17-29 | for an already split path: the lookup runs on the last segment and the creator is the one `ChooseCreator` gives for that lookup's outcome |
| `ItemManager.ChooseCreator` | src/Templates/ProjectItemManager.cs:19-29 | none exactly when a null pattern was met; templated exactly when a template matched and the project supports templates; then only the last segment is replaced by the suggested name; otherwise a plain creator with the split path unchanged |
| `TemplatedItems.GetRelativePath` | src/Templates/TemplatedItemCreator.cs:61-68 | a path under the project directory (ignoring case) loses that directory and one separator; any other path is unchanged; the directory itself throws |
| `TemplatedItems.RelativePathRoundTrip` | src/Templates/TemplatedItemCreator.cs:61-68 | a relative path joined onto the project directory is given back |
| `TemplatedItems.ExtensionTestOnName` | src/Templates/TemplatedItemCreator.cs:33-35 | testing the whole typed path or only its file name for the extension gives the same answer |
| `TemplatedItems.ItemName` | src/Templates/TemplatedItemCreator.cs:31-35 | the typed file name when it already ends with the template's extension (ignoring case), and that name with the extension appended otherwise; so it always ends with the extension and has no separator |
| `TemplatedItems.ItemNameIdempotent` | src/Templates/TemplatedItemCreator.cs:31-35 | naming an item that is already named changes nothing: the extension is never appended twice |
| `TemplatedItems.TemplatedItemCreator.constructor` | src/Templates/TemplatedItemCreator.cs:17-26 | keeps the template, the file name and the full name |
| `TemplatedItems.TemplatedItemCreator.GetItemParent` | src/Templates/TemplatedItemCreator.cs:41-59 | walks every segment but the last, reusing an exactly equal child and adding a folder otherwise; the items change exactly as that walk says |
| `TemplatedItems.TemplatedItemCreator.Create` | src/Templates/TemplatedItemCreator.cs:28-39 | the item goes under the parent the walk reaches, named by `ItemName` |
| `TemplatedItems.CreatedItemShape` | src/Templates/TemplatedItemCreator.cs:41-59 | the new item lies one level below the typed folders; each folder level carries its segment's exact name; the file-name segment never becomes a folder |
| `PlainItems.TemplatePath` | src/Templates/NonTemplatedItemCreator.cs:89-91 | the template path ends with the file's extension, when it has one |
| `PlainItems.TemplateIsNamedByExtension` | src/Templates/NonTemplatedItemCreator.cs:87-91 | a file with an extension finds its template in a file named exactly by that extension |
| `PlainItems.TemplateText` | src/Templates/NonTemplatedItemCreator.cs:93-95 | the template's text exactly when the template file exists, in any letter case |
| `PlainItems.WriteFileAsWritten` | src/Templates/NonTemplatedItemCreator.cs:84-104 | no template gives an empty file and position 0; a template without `$` throws; otherwise the same result as the newer command's marker removal (finding 2) |
| `PlainItems.UnmarkedTemplateThrows` | src/Templates/NonTemplatedItemCreator.cs:96-97 | the templates `body` and the empty text make the written code throw; the marker removal keeps `body` unchanged (finding 2) |
| `PlainItems.CaretMove` | src/Templates/NonTemplatedItemCreator.cs:49-53 | the caret moves only for a positive position, one character less than the newer command's offset |
| `PlainItems.CaretStopsBeforeMarker` | src/Templates/NonTemplatedItemCreator.cs:49-53 | with a `$` after the first character, the caret stops just before the character in front of the `$` |
| `PlainItems.SiblingFolderIsAdded` | src/Templates/NonTemplatedItemCreator.cs:78 | the directory test has no separator boundary: `C:\Proj2\a.cs` is added to the project in `C:\Proj`, which the corrected project guard refuses |
| `PlainItems.Workspace.CreateDirectory` | src/Templates/NonTemplatedItemCreator.cs:31 | the directory and all directories above it exist afterwards; files and project are unchanged |
| `PlainItems.Workspace.WriteAllText` | src/Templates/NonTemplatedItemCreator.cs:98 | the file holds the text afterwards; nothing else changes |
| `PlainItems.Workspace.AddFromFile` | src/Templates/NonTemplatedItemCreator.cs:81 | the project gains the file; nothing else changes |
| `PlainItems.WithDirectory` | src/Templates/NonTemplatedItemCreator.cs:31 | the directory is added with its ancestors and with nothing else |
| `PlainItems.CreateOutcome` | src/Templates/NonTemplatedItemCreator.cs:23-68 | see "Contracts in detail" below |
| `PlainItems.CreateOutcomeAsWritten` | src/Templates/NonTemplatedItemCreator.cs:23-104 | the exception of `WriteFile` escapes exactly when the directory is ready, the file is new and the template has no `$`; the directory is then created but no file is written and the project is unchanged; in every other case the result is `CreateOutcome` (finding 2) |
| `PlainItems.UnmarkedTemplateEscapes` | src/Templates/NonTemplatedItemCreator.cs:41-97 | where the written code throws, the corrected outcome writes the unmarked template unchanged, adds the file as the project decides and reports it unless opening fails (finding 2) |
| `PlainItems.NonTemplatedItemCreator.constructor` | src/Templates/NonTemplatedItemCreator.cs:16-21 | keeps the root folder and the path segments |
| `PlainItems.NonTemplatedItemCreator.Create` | src/Templates/NonTemplatedItemCreator.cs:23-68 | the state afterwards and the result are `CreateOutcome` for the combined path, its template next to the extension's assembly, and the project's own test, with the corrected marker removal |
| `PlainItems.CreateFile` | src/Templates/NonTemplatedItemCreator.cs:28-67 | the steps after the path is known leave exactly the state and result that `CreateOutcome` describes, with the corrected marker removal |
| `PlainItems.ItemFileIsLastSegment` | src/Templates/NonTemplatedItemCreator.cs:25 | the created file is named by the last typed segment, and the reported extension is that segment's own, whatever the root folder |
| `ItemTargets.SolutionFlagsPartition` | src/NewItemTarget.cs:166-168 | `IsSolution` and `IsSolutionFolder` never hold together, and together they cover `IsSolutionOrSolutionFolder` |
| `ItemTargets.ResolveToPhysical` | src/NewItemTarget.cs:112-126 | an item that is not a virtual folder resolves to itself; whatever it gives is not a virtual folder |
| `ItemTargets.FirstResolved` | src/NewItemTarget.cs:119-122 | whatever the search over the children gives is not a virtual folder |
| `ItemTargets.FirstResolvedIsFirst` | src/NewItemTarget.cs:116-123 | a virtual folder resolves to nothing exactly when no child resolves; otherwise to what its first resolving child gives |
| `ItemTargets.OutwardNames` | src/NewItemTarget.cs:137-141 | the walk's names start with the folder's own name |
| `ItemTargets.Outermost` | src/NewItemTarget.cs:137-141 | the last name recorded is that of the outermost folder, which has no parent |
| `ItemTargets.SolutionFolderPath` | src/NewItemTarget.cs:128-148 | a plain folder name is the last component of the path |
| `ItemTargets.SolutionFolderSegments` | src/NewItemTarget.cs:137-145 | after the reversal the segments run from the outermost folder in to the folder itself, and there is at least one |
| `ItemTargets.GetSolutionFolderPath` | src/NewItemTarget.cs:128-148 | the `do … while` walk, the in-place reversal and the combination give `SolutionFolderPath` |
| `ItemTargets.ResolvedFileName` | src/NewItemTarget.cs:96-102 | a name only for a resolved item whose non-empty `FullPath` it is |
| `ItemTargets.CreateFromProjectItem` | src/NewItemTarget.cs:82-110 | an item of a solution folder targets that folder's path as a solution folder; any other item targets the parent of its existing file, or the path itself, or nothing when no name resolves |
| `ItemTargets.CreateFromSolutionExplorerSelection` | src/NewItemTarget.cs:48-80 | nothing unless exactly one node is selected; the solution targets its directory with `IsSolution`; a solution folder targets its path with `IsSolutionFolder`; another project its root folder; an item as `CreateFromProjectItem` says |
| `ItemTargets.CreateFromActiveDocument` | src/NewItemTarget.cs:33-46 | a target exactly when there is an active document, its file exists and the solution finds an item for it; that target is the one `CreateFromProjectItem` makes for the item |
| `ItemTargets.Create` | src/NewItemTarget.cs:13-31 | the selection is consulted only when no document window is active or the document gives no target |

Contracts in detail:
- `AddAnyFilePackage.RemoveCaretMarker` covers `WriteFileAsync`:
  - with no template or an empty one, the file is empty and the position is 0;
  - with no `$`, the template is written unchanged and the position is -1;
  - otherwise the first `$` is removed and its index is returned.
- `PlainItems.CreateOutcome` covers `Create` with the corrected marker removal (finding 2; the code as written is `CreateOutcomeAsWritten`):
  - it does nothing when the directory is missing and cannot be made;
  - directories are only ever added; an existing directory leaves them as they were, and a missing one that can be made is added with its ancestors (`WithDirectory`);
  - it writes a file exactly when the directory is ready and the file did not exist, whether or not opening it then fails;
  - no existing file changes;
  - the written text is the template without its marker;
  - the project gains the file exactly when the project takes it;
  - the result is `Info(file, extension)` exactly when the file was new and opening it did not fail;
  - when every file sat in an existing directory before, every file still does.

## Left out

- The regular-expression engine is not modelled. The pattern at src/AddAnyFilePackage.cs:222 is written out by hand as `MatchAt`, following .NET's backtracking order. The `Regex.IsMatch` tests of `AdjustForSpecific` and `NormalizeLineEndings` are written out as predicates and a scan. The legacy rules' patterns are matched by an abstract `Matcher`, a function from pattern and input to the `name` capture.
- Case-insensitive comparison and `ToUpperInvariant`/`ToLowerInvariant` fold ASCII letters only. Culture-aware and full Unicode case mapping are not modelled.
- `GetDirectoryName` and `DirectoryInfo.Parent` do not special-case drive roots: the parent of `C:\Proj` is `C:`, not `C:\`.
- File and stream I/O is replaced by values:
  - existence is a set of directories, or a map of files to their text, keyed by the upper-cased path;
  - `Directory.GetFiles` is a map from a directory to the templates found under it;
  - `EnsureOutputPath` and `StreamWriter`/`File.WriteAllText` with their encodings are not modelled.
  - `GetFileEncoding` is modelled only as the byte-order-mark choice, `WritesBom`.
- EnvDTE, COM and shell calls are not modelled. They become inputs: the active project, the selection, `FindProjectItem`, `GetRootFolder`, the project file path that `GetProjectRoot` gives, `MakeRelative`'s result, and the template's `DefaultName`. Not modelled at all: `OpenDocument`, `ExecuteCommand`, `AddFromTemplate`, `SetItemType`, `FindSolutionFolder`, item deletion, the caret's `MoveTo`/`CharRight` and the message boxes.
- `ExecuteAsync` is modelled only as its decisions:
  - the input normalisation;
  - the folder sentinel;
  - the reserved-name test;
  - `EntryOutcomeOf`, with the template read reduced to whether it succeeds.
- `PathTooLongException` and other exceptions from `FileInfo` are not modelled.
- `AddAnyFilePackage.EntryOutcomeOf` and `PlainItems.CreateOutcome` do not resolve `.` and `..` segments or collapse repeated `\` in the combined path. `FileInfo.FullName` and `FileInfo.Exists` do this at src/AddAnyFilePackage.cs:90-118, and so do `Directory.Exists` and `File.Exists` at src/Templates/NonTemplatedItemCreator.cs:30-39. The model takes the path as `Path.Combine` writes it and looks it up under that key. So an entry such as `..\Shared\a.cs` or `.\a.cs`, naming a file that already exists, is found to exist by the source but is treated as new by the model. When the combined path has no such segments, the two agree.
- Async code and threading are not modelled: `await`, `ThreadHelper` and the lock in src/Templates/TemplateMap.cs:102. `GetPatternExpression` is modelled as run by one thread, where the second test of the double-checked cache always agrees with the first.
- JSON and XML are not modelled:
  - `LoadFromFile` and `WriteToFile` of the legacy template map use Newtonsoft JSON;
  - `GetTargetExtension` reads the `.vstemplate` XML, and the model takes the template's default name as a parameter.
- Only part of the legacy subsystem is modelled, because it does not type-check against the current code:
  - `ProjectItemManager.GetCreator` calls the `TemplatedItemCreator` constructor with three arguments where the constructor takes four. The model returns a `Creator` value that records what is passed.
  - `TemplatedItemCreator.Create` returns `void`, although `IItemCreator` expects an `ItemInfo`. The model's `Create` returns the new item's path.
  - `TemplateMap.TemplateReference` does not exist. The creator holds a `TemplateMapping`.
  - `_solution.GetProjectItemTemplate` is left out.
- `ItemBuilderToken` is not modelled; it is unused.
- Null arguments are not modelled:
  - a null project in `DoesProjectSupportTemplates`, `GetCreator` and `AddFolders`;
  - null strings passed to the legacy constructors.
- `LegacyTemplateMap.TemplateMap.LoadDefaultMappings` loops over the rule list instead of making seven separate `Add` calls. The effect is the same.
- `PlainItems.CreateOutcome`, `PlainItems.CreateFile` and `PlainItems.NonTemplatedItemCreator.Create` use the corrected marker removal (finding 2): they write a template without `$` unchanged, where the code as written throws out of `Create`. That exception path is modelled separately by `PlainItems.CreateOutcomeAsWritten`.
- `TemplateMap.FillTokensFillsEverySlot` and the lemmas built on it cover templates in which no token can start inside the literal text, and a namespace and item name without `{`. Outside those, an earlier replacement can complete or create a token that a later pass fills, and the result is described only by `FillTokens` itself.
- `PlainItems.NonTemplatedItemCreator.Create` does not model an exception from `AddFromFile`. Only a failure in opening the file is modelled, as `openFails`; both end in the same `catch`.
- `ProjectHelpers.ProjectTree.AddFileToProject` models the corrected containment test (finding 1). For ASP.NET 5 and SSDT projects it returns only that the solution finds the item.
- UI, telemetry, logging, the legacy command in AddAnyFile/AddAnyFilePackage.cs, src/FileNameDialog.xaml.cs and the GUID constants are not modelled.

## Findings

| source | as written | input that shows it | evidently intended | confidence | as-written member | corrected member |
|---|---|---|---|---|---|---|
| src/Helpers/ProjectHelpers.cs:128 | `AddFileToProject` admits any file whose full name starts with the root folder's text, ignoring case, with no separator after the root | root `C:\Proj`, file `C:\Proj2\a.cs`: the file is admitted, and `AddFolders` climbs from `C:\Proj2` past the top without meeting the root, so it dereferences a null parent | admit only files inside the root folder, with a separator after the root | not executed | `ProjectHelpers.AsWrittenGuardAdmitsSibling` | `ProjectHelpers.GuardedFolderReachesRoot` |
| src/Templates/NonTemplatedItemCreator.cs:96-97 | `WriteFile` calls `Remove(IndexOf('$'), 1)` without checking for -1. The exception is outside the `try` of `Create` (line 41), so it escapes | a template file containing `body`, or an empty template file: the directory is created, no file is written and the exception leaves `Create` | write a template without `$` unchanged, as the newer command does at src/AddAnyFilePackage.cs:182-185 | not executed | `PlainItems.CreateOutcomeAsWritten` | `PlainItems.CreateOutcome` |

=== FILE: add_any_file_package.dfy ===
/**
 * The "Add New File" command of src/AddAnyFilePackage.cs: how the typed text
 * is normalised and expanded into relative paths, which names are refused,
 * whether a byte-order mark is written, the `$` cursor marker and the
 * `__dummy__` sentinel that turns a trailing `\` into a folder.
 */
module AddAnyFilePackage {
  import opened Wrappers
  import opened Text
  import opened Paths
  import TemplateMap

  // ---------------------------------------------------------------------------
  // Input normalisation

  /** Drops every leading `/` and `\` (`TrimStart('/', '\\')`). */
  function TrimLeadingSeparators(s: string): (r: string)
    ensures |r| <= |s| && r == s[|s| - |r|..]
    ensures r == [] || !IsSeparator(r[0])
    ensures forall i :: 0 <= i < |s| - |r| ==> IsSeparator(s[i])
  {
    if s != [] && IsSeparator(s[0]) then TrimLeadingSeparators(s[1..]) else s
  }

  /** The text the dialog returned, with leading separators trimmed and every `/` turned into `\`. */
  function NormalizeInput(typed: string): (r: string)
    ensures |r| <= |typed|
    ensures r == [] || !IsSeparator(r[0])
    ensures '/' !in r
    ensures forall i :: 0 <= i < |r| ==>
      r[i] == (var c := typed[|typed| - |r| + i]; if c == '/' then '\\' else c)
  {
    var t := TrimLeadingSeparators(typed);
    ReplaceCharByChar(t, '/', '\\');
    Replace(t, "/", "\\")
  }

  /** Normalising twice is normalising once. */
  lemma NormalizeInputIdempotent(typed: string)
    ensures NormalizeInput(NormalizeInput(typed)) == NormalizeInput(typed)
  {
    var n := NormalizeInput(typed);
    assert TrimLeadingSeparators(n) == n;
    ReplaceCharByChar(n, '/', '\\');
    assert Replace(n, "/", "\\") == n;
  }

  // ---------------------------------------------------------------------------
  // Pattern expansion: the regular expression
  //   [,]?([^(,]*)([\.\/\\]?)[(]?((?<=[^(])[^,]*|[^)]+)[)]?
  // written out as the backtracking engine runs it.

  /**
   * One match of the expansion pattern. `prefix` is group 1 and `alternatives`
   * group 3. Group 2 (an optional `.`, `/` or `\`) always matches empty: group 1
   * is greedy over every character except `(` and `,`, so it never stops in front
   * of a separator, and no backtracking path ever returns a character to it.
   */
  datatype Match = Match(start: nat, prefix: string, alternatives: string, end: nat)

  /** The lookbehind `(?<=[^(])`: some character precedes position `j` and it is not `(`. */
  predicate LookbehindOk(s: string, j: nat)
    requires j <= |s|
  {
    0 < j && s[j - 1] != '('
  }

  /** The first position at or after `i` that holds `c`, or the end of `s`. */
  function ScanTo(s: string, i: nat, c: char): (k: nat)
    requires i <= |s|
    ensures i <= k <= |s|
    ensures k < |s| ==> s[k] == c
    ensures forall j :: i <= j < k ==> s[j] != c
    decreases |s| - i
  {
    if i == |s| || s[i] == c then i else ScanTo(s, i + 1, c)
  }

  /** Where group 1, `[^(,]*` starting at `i`, ends. */
  function PrefixEnd(s: string, i: nat): (k: nat)
    requires i <= |s|
    ensures i <= k <= |s|
    ensures k < |s| ==> s[k] == '(' || s[k] == ','
    ensures forall j :: i <= j < k ==> s[j] != '(' && s[j] != ','
    decreases |s| - i
  {
    if i == |s| || s[i] == '(' || s[i] == ',' then i else PrefixEnd(s, i + 1)
  }

  /**
   * The match the engine finds when it starts at `p`, trying the alternatives
   * in the engine's order: with `(` consumed, `[^)]+` (the lookbehind branch
   * cannot hold right after `(`); failing that, `(` left unconsumed and the
   * lookbehind branch `[^,]*`, then `[^)]+` from the `(` itself.
   */
  function MatchAt(s: string, p: nat): (r: Option<Match>)
    requires p <= |s|
    ensures r.Some? ==> r.value.start == p && p <= r.value.end <= |s|
    ensures p < |s| ==> r.Some? && p < r.value.end
  {
    var i := if p < |s| && s[p] == ',' then p + 1 else p;
    var j := PrefixEnd(s, i);
    var prefix := s[i..j];
    if j < |s| && s[j] == '(' then
      if j + 1 < |s| && s[j + 1] != ')' then
        var k := ScanTo(s, j + 1, ')');
        Some(Match(p, prefix, s[j + 1..k], if k < |s| then k + 1 else k))
      else if LookbehindOk(s, j) then
        var k := ScanTo(s, j, ',');
        Some(Match(p, prefix, s[j..k], k))
      else
        var k := ScanTo(s, j, ')');
        Some(Match(p, prefix, s[j..k], if k < |s| then k + 1 else k))
    else if LookbehindOk(s, j) then
      Some(Match(p, prefix, [], j))
    else if j < |s| then
      var k := ScanTo(s, j, ')');
      Some(Match(p, prefix, s[j..k], if k < |s| then k + 1 else k))
    else
      None
  }

  /**
   * `Match.NextMatch()`: the search resumes where the last match ended, one
   * position further after an empty match. Since `MatchAt` succeeds at every
   * position before the end, the engine never has to skip ahead.
   */
  function NextMatch(s: string, m: Match): (r: Option<Match>)
    requires m.start <= m.end <= |s|
    ensures r.Some? ==> m.start < r.value.start <= r.value.end <= |s|
  {
    if m.start < m.end then MatchAt(s, m.end)
    else if m.end < |s| then MatchAt(s, m.end + 1)
    else None
  }

  predicate WellPlaced(s: string, m: Option<Match>) {
    m.Some? ==> m.value.start <= m.value.end <= |s|
  }

  function Remaining(s: string, m: Option<Match>): nat {
    if m.Some? && m.value.start <= |s| then |s| + 1 - m.value.start else 0
  }

  /** The values the loop body forms from one match: the trimmed prefix followed by each trimmed alternative. */
  function MatchValues(m: Match): seq<string> {
    ValuesOf(Trim(m.prefix), Split(m.alternatives, ','))
  }

  /** The path followed by each trimmed extension, in order. */
  function ValuesOf(path: string, extensions: seq<string>): (r: seq<string>)
    ensures |r| == |extensions|
    ensures forall k :: 0 <= k < |extensions| ==> r[k] == path + Trim(extensions[k])
  {
    seq(|extensions|, k requires 0 <= k < |extensions| => path + Trim(extensions[k]))
  }

  /** The values formed from `m` and every match after it, in match order. */
  function ValuesFrom(s: string, m: Option<Match>): seq<string>
    requires WellPlaced(s, m)
    decreases Remaining(s, m)
  {
    match m
    case None => []
    case Some(mm) => MatchValues(mm) + ValuesFrom(s, NextMatch(s, mm))
  }

  lemma ValuesFromMatch(s: string, m: Match)
    requires m.start <= m.end <= |s|
    ensures ValuesFrom(s, Some(m)) == MatchValues(m) + ValuesFrom(s, NextMatch(s, m))
  {
  }

  /** Every value the loop forms for `input`, before filtering. */
  function Candidates(input: string): seq<string> {
    ValuesFrom(input, MatchAt(input, 0))
  }

  // ---------------------------------------------------------------------------
  // Filtering and de-duplication

  /** Some element of `xs` equals `v` under ordinal case-insensitive comparison. */
  predicate ContainsIgnoreCase(xs: seq<string>, v: string) {
    exists x :: x in xs && EqualsIgnoreCase(x, v)
  }

  /** A value that can name a file or folder: not empty, not ending in `.`. */
  predicate Acceptable(v: string) {
    v != [] && !EndsWith(v, ".")
  }

  /** The test the loop applies before `results.Add(value)`. */
  predicate Keeps(results: seq<string>, v: string) {
    Acceptable(v) && !ContainsIgnoreCase(results, v)
  }

  /** The results list after the loop has seen `values`, starting from `results`. */
  function Collect(results: seq<string>, values: seq<string>): seq<string>
    decreases |values|
  {
    if values == [] then results
    else Collect(if Keeps(results, values[0]) then results + [values[0]] else results, values[1..])
  }

  /** What `GetParsedInput` returns. */
  function ParsedInput(input: string): seq<string> {
    Collect([], Candidates(input))
  }

  /** `GetParsedInput`: runs the matches in order and, within a match, the alternatives in order. */
  method GetParsedInput(input: string) returns (results: seq<string>)
    ensures results == ParsedInput(input)
  {
    results := [];
    var m := MatchAt(input, 0);
    while m.Some?
      invariant WellPlaced(input, m)
      invariant Collect(results, ValuesFrom(input, m)) == ParsedInput(input)
      decreases Remaining(input, m)
    {
      var path := Trim(m.value.prefix);
      var extensions := Split(m.value.alternatives, ',');
      ghost var rest := ValuesFrom(input, NextMatch(input, m.value));
      ValuesFromMatch(input, m.value);
      CollectAppend(results, ValuesOf(path, extensions), rest);
      results := AddValues(results, path, extensions);
      m := NextMatch(input, m.value);
    }
  }

  /** The inner loop of `GetParsedInput`: each extension after the path, kept when acceptable and new. */
  method AddValues(results: seq<string>, path: string, extensions: seq<string>) returns (r: seq<string>)
    ensures r == Collect(results, ValuesOf(path, extensions))
  {
    r := results;
    ghost var values := ValuesOf(path, extensions);
    for k := 0 to |extensions|
      invariant Collect(r, values[k..]) == Collect(results, values)
    {
      var value := path + Trim(extensions[k]);
      assert values[k..][1..] == values[k + 1..];
      if Acceptable(value) && !ContainsIgnoreCase(r, value) {
        r := r + [value];
      }
    }
  }

  lemma {:induction false} CollectAppend(acc: seq<string>, xs: seq<string>, ys: seq<string>)
    ensures Collect(acc, xs + ys) == Collect(Collect(acc, xs), ys)
    decreases |xs|
  {
    if xs == [] {
      assert xs + ys == ys;
    } else {
      assert (xs + ys)[0] == xs[0];
      assert (xs + ys)[1..] == xs[1..] + ys;
      CollectAppend(if Keeps(acc, xs[0]) then acc + [xs[0]] else acc, xs[1..], ys);
    }
  }

  // ---------------------------------------------------------------------------
  // What the expansion guarantees

  /** Every element is acceptable and no two are equal ignoring case. */
  predicate WellFormedResults(xs: seq<string>) {
    (forall i :: 0 <= i < |xs| ==> Acceptable(xs[i]))
    && (forall i, j :: 0 <= i < j < |xs| ==> !EqualsIgnoreCase(xs[i], xs[j]))
  }

  /** Values equal ignoring case are acceptable together or not at all: case folding fixes `.`. */
  lemma AcceptableIgnoresCase(a: string, b: string)
    requires EqualsIgnoreCase(a, b)
    ensures Acceptable(a) <==> Acceptable(b)
  {
    assert |a| == |Upper(a)| == |Upper(b)| == |b|;
    if |a| > 0 {
      assert ToUpper(a[|a| - 1]) == Upper(a)[|a| - 1] == Upper(b)[|b| - 1] == ToUpper(b[|b| - 1]);
      assert a[|a| - 1] == '.' <==> b[|b| - 1] == '.';
      assert EndsWith(a, ".") <==> a[|a| - 1] == '.';
      assert EndsWith(b, ".") <==> b[|b| - 1] == '.';
    }
  }

  lemma {:induction false} CollectWellFormed(acc: seq<string>, values: seq<string>)
    requires WellFormedResults(acc)
    ensures WellFormedResults(Collect(acc, values))
    decreases |values|
  {
    if values != [] {
      var v := values[0];
      if Keeps(acc, v) {
        var next := acc + [v];
        forall i, j | 0 <= i < j < |next| ensures !EqualsIgnoreCase(next[i], next[j]) {
          if j == |acc| {
            assert next[i] in acc;
          }
        }
        CollectWellFormed(next, values[1..]);
      } else {
        CollectWellFormed(acc, values[1..]);
      }
    }
  }

  lemma {:induction false} CollectComplete(acc: seq<string>, values: seq<string>, v: string)
    requires v in values && Acceptable(v)
    ensures ContainsIgnoreCase(Collect(acc, values), v)
    decreases |values|
  {
    if values[0] == v {
      var next := if Keeps(acc, v) then acc + [v] else acc;
      assert ContainsIgnoreCase(next, v) by {
        if Keeps(acc, v) {
          assert v in next;
        }
      }
      CollectExtends(next, values[1..]);
    } else {
      CollectComplete(if Keeps(acc, values[0]) then acc + [values[0]] else acc, values[1..], v);
    }
  }

  lemma {:induction false} CollectExtends(acc: seq<string>, values: seq<string>)
    ensures forall x :: x in acc ==> x in Collect(acc, values)
    decreases |values|
  {
    if values != [] {
      var next := if Keeps(acc, values[0]) then acc + [values[0]] else acc;
      CollectExtends(next, values[1..]);
    }
  }

  /**
   * No expanded path is empty or ends in `.`, and no two are equal ignoring
   * case; every acceptable candidate is represented, ignoring case.
   */
  lemma ParsedInputProperties(input: string)
    ensures WellFormedResults(ParsedInput(input))
    ensures forall v :: v in Candidates(input) && Acceptable(v) ==> ContainsIgnoreCase(ParsedInput(input), v)
  {
    CollectWellFormed([], Candidates(input));
    forall v | v in Candidates(input) && Acceptable(v) ensures ContainsIgnoreCase(ParsedInput(input), v) {
      CollectComplete([], Candidates(input), v);
    }
  }

  /**
   * An independent account of the de-duplication: keep the acceptable values
   * that equal no earlier value ignoring case, in their original order.
   */
  function FirstOccurrences(values: seq<string>): seq<string>
    decreases |values|
  {
    if values == [] then []
    else
      var init := values[..|values| - 1];
      var v := values[|values| - 1];
      FirstOccurrences(init)
        + (if Acceptable(v) && forall k :: 0 <= k < |init| ==> !EqualsIgnoreCase(init[k], v) then [v] else [])
  }

  lemma {:induction false} CollectSnoc(acc: seq<string>, values: seq<string>, v: string)
    ensures Collect(acc, values + [v]) == Collect(Collect(acc, values), [v])
    decreases |values|
  {
    if values == [] {
      assert values + [v] == [v];
    } else {
      assert (values + [v])[1..] == values[1..] + [v];
      CollectSnoc(if Keeps(acc, values[0]) then acc + [values[0]] else acc, values[1..], v);
    }
  }

  lemma {:induction false} FirstOccurrencesElements(values: seq<string>)
    ensures forall x :: x in FirstOccurrences(values) ==> x in values
    decreases |values|
  {
    if values != [] {
      FirstOccurrencesElements(values[..|values| - 1]);
    }
  }

  /** The loop keeps exactly the first occurrence of each acceptable value, ignoring case. */
  lemma {:induction false} CollectIsFirstOccurrences(values: seq<string>)
    ensures Collect([], values) == FirstOccurrences(values)
    decreases |values|
  {
    if values != [] {
      var init := values[..|values| - 1];
      var v := values[|values| - 1];
      assert values == init + [v];
      CollectIsFirstOccurrences(init);
      CollectSnoc([], init, v);
      var acc := FirstOccurrences(init);
      var isNew := forall k :: 0 <= k < |init| ==> !EqualsIgnoreCase(init[k], v);
      if Acceptable(v) {
        if isNew {
          if ContainsIgnoreCase(acc, v) {
            var x :| x in acc && EqualsIgnoreCase(x, v);
            FirstOccurrencesElements(init);
            assert false;
          }
        } else {
          var k :| 0 <= k < |init| && EqualsIgnoreCase(init[k], v);
          AcceptableIgnoresCase(init[k], v);
          assert init[k] in init;
          CollectComplete([], init, init[k]);
          var x :| x in acc && EqualsIgnoreCase(x, init[k]);
          EqualsIgnoreCaseTransitive(x, init[k], v);
        }
      }
    }
  }

  /** `GetParsedInput` is the first-occurrence de-duplication of the candidates. */
  lemma ParsedInputIsFirstOccurrences(input: string)
    ensures ParsedInput(input) == FirstOccurrences(Candidates(input))
  {
    CollectIsFirstOccurrences(Candidates(input));
  }

  // ---------------------------------------------------------------------------
  // The expansion on the entry shapes it is meant for

  /** A non-empty match is followed by the match at its end. */
  lemma ValuesAfter(s: string, m: Match)
    requires m.start < m.end <= |s|
    ensures ValuesFrom(s, Some(m)) == MatchValues(m) + ValuesFrom(s, MatchAt(s, m.end))
  {
    ValuesFromMatch(s, m);
  }

  /** At the end of an input not ending in `(`, the engine finds one last empty match, which yields only the empty value. */
  lemma FinalValues(s: string)
    requires s != [] && s[|s| - 1] != '('
    ensures ValuesFrom(s, MatchAt(s, |s|)) == [[]]
  {
    var m := Match(|s|, [], [], |s|);
    assert PrefixEnd(s, |s|) == |s|;
    assert s[|s|..|s|] == [];
    assert LookbehindOk(s, |s|);
    assert MatchAt(s, |s|) == Some(m);
    ValuesFromMatch(s, m);
    assert NextMatch(s, m) == None;
    assert Split([], ',') == [[]];
    assert Trim([]) == [];
    assert MatchValues(m) == [[]];
  }

  lemma SingleMatch(s: string)
    requires s != [] && '(' !in s && ',' !in s
    ensures MatchAt(s, 0) == Some(Match(0, s, [], |s|))
  {
    assert PrefixEnd(s, 0) == |s|;
    assert s[0..|s|] == s;
  }

  /**
   * An entry without `(` or `,`, such as `folder\file.txt` or `.ignore`,
   * expands to itself trimmed, or to nothing when that is empty or ends in `.`.
   */
  lemma SingleName(s: string)
    requires '(' !in s && ',' !in s
    ensures ParsedInput(s) == if Acceptable(Trim(s)) then [Trim(s)] else []
  {
    if s == [] {
      assert MatchAt(s, 0) == None;
    } else {
      SingleCandidates(s);
      DropsEmpty(Trim(s));
    }
  }

  /** A non-empty entry without `(` or `,` gives its trimmed self and then the empty value. */
  lemma SingleCandidates(s: string)
    requires s != [] && '(' !in s && ',' !in s
    ensures Candidates(s) == [Trim(s), []]
  {
    SingleEntryMatches(s);
    SingleMatchValues(s);
  }

  /** A non-empty entry without `(` or `,` is matched whole, and then once more, empty, at its end. */
  lemma SingleEntryMatches(s: string)
    requires s != [] && '(' !in s && ',' !in s
    ensures Candidates(s) == MatchValues(Match(0, s, [], |s|)) + [[]]
  {
    var m1 := Match(0, s, [], |s|);
    SingleMatch(s);
    ValuesAfter(s, m1);
    FinalValues(s);
  }

  /** The match of a whole entry without alternatives yields the trimmed entry alone. */
  lemma SingleMatchValues(s: string)
    ensures MatchValues(Match(0, s, [], |s|)) == [Trim(s)]
  {
    NoAlternatives(Trim(s));
  }

  /** A match without alternatives yields its trimmed prefix alone. */
  lemma NoAlternatives(path: string)
    ensures ValuesOf(path, Split([], ',')) == [path]
  {
    assert Split([], ',') == [[]];
    assert Trim([]) == [];
    assert path + [] == path;
  }

  lemma DropsEmpty(t: string)
    ensures Collect([], [t, []]) == if Acceptable(t) then [t] else []
  {
    var acc := if Keeps([], t) then [t] else [];
    assert [t, []][1..] == [[]];
    assert Collect([], [t, []]) == Collect(acc, [[]]);
    assert !Keeps(acc, []);
  }

  lemma GroupMatch(prefix: string, alts: string)
    requires '(' !in prefix && ',' !in prefix
    requires alts != [] && ')' !in alts
    ensures var s := prefix + "(" + alts + ")";
      MatchAt(s, 0) == Some(Match(0, prefix, alts, |s|))
  {
    var s := prefix + "(" + alts + ")";
    var j := |prefix|;
    assert s[j] == '(';
    assert s[j + 1] == alts[0];
    assert forall i :: 0 <= i < j ==> s[i] == prefix[i];
    assert PrefixEnd(s, 0) == j;
    assert s[0..j] == prefix;
    var k := |s| - 1;
    assert forall i :: j + 1 <= i < k ==> s[i] != ')' by {
      forall i | j + 1 <= i < k ensures s[i] != ')' {
        assert s[i] == alts[i - j - 1];
      }
    }
    assert s[k] == ')';
    assert ScanTo(s, j + 1, ')') == k;
    assert s[j + 1..k] == alts;
  }

  /**
   * `name.(a, b, ...)` expands to the trimmed name followed by each trimmed
   * alternative, keeping only the first of values equal ignoring case.
   */
  lemma Group(prefix: string, alts: string)
    requires '(' !in prefix && ',' !in prefix
    requires alts != [] && ')' !in alts
    ensures ParsedInput(prefix + "(" + alts + ")") == FirstOccurrences(ValuesOf(Trim(prefix), Split(alts, ',')))
  {
    var s := prefix + "(" + alts + ")";
    var m1 := Match(0, prefix, alts, |s|);
    GroupMatch(prefix, alts);
    ValuesAfter(s, m1);
    FinalValues(s);
    SplitJoin(alts, ',');
    CollectAppend([], MatchValues(m1), [[]]);
    CollectIsFirstOccurrences(MatchValues(m1));
  }

  // ---------------------------------------------------------------------------
  // Reserved names

  /** The device names Windows reserves, in the order the command lists them. */
  const ReservedNames: seq<string> := DeviceNames + SerialPorts + ParallelPorts
  const DeviceNames: seq<string> := ["CON", "PRN", "AUX", "NUL"]
  const SerialPorts: seq<string> := ["COM1", "COM2", "COM3", "COM4", "COM5", "COM6", "COM7", "COM8", "COM9", "COM0"]
  const ParallelPorts: seq<string> := ["LPT1", "LPT2", "LPT3", "LPT4", "LPT5", "LPT6", "LPT7", "LPT8", "LPT9", "LPT0"]

  /** `IsFileNameValid`: the whole name is none of the reserved device names, ignoring case. */
  predicate IsFileNameValid(fileName: string) {
    !exists d :: d in ReservedNames && EqualsIgnoreCase(fileName, d)
  }

  /** A string without lower-case letters is its own upper-casing. */
  lemma UpperFixed(d: string)
    requires forall i :: 0 <= i < |d| ==> !('a' <= d[i] <= 'z')
    ensures Upper(d) == d
  {
  }

  /** Each reserved name is upper-case letters and digits only, three or four characters long. */
  predicate DeviceShaped(d: string) {
    3 <= |d| <= 4 && forall i :: 0 <= i < |d| ==> 'A' <= d[i] <= 'Z' || '0' <= d[i] <= '9'
  }

  lemma ReservedNamesAreUpper()
    ensures forall d :: d in ReservedNames ==> Upper(d) == d && '.' !in d && 3 <= |d| <= 4
  {
    assert forall d :: d in DeviceNames ==> DeviceShaped(d);
    assert forall d :: d in SerialPorts ==> DeviceShaped(d);
    assert forall d :: d in ParallelPorts ==> DeviceShaped(d);
    forall d | d in ReservedNames ensures Upper(d) == d && '.' !in d {
      assert d in DeviceNames || d in SerialPorts || d in ParallelPorts;
      UpperFixed(d);
    }
  }

  /**
   * A name is refused exactly when its upper-casing is one of the reserved
   * names; in particular a name with a `.`, such as one with an extension,
   * and a name of other than three or four characters are allowed.
   */
  lemma ReservedNameShape(fileName: string)
    ensures !IsFileNameValid(fileName) <==> Upper(fileName) in ReservedNames
    ensures '.' in fileName || |fileName| < 3 || |fileName| > 4 ==> IsFileNameValid(fileName)
  {
    RefusedIffUpperReserved(fileName);
    DotSurvivesUpper(fileName);
    ReservedNamesAreUpper();
  }

  /** Refused exactly when the upper-cased name is reserved: the reserved names are their own upper-casing. */
  lemma RefusedIffUpperReserved(fileName: string)
    ensures !IsFileNameValid(fileName) <==> Upper(fileName) in ReservedNames
  {
    ReservedNamesAreUpper();
    var u := Upper(fileName);
    if u in ReservedNames {
      assert EqualsIgnoreCase(fileName, u);
    }
  }

  /** Upper-casing keeps every `.`. */
  lemma DotSurvivesUpper(s: string)
    ensures '.' in s ==> '.' in Upper(s)
  {
    if '.' in s {
      var i :| 0 <= i < |s| && s[i] == '.';
      assert Upper(s)[i] == '.';
    }
  }

  /** `CON.txt` may be created; `con` and `Lpt0` may not. */
  lemma ReservedNameExamples()
    ensures IsFileNameValid("CON.txt")
    ensures !IsFileNameValid("con") && !IsFileNameValid("Lpt0")
  {
    ReservedNameShape("CON.txt");
    ReservedNameShape("con");
    assert Upper("con") == "CON";
    ReservedNameShape("Lpt0");
    assert Upper("Lpt0") == "LPT0";
  }

  // ---------------------------------------------------------------------------
  // Byte-order mark

  /** `GetFileEncoding`, as the one choice it makes: UTF-8 with a byte-order mark or without. */
  predicate WritesBom(file: string) {
    Lower(GetExtension(file)) !in [".cmd", ".bat", ".json"]
  }

  /** A lower-case extension: a `.` followed by characters that are neither `.`, a boundary nor upper-case. */
  predicate PlainExtension(e: string) {
    |e| >= 2 && e[0] == '.'
    && forall i :: 1 <= i < |e| ==> e[i] != '.' && !IsNameBoundary(e[i]) && !('A' <= e[i] <= 'Z')
  }

  lemma LowerOfUpper(c: char)
    ensures ToLower(ToUpper(c)) == ToLower(c)
  {
  }

  /** The extension of `file`, lower-cased, is `e` exactly when `file` ends with `e` ignoring case. */
  lemma ExtensionIs(file: string, e: string)
    requires PlainExtension(e)
    ensures Lower(GetExtension(file)) == e <==> EndsWithIgnoreCase(file, e)
  {
    if Lower(GetExtension(file)) == e {
      ExtensionIsSuffix(file, e);
    }
    if EndsWithIgnoreCase(file, e) {
      SuffixIsExtension(file, e);
    }
  }

  lemma ExtensionIsSuffix(file: string, e: string)
    requires Lower(GetExtension(file)) == e
    ensures EndsWithIgnoreCase(file, e)
  {
    ExtensionEndsPath(file);
    EndsWithLower(file, GetExtension(file));
  }

  /** The extension is a suffix of the whole path. */
  lemma ExtensionEndsPath(file: string)
    ensures EndsWith(file, GetExtension(file))
  {
    EndsWithEmptyOrSuffix(file, GetFileName(file), GetExtension(file));
  }

  /** A text ends with the empty text and with every suffix of a suffix of it. */
  lemma EndsWithEmptyOrSuffix(s: string, t: string, u: string)
    requires EndsWith(s, t) && (u != [] ==> EndsWith(t, u))
    ensures EndsWith(s, u)
  {
    if u == [] {
      assert s[|s|..] == u;
    } else {
      EndsWithTransitive(s, t, u);
    }
  }

  /** A text ends with any suffix of its own lower-cased, ignoring case. */
  lemma EndsWithLower(s: string, t: string)
    requires EndsWith(s, t)
    ensures EndsWithIgnoreCase(s, Lower(t))
  {
    UpperOfLower(t);
    assert s[|s| - |Lower(t)|..] == t;
  }

  lemma SuffixIsExtension(file: string, e: string)
    requires PlainExtension(e) && EndsWithIgnoreCase(file, e)
    ensures Lower(GetExtension(file)) == e
  {
    var t := file[|file| - |e|..];
    assert EndsWith(file, t);
    CaseMatchedExtension(t, e);
    ExtensionOfSuffix(file, t);
  }

  /** A text equal ignoring case to a plain extension is an extension too, and lower-cases to it. */
  lemma CaseMatchedExtension(t: string, e: string)
    requires PlainExtension(e) && |t| == |e| && Upper(t) == Upper(e)
    ensures Lower(t) == e && |t| >= 2 && t[0] == '.'
    ensures forall i :: 1 <= i < |t| ==> t[i] != '.' && !IsNameBoundary(t[i])
  {
    forall i | 0 <= i < |e| ensures ToLower(t[i]) == e[i] && (i == 0 <==> t[i] == '.') && !IsNameBoundary(t[i]) {
      assert ToUpper(t[i]) == Upper(t)[i] == Upper(e)[i] == ToUpper(e[i]);
      SameCharIgnoringCase(t[i], e[i]);
    }
    assert Lower(t) == e;
  }

  /** A character equal ignoring case to one that is not an upper-case letter lower-cases to it, and is `.` or a boundary exactly when it is. */
  lemma SameCharIgnoringCase(tc: char, ec: char)
    requires ToUpper(tc) == ToUpper(ec) && !('A' <= ec <= 'Z')
    ensures ToLower(tc) == ec
    ensures tc == '.' <==> ec == '.'
    ensures IsNameBoundary(tc) <==> IsNameBoundary(ec)
  {
    LowerOfUpper(tc);
    LowerOfUpper(ec);
  }

  /** A final `.` followed by at least one character that is neither `.` nor a boundary is the extension. */
  lemma ExtensionOfSuffix(file: string, t: string)
    requires EndsWith(file, t) && |t| >= 2 && t[0] == '.'
    requires forall i :: 1 <= i < |t| ==> t[i] != '.' && !IsNameBoundary(t[i])
    ensures GetExtension(file) == t
  {
    var start := |file| - |t|;
    forall j | start <= j < |file| ensures !IsNameBoundary(file[j]) {
      assert file[j] == t[j - start];
    }
    var b := NameStart(file);
    assert b <= start;
    var n := GetFileName(file);
    assert n == file[b..];
    var k := |n| - |t|;
    assert n[k..] == t;
    forall j | k < j < |n| ensures n[j] != '.' {
      assert n[j] == t[j - k];
    }
    LastIndexOfIs(n, '.', k);
  }

  lemma PlainExtensionLiteral(e: string)
    requires e == ".cmd" || e == ".bat" || e == ".json"
    ensures PlainExtension(e)
  {
  }

  /**
   * No byte-order mark is written exactly for a path ending in `.cmd`, `.bat`
   * or `.json`, in any letter case.
   */
  lemma WritesBomBySuffix(file: string)
    ensures !WritesBom(file) <==>
      EndsWithIgnoreCase(file, ".cmd") || EndsWithIgnoreCase(file, ".bat") || EndsWithIgnoreCase(file, ".json")
  {
    PlainExtensionLiteral(".cmd");
    PlainExtensionLiteral(".bat");
    PlainExtensionLiteral(".json");
    ExtensionIs(file, ".cmd");
    ExtensionIs(file, ".bat");
    ExtensionIs(file, ".json");
  }

  // ---------------------------------------------------------------------------
  // The `$` cursor marker

  /** What `WriteFileAsync` puts on disk, and the caret position it returns. */
  datatype Written = Written(content: string, position: int)

  /**
   * `WriteFileAsync` given the resolved template text (`None` for null): a
   * non-empty template loses its first `$`, whose index is returned (-1 when
   * there is none); no template gives an empty file and position 0.
   */
  function RemoveCaretMarker(template: Option<string>): (w: Written)
    ensures (template.None? || template.value == []) ==> w == Written([], 0)
    ensures template.Some? && template.value != [] && '$' !in template.value ==>
      w == Written(template.value, -1)
    ensures template.Some? && template.value != [] && '$' in template.value ==>
      && |w.content| == |template.value| - 1
      && 0 <= w.position < |template.value|
      && template.value[w.position] == '$'
      && '$' !in w.content[..w.position]
  {
    if template.None? || template.value == [] then Written([], 0)
    else
      var t := template.value;
      var index := IndexOf(t, '$');
      if index > -1 then
        var content := t[..index] + t[index + 1..];
        assert content[..index] == t[..index];
        Written(content, index)
      else Written(t, index)
  }

  /**
   * Where the editor caret is put after the file opens: at the returned
   * position when it is positive, otherwise it stays at the start.
   */
  function CaretOffset(position: int): (r: Option<nat>)
    ensures r.Some? <==> position > 0
    ensures r.Some? ==> r.value == position
  {
    if position > 0 then Some(position) else None
  }

  /**
   * A `$` after the first character puts the caret where the `$` was, in front
   * of the same text; a `$` at the very start, or none, leaves the caret at 0.
   */
  lemma CaretLandsOnMarker(template: string)
    ensures var w := RemoveCaretMarker(Some(template));
      match CaretOffset(w.position)
      case Some(offset) =>
        && 0 < offset < |template| && template[offset] == '$' && '$' !in template[..offset]
        && w.content[..offset] == template[..offset]
      case None => template == [] || template[0] == '$' || '$' !in template
  {
    var w := RemoveCaretMarker(Some(template));
    if template != [] && '$' in template {
      assert w.content == template[..w.position] + template[w.position + 1..];
      assert w.content[..w.position] == template[..w.position];
      if w.position == 0 {
        assert template[0] == '$';
      }
    }
  }

  /** Putting the `$` back where the returned position says gives the template again. */
  lemma CaretMarkerRoundTrip(template: string)
    requires '$' in template
    ensures var w := RemoveCaretMarker(Some(template));
      w.content[..w.position] + "$" + w.content[w.position..] == template
  {
    var w := RemoveCaretMarker(Some(template));
    var i := w.position;
    assert w.content == template[..i] + template[i + 1..];
    assert w.content[..i] == template[..i];
    assert w.content[i..] == template[i + 1..];
    assert template == template[..i] + [template[i]] + template[i + 1..];
  }

  // ---------------------------------------------------------------------------
  // Folders: the `__dummy__` sentinel

  const Sentinel := "__dummy__"

  /** An entry ending in `\` names a folder: a placeholder file name is appended. */
  function WithFolderSentinel(entry: string): (r: string)
    ensures EndsWith(entry, "\\") ==> r == entry + Sentinel
    ensures !EndsWith(entry, "\\") ==> r == entry
    ensures |entry| <= |r|
  {
    if EndsWith(entry, "\\") then entry + Sentinel else entry
  }

  /** The item just added is the placeholder: delete it and go on with the next entry. */
  predicate IsSentinelItem(fullName: string) {
    EndsWith(fullName, Sentinel)
  }

  /** What the command does with one expanded entry. */
  datatype EntryOutcome =
    | ReservedName(name: string)
    | AlreadyExists(path: string)
    /** The template named for the file could not be read: the exception ends in the `catch`, and no file is written. */
    | WriteFailed(path: string)
    | Created(path: string, folderOnly: bool)

  /**
   * One pass of the loop in `ExecuteAsync` for a non-empty entry, given the
   * selected folder, the files that exist (keyed by `PathKey`) and what
   * `GetTemplateFilePath` gives for the file: a reserved name is refused, an
   * existing file is left alone, and for anything else a write is attempted.
   * Reading a template that is not there throws before anything is written;
   * otherwise the file is written, and the item is deleted again when its
   * full name ends in `__dummy__`.
   */
  function EntryOutcomeOf(folder: string, entry: string, existing: set<string>, template: TemplateMap.TemplateText): (r: EntryOutcome)
    ensures r.ReservedName? <==> !IsFileNameValid(GetFileName(Combine(folder, WithFolderSentinel(entry))))
    ensures r.ReservedName? ==> r.name == GetFileName(Combine(folder, WithFolderSentinel(entry)))
    ensures !r.ReservedName? ==> r.path == Combine(folder, WithFolderSentinel(entry))
    ensures r.AlreadyExists? <==>
      IsFileNameValid(GetFileName(Combine(folder, WithFolderSentinel(entry))))
      && PathKey(Combine(folder, WithFolderSentinel(entry))) in existing
    ensures r.WriteFailed? <==>
      IsFileNameValid(GetFileName(Combine(folder, WithFolderSentinel(entry))))
      && PathKey(Combine(folder, WithFolderSentinel(entry))) !in existing
      && template.Unreadable?
    ensures r.Created? ==> PathKey(r.path) !in existing && EndsWith(r.path, WithFolderSentinel(entry)) && !template.Unreadable?
    ensures r.Created? && entry != [] ==>
      (r.folderOnly <==> EndsWith(entry, "\\") || EndsWith(entry, Sentinel))
  {
    var input := WithFolderSentinel(entry);
    var file := Combine(folder, input);
    if !IsFileNameValid(GetFileName(file)) then ReservedName(GetFileName(file))
    else if PathKey(file) in existing then AlreadyExists(file)
    else if template.Unreadable? then WriteFailed(file)
    else if entry == [] then Created(file, IsSentinelItem(file))
    else
      FolderEntryIsSentinel(folder, entry);
      Created(file, IsSentinelItem(file))
  }

  /** A typed name that differs from an existing file only in letter case names that file. */
  lemma ExistingFileInOtherCase(template: TemplateMap.TemplateText)
    ensures EntryOutcomeOf("C:\\p", "Foo.cs", {PathKey("C:\\p\\foo.cs")}, template) == AlreadyExists("C:\\p\\Foo.cs")
  {
    var entry := "Foo.cs";
    assert !EndsWith(entry, "\\");
    assert WithFolderSentinel(entry) == entry;
    var file := Combine("C:\\p", entry);
    assert file == "C:\\p\\Foo.cs";
    CombineEndsWithComponent("C:\\p", entry);
    FileNameOfComponent(file, entry);
    assert entry[3] == '.';
    ReservedNameShape(entry);
    SameKey(file, "C:\\p\\foo.cs");
  }

  /** None of the last characters of a name ending in `__dummy__` is a separator or a colon. */
  lemma SentinelHasNoBoundary(file: string, n: nat)
    requires IsSentinelItem(file) && n < |Sentinel|
    ensures !IsNameBoundary(file[|file| - n - 1])
  {
    assert file[|file| - n - 1] == Sentinel[|Sentinel| - n - 1];
  }

  /**
   * A folder entry becomes a file called `__dummy__` in that folder, which the
   * sentinel test recognises; any other entry is taken for a placeholder
   * exactly when it ends in `__dummy__` itself.
   */
  lemma FolderEntryIsSentinel(folder: string, entry: string)
    requires entry != []
    ensures IsSentinelItem(Combine(folder, WithFolderSentinel(entry)))
      <==> EndsWith(entry, "\\") || EndsWith(entry, Sentinel)
  {
    var input := WithFolderSentinel(entry);
    assert input != [];
    SentinelTest(Combine(folder, input), entry, input);
  }

  /**
   * The sentinel test on a path that ends with the (possibly extended) entry,
   * with a separator or drive colon in front of it unless the path is the
   * entry itself.
   */
  lemma SentinelTest(file: string, entry: string, input: string)
    requires entry != []
    requires EndsWith(entry, "\\") ==> input == entry + Sentinel
    requires !EndsWith(entry, "\\") ==> input == entry
    requires EndsWith(file, input)
    requires file != input ==> |file| > |input| && IsNameBoundary(file[|file| - |input| - 1])
    ensures IsSentinelItem(file) <==> EndsWith(entry, "\\") || EndsWith(entry, Sentinel)
  {
    if EndsWith(entry, "\\") {
      assert input[|input| - |Sentinel|..] == Sentinel;
      EndsWithTransitive(file, input, Sentinel);
    } else if |entry| >= |Sentinel| {
      SuffixOfSuffix(file, entry, |Sentinel|);
    } else if IsSentinelItem(file) {
      // The character in front of the entry is a separator or the drive colon,
      // and it would have to be one of the characters of `__dummy__`.
      assert file != entry;
      SentinelHasNoBoundary(file, |entry|);
      assert false;
    }
  }
}

=== FILE: legacy_template_map.dfy ===
/**
 * The older template subsystem's rule list: a `TemplateMap` is a list of
 * `TemplateMapping`s (the class nested in `TemplateMap`), tried in order by
 * the item manager. The default list maps typed names onto Visual Studio item
 * templates.
 */
module LegacyTemplateMap {
  import opened Wrappers
  import opened Text
  import opened Regexes
  import LegacyTemplateMapping

  /** One default rule: a .NET pattern with a `name` group, a language, a template. */
  datatype Rule = Rule(pattern: string, language: string, templateName: string)

  /** The opening of the named group `name`. */
  const NameGroup := "(?<name>"

  /**
   * The rules `LoadDefaultMappings` adds, in order; the broadest `.cs` and
   * `.js` rules are last. Each pattern is written as the text before the
   * group `name`, the group's opening, and the rest.
   */
  const DefaultRules: seq<Rule> := [
    Rule("^c\\:" + NameGroup + ".*)", "CSharp", "Class"),
    Rule("^i\\:" + NameGroup + ".*)", "CSharp", "Interface"),
    Rule("^" + NameGroup + "I.*)\\.cs$", "CSharp", "Interface"),
    Rule("^" + NameGroup + "I.*)\\.vb$", "VisualBasic", "Interface"),
    Rule("^e:" + NameGroup + ".*)\\.cs", "CSharp", "CodeFile"),
    Rule("^" + NameGroup + ".*)\\.cs$", "CSharp", "Class"),
    Rule("^" + NameGroup + ".*)\\.js$", "JavaScript", "JScript")
  ]

  /** The group `name` opens at position `k` of the pattern. */
  predicate NameGroupAt(pattern: string, k: nat) {
    k + |NameGroup| <= |pattern| && pattern[k..k + |NameGroup|] == NameGroup
  }

  /** The pattern opens the named group `name`. */
  ghost predicate DeclaresNameGroup(pattern: string) {
    exists k: nat :: NameGroupAt(pattern, k)
  }

  /** Every default pattern is anchored at the start and declares the group `name`. */
  lemma DefaultPatternsDeclareName()
    ensures forall i :: 0 <= i < |DefaultRules| ==>
      DefaultRules[i].pattern[0] == '^' && DeclaresNameGroup(DefaultRules[i].pattern)
  {
    forall i | 0 <= i < |DefaultRules|
      ensures DefaultRules[i].pattern[0] == '^' && DeclaresNameGroup(DefaultRules[i].pattern)
    {
      var a := ["^c\\:", "^i\\:", "^", "^", "^e:", "^", "^"][i];
      var b := [".*)", ".*)", "I.*)\\.cs$", "I.*)\\.vb$", ".*)\\.cs", ".*)\\.cs$", ".*)\\.js$"][i];
      assert DefaultRules[i].pattern == a + NameGroup + b;
      GroupAfter(a, b);
    }
  }

  /** A pattern made of `a`, the group's opening and `b` opens the group right after `a`. */
  lemma GroupAfter(a: string, b: string)
    requires a != [] && a[0] == '^'
    ensures var p := a + NameGroup + b;
      p[0] == '^' && NameGroupAt(p, |a|)
  {
    var p := a + NameGroup + b;
    assert p[|a|..|a| + |NameGroup|] == NameGroup;
  }

  /** The default patterns, in order, as the scan in the item manager sees them. */
  function DefaultPatterns(): (r: seq<Option<string>>)
    ensures |r| == |DefaultRules|
    ensures forall i :: 0 <= i < |r| ==> r[i] == Some(DefaultRules[i].pattern)
  {
    seq(|DefaultRules|, i requires 0 <= i < |DefaultRules| => Some(DefaultRules[i].pattern))
  }

  /**
   * Whatever the matching engine does, a name the `I.*\.cs` Interface rule
   * accepts is never given to the catch-all `.cs` or `.js` rule: the scan
   * stops at that rule or at an earlier one.
   */
  lemma InterfaceRuleBeforeCatchAlls(name: string, matcher: Matcher)
    requires matcher(DefaultRules[2].pattern, name).Some?
    ensures var s := ScanFrom(DefaultPatterns(), name, matcher, 0);
      s.Hit? && s.index <= 2 && DefaultRules[s.index].language == "CSharp"
  {
    assert DefaultPatterns()[2] == Some(DefaultRules[2].pattern);
  }

  /** The mapping class nested in `TemplateMap`; it behaves as the stand-alone one. */
  class TemplateMapping {
    var Pattern: Option<string>
    var Language: Option<string>
    var TemplateName: Option<string>
    var patternExpression: Regex?

    constructor()
      ensures Pattern.None? && Language.None? && TemplateName.None?
      ensures patternExpression == null
    {
      Pattern := None;
      Language := None;
      TemplateName := None;
      patternExpression := null;
    }

    constructor WithRule(pattern: string, language: string, templateName: string)
      ensures Holds(Rule(pattern, language, templateName))
      ensures fresh(patternExpression)
    {
      Pattern := Some(pattern);
      Language := Some(language);
      TemplateName := Some(templateName);
      patternExpression := new Regex(pattern);
    }

    /** The mapping carries the rule, with its pattern already compiled. */
    predicate Holds(rule: Rule)
      reads this
    {
      && Pattern == Some(rule.pattern)
      && Language == Some(rule.language)
      && TemplateName == Some(rule.templateName)
      && patternExpression != null && patternExpression.Pattern == rule.pattern
    }

    /** The pattern a call of `GetPatternExpression` matches with: the cached one, else `Pattern`. */
    function EffectivePattern(): Option<string>
      reads this
    {
      if patternExpression != null then Some(patternExpression.Pattern) else Pattern
    }

    /**
     * The cache is looked at, and (under the lock) looked at again before it is
     * filled; run alone, the second test always agrees with the first.
     * `None` stands for the exception `new Regex(null)` throws.
     */
    method GetPatternExpression() returns (r: Option<Regex>)
      modifies this
      ensures Pattern == old(Pattern) && Language == old(Language) && TemplateName == old(TemplateName)
      ensures r.Some? <==> old(EffectivePattern()).Some?
      ensures r.Some? ==> patternExpression == r.value && Some(r.value.Pattern) == old(EffectivePattern())
      ensures r.None? ==> patternExpression == null
      ensures EffectivePattern() == old(EffectivePattern())
      ensures old(patternExpression) != null ==> r == Some(old(patternExpression))
      ensures old(patternExpression) == null && r.Some? ==> fresh(r.value)
    {
      if patternExpression == null {
        if patternExpression == null {
          match Pattern
          case None =>
            return None;
          case Some(p) =>
            patternExpression := new Regex(p);
        }
      }
      r := Some(patternExpression);
    }

    function ToString(): (r: string)
      reads this
      ensures StartsWith(r, Pattern.GetOr(""))
      ensures EndsWith(r, "/" + TemplateName.GetOr(""))
      ensures TemplateName.Some? && '/' !in TemplateName.value ==>
        LegacyTemplateMapping.TemplateNameOf(r) == TemplateName.value
      ensures var p := Pattern.GetOr(""); |r| >= |p| + 4 && r[|p|..|p| + 4] == " => "
      ensures var p := Pattern.GetOr(""); var l := Language.GetOr("");
        |r| >= |p| + 4 + |l| && r[|p| + 4..|p| + 4 + |l|] == l
    {
      if TemplateName.Some? && '/' !in TemplateName.value then
        LegacyTemplateMapping.DescribeRoundTrip(Pattern, Language, TemplateName.value);
        LegacyTemplateMapping.Describe(Pattern, Language, TemplateName)
      else
        LegacyTemplateMapping.Describe(Pattern, Language, TemplateName)
    }
  }

  /** The patterns a scan over the mappings would match with, in list order. */
  function Patterns(mappings: seq<TemplateMapping>): (r: seq<Option<string>>)
    reads set m | m in mappings
    ensures |r| == |mappings|
    ensures forall i :: 0 <= i < |mappings| ==> r[i] == mappings[i].EffectivePattern()
  {
    if mappings == [] then []
    else [mappings[0].EffectivePattern()] + Patterns(mappings[1..])
  }

  /** Mappings that carry the default rules, in order, match with the default patterns. */
  lemma DefaultMappingPatterns(ms: seq<TemplateMapping>)
    requires |ms| == |DefaultRules|
    requires forall i :: 0 <= i < |ms| ==> ms[i].Holds(DefaultRules[i])
    ensures Patterns(ms) == DefaultPatterns()
  {
  }

  class TemplateMap {
    var mappings: seq<TemplateMapping>

    constructor()
      ensures mappings == []
    {
      mappings := [];
    }

    /** `List.Add`. */
    method Add(m: TemplateMapping)
      modifies this
      ensures mappings == old(mappings) + [m]
    {
      mappings := mappings + [m];
    }

    /** The list is `start` followed by distinct mappings for the first `n` default rules. */
    ghost predicate LoadedUpTo(start: seq<TemplateMapping>, n: nat)
      reads this, set m | m in mappings
    {
      && n <= |DefaultRules|
      && |mappings| == |start| + n
      && mappings[..|start|] == start
      && (forall i :: 0 <= i < n ==> mappings[|start| + i].Holds(DefaultRules[i]))
      && (forall i, j :: |start| <= i < j < |mappings| ==> mappings[i] != mappings[j])
    }

    /**
     * Appends one new mapping per default rule, in order (one `Add` per rule),
     * and keeps the mappings already in the list.
     */
    method LoadDefaultMappings()
      modifies this
      ensures LoadedUpTo(old(mappings), |DefaultRules|)
      ensures forall i :: |old(mappings)| <= i < |mappings| ==> fresh(mappings[i])
      ensures Patterns(mappings[|old(mappings)|..]) == DefaultPatterns()
    {
      ghost var start := mappings;
      for n := 0 to |DefaultRules|
        invariant LoadedUpTo(start, n)
        invariant forall i :: |start| <= i < |mappings| ==> fresh(mappings[i])
      {
        var rule := DefaultRules[n];
        var m := new TemplateMapping.WithRule(rule.pattern, rule.language, rule.templateName);
        Add(m);
      }
      DefaultMappingPatterns(mappings[|start|..]);
    }
  }
}

=== FILE: legacy_template_mapping.dfy ===
/**
 * The stand-alone `TemplateMapping` of the older template subsystem: a rule
 * (pattern, language, template name) whose compiled pattern is built on first
 * use and then kept. Its properties are plain settable strings, so each may be
 * null (`None`).
 */
module LegacyTemplateMapping {
  import opened Wrappers
  import opened Text
  import opened Regexes

  /**
   * `string.Concat(Pattern, " => ", Language, "/", TemplateName)`, a null part
   * counting as empty.
   */
  function Describe(pattern: Option<string>, language: Option<string>, templateName: Option<string>): (r: string)
    ensures StartsWith(r, pattern.GetOr(""))
    ensures EndsWith(r, "/" + templateName.GetOr(""))
    ensures |r| == |pattern.GetOr("")| + |language.GetOr("")| + |templateName.GetOr("")| + 5
    ensures var p := pattern.GetOr(""); r[|p|..|p| + 4] == " => "
    ensures var p := pattern.GetOr(""); var l := language.GetOr("");
      r[|p| + 4..|p| + 4 + |l|] == l
  {
    var p := pattern.GetOr("");
    var l := language.GetOr("");
    var t := templateName.GetOr("");
    var r := p + " => " + l + "/" + t;
    assert r[..|p|] == p;
    assert r[|p|..|p| + 4] == " => ";
    assert r[|p| + 4..|p| + 4 + |l|] == l;
    assert r[|r| - |t| - 1..] == "/" + t;
    r
  }

  /** The text after the last `/` of a description. */
  function TemplateNameOf(description: string): (r: string)
    ensures EndsWith(description, r)
    ensures forall j :: 0 <= j < |r| ==> r[j] != '/'
  {
    description[LastIndexOf(description, '/') + 1..]
  }

  /** A template name without `/` is read back from the description. */
  lemma DescribeRoundTrip(pattern: Option<string>, language: Option<string>, templateName: string)
    requires '/' !in templateName
    ensures TemplateNameOf(Describe(pattern, language, Some(templateName))) == templateName
  {
    var d := Describe(pattern, language, Some(templateName));
    var n := |d| - |templateName| - 1;
    assert d[n] == '/';
    assert forall j :: n < j < |d| ==> d[j] == templateName[j - n - 1];
    assert LastIndexOf(d, '/') == n;
  }

  class TemplateMapping {
    var Pattern: Option<string>
    var Language: Option<string>
    var TemplateName: Option<string>
    /** The cached compiled pattern; null until first built. */
    var patternExpression: Regex?

    /** The parameterless constructor: every property and the cache are null. */
    constructor()
      ensures Pattern.None? && Language.None? && TemplateName.None?
      ensures patternExpression == null
    {
      Pattern := None;
      Language := None;
      TemplateName := None;
      patternExpression := null;
    }

    /** Stores the three strings and compiles `pattern` at once. */
    constructor WithRule(pattern: string, language: string, templateName: string)
      ensures Pattern == Some(pattern) && Language == Some(language) && TemplateName == Some(templateName)
      ensures patternExpression != null && fresh(patternExpression) && patternExpression.Pattern == pattern
    {
      Pattern := Some(pattern);
      Language := Some(language);
      TemplateName := Some(templateName);
      patternExpression := new Regex(pattern);
    }

    /**
     * Returns the cached expression, building it from the current `Pattern`
     * when there is none yet. `None` stands for the exception `new Regex(null)`
     * throws when the cache is empty and `Pattern` is null.
     */
    method GetPatternExpression() returns (r: Option<Regex>)
      modifies this
      ensures Pattern == old(Pattern) && Language == old(Language) && TemplateName == old(TemplateName)
      ensures r.Some? <==> old(patternExpression) != null || Pattern.Some?
      ensures r.Some? ==> patternExpression == r.value
      ensures r.None? ==> patternExpression == null
      ensures old(patternExpression) != null ==> r == Some(old(patternExpression))
      ensures old(patternExpression) == null && r.Some? ==> fresh(r.value) && Some(r.value.Pattern) == Pattern
    {
      if patternExpression == null {
        match Pattern
        case None =>
          return None;
        case Some(p) =>
          patternExpression := new Regex(p);
      }
      r := Some(patternExpression);
    }

    function ToString(): (r: string)
      reads this
      ensures StartsWith(r, Pattern.GetOr(""))
      ensures EndsWith(r, "/" + TemplateName.GetOr(""))
      ensures TemplateName.Some? && '/' !in TemplateName.value ==> TemplateNameOf(r) == TemplateName.value
      ensures var p := Pattern.GetOr(""); |r| >= |p| + 4 && r[|p|..|p| + 4] == " => "
      ensures var p := Pattern.GetOr(""); var l := Language.GetOr("");
        |r| >= |p| + 4 + |l| && r[|p| + 4..|p| + 4 + |l|] == l
    {
      if TemplateName.Some? && '/' !in TemplateName.value then
        DescribeRoundTrip(Pattern, Language, TemplateName.value);
        Describe(Pattern, Language, TemplateName)
      else
        Describe(Pattern, Language, TemplateName)
    }
  }

  /**
   * A mapping made with the parameterless constructor compiles the pattern it
   * holds at its first use; reassigning `Pattern` afterwards changes nothing:
   * the next call returns the same object, still built from the first pattern.
   */
  method LazyCacheOutlivesPattern(p: string, q: string) returns (first: Regex, second: Regex)
    ensures first == second && second.Pattern == p
  {
    var m := new TemplateMapping();
    m.Pattern := Some(p);
    var a := m.GetPatternExpression();
    m.Pattern := Some(q);
    var b := m.GetPatternExpression();
    first, second := a.value, b.value;
  }

  /** The expression compiled by the constructor also survives a later change of `Pattern`. */
  method EagerCacheOutlivesPattern(p: string, q: string) returns (built: Regex, returned: Regex)
    ensures built == returned && returned.Pattern == p
  {
    var m := new TemplateMapping.WithRule(p, "CSharp", "Class");
    built := m.patternExpression;
    m.Pattern := Some(q);
    var b := m.GetPatternExpression();
    returned := b.value;
  }
}

=== FILE: new_item_target.dfy ===
/**
 * `NewItemTarget`: where a new item goes, found from the active document or
 * from the single item selected in Solution Explorer. The EnvDTE objects are
 * values: a project with its containing solution folder, a project item with
 * its children. Whether a path is an existing file is a set of paths keyed
 * by `PathKey` (a lookup ignores letter case), and the solution's
 * `FindProjectItem` is a map.
 */
module ItemTargets {
  import opened Wrappers
  import opened Text
  import opened Paths
  import opened Seqs
  import ProjectHelpers

  /** EnvDTE's `vsProjectKindSolutionItems`: a solution folder. */
  const SolutionFolderKind := "{66A26720-8FB5-11D2-AA7E-00C04F688DDE}"
  /** EnvDTE's `vsProjectItemKindSolutionItems`: an item of a solution folder. */
  const SolutionItemKind := "{66A26722-8FB5-11D2-AA7E-00C04F688DDE}"
  /** EnvDTE's `vsProjectItemKindVirtualFolder`. */
  const VirtualFolderKind := "{6BB5F8F0-4483-11D3-8BCF-00C04F8EC28C}"

  /**
   * A project: its name, kind, what `GetRootFolder` gives for it, and the
   * project that contains its parent item (`ParentProjectItem?.ContainingProject`).
   */
  datatype DteProject = DteProject(name: string, kind: string, rootFolder: Option<string>, parent: Option<DteProject>)

  /** A project item: its kind, its `FullPath` property (none when missing), its children and its project. */
  datatype DteItem = DteItem(kind: string, fullPath: Option<string>, children: seq<DteItem>, containingProject: DteProject)

  /** What a Solution Explorer node holds. */
  datatype Selected =
    | SolutionNode(fullName: string)
    | ProjectNode(project: DteProject)
    | ItemNode(item: DteItem)
    | OtherNode

  /** A resolved target: the directory, the project and item (none for null), and the solution flag. */
  datatype Target = Target(directory: Option<string>, project: Option<DteProject>, projectItem: Option<DteItem>, isSolutionOrSolutionFolder: bool)

  predicate IsSolution(t: Target) {
    t.isSolutionOrSolutionFolder && t.project.None?
  }

  predicate IsSolutionFolder(t: Target) {
    t.isSolutionOrSolutionFolder && t.project.Some?
  }

  /** The two derived flags never hold together and together cover the stored flag. */
  lemma SolutionFlagsPartition(t: Target)
    ensures !(IsSolution(t) && IsSolutionFolder(t))
    ensures IsSolution(t) || IsSolutionFolder(t) <==> t.isSolutionOrSolutionFolder
  {
  }

  predicate IsVirtualFolder(item: DteItem) {
    ProjectHelpers.IsKind(item.kind, [VirtualFolderKind])
  }

  // ---------------------------------------------------------------------------
  // Virtual folders

  /**
   * `ResolveToPhysicalProjectItem`: an item that is not a virtual folder is
   * itself; a virtual folder resolves to the first child, in order, that
   * resolves to anything. Whatever it gives is not a virtual folder.
   */
  function ResolveToPhysical(item: DteItem): (r: Option<DteItem>)
    ensures !IsVirtualFolder(item) ==> r == Some(item)
    ensures r.Some? ==> !IsVirtualFolder(r.value)
    decreases item, |item.children| + 1
  {
    if IsVirtualFolder(item) then FirstResolved(item, 0) else Some(item)
  }

  /** The first of the children from the `i`th on that resolves, resolved. */
  function FirstResolved(item: DteItem, i: nat): (r: Option<DteItem>)
    requires i <= |item.children|
    ensures r.Some? ==> !IsVirtualFolder(r.value)
    decreases item, |item.children| - i
  {
    if i == |item.children| then None
    else
      match ResolveToPhysical(item.children[i])
      case Some(p) => Some(p)
      case None => FirstResolved(item, i + 1)
  }

  /**
   * A virtual folder resolves to nothing exactly when none of its children
   * resolves; otherwise to what its first resolving child resolves to.
   */
  lemma {:induction false} FirstResolvedIsFirst(item: DteItem, i: nat)
    requires i <= |item.children|
    ensures FirstResolved(item, i).None? <==>
      forall j :: i <= j < |item.children| ==> ResolveToPhysical(item.children[j]).None?
    ensures FirstResolved(item, i).Some? ==>
      exists j :: i <= j < |item.children| && ResolveToPhysical(item.children[j]) == FirstResolved(item, i)
        && forall k :: i <= k < j ==> ResolveToPhysical(item.children[k]).None?
    decreases |item.children| - i
  {
    if i < |item.children| && ResolveToPhysical(item.children[i]).None? {
      FirstResolvedIsFirst(item, i + 1);
      if FirstResolved(item, i + 1).Some? {
        var j :| i + 1 <= j < |item.children| && ResolveToPhysical(item.children[j]) == FirstResolved(item, i + 1)
          && forall k :: i + 1 <= k < j ==> ResolveToPhysical(item.children[k]).None?;
        assert forall k :: i <= k < j ==> ResolveToPhysical(item.children[k]).None?;
      }
    }
  }

  // ---------------------------------------------------------------------------
  // Solution folders

  /** The folder's name and then its containing folders' names, innermost first. */
  function OutwardNames(folder: DteProject): (r: seq<string>)
    ensures |r| >= 1 && r[0] == folder.name
    decreases folder
  {
    match folder.parent
    case None => [folder.name]
    case Some(p) => [folder.name] + OutwardNames(p)
  }

  /** The outermost folder above `folder` (itself when it has no parent folder). */
  function Outermost(folder: DteProject): (r: DteProject)
    ensures r.parent.None?
    ensures OutwardNames(folder)[|OutwardNames(folder)| - 1] == r.name
    decreases folder
  {
    match folder.parent
    case None => folder
    case Some(p) => Outermost(p)
  }

  /**
   * The directory `GetSolutionFolderPath` gives: the solution's directory
   * followed by the folder names from the outermost folder in to `folder`.
   */
  function SolutionFolderPath(folder: DteProject, solutionFullName: string): (r: string)
    ensures folder.name != [] && Plain(folder.name) ==> GetFileName(r) == folder.name
  {
    var segments := Reversed(OutwardNames(folder));
    var parts := [GetDirectoryName(solutionFullName)] + segments;
    assert parts[|parts| - 1] == folder.name;
    if folder.name != [] && Plain(folder.name) then
      FileNameOfComponent(CombineAll(parts), folder.name);
      CombineAll(parts)
    else CombineAll(parts)
  }

  /** The folder segments run from the outermost folder in to `folder`, one per level. */
  lemma SolutionFolderSegments(folder: DteProject)
    ensures var segments := Reversed(OutwardNames(folder));
      |segments| >= 1 && segments[0] == Outermost(folder).name && segments[|segments| - 1] == folder.name
  {
  }

  /**
   * `GetSolutionFolderPath`: records each folder's name walking up through
   * the containing folders (the body runs at least once), reverses the list
   * in place and combines the solution's directory with it.
   */
  method GetSolutionFolderPath(folder: DteProject, solutionFullName: string) returns (r: string)
    ensures r == SolutionFolderPath(folder, solutionFullName)
  {
    var solutionDirectory := GetDirectoryName(solutionFullName);
    var segments: seq<string> := [folder.name];
    var current := folder;
    while current.parent.Some?
      invariant segments + OutwardNames(current)[1..] == OutwardNames(folder)
      decreases current
    {
      assert OutwardNames(current)[1..] == OutwardNames(current.parent.value);
      current := current.parent.value;
      segments := segments + [current.name];
    }
    assert segments == OutwardNames(folder);
    segments := Reversed(segments);
    r := CombineAll([solutionDirectory] + segments);
  }

  // ---------------------------------------------------------------------------
  // Targets

  /** `GetFileName` of the item `ResolveToPhysicalProjectItem` gives; none when it is missing or empty. */
  function ResolvedFileName(item: DteItem): (r: Option<string>)
    ensures r.Some? ==> r.value != [] && ResolveToPhysical(item).Some? && ResolveToPhysical(item).value.fullPath == r
  {
    match ResolveToPhysical(item)
    case None => None
    case Some(p) => if p.fullPath.None? || p.fullPath.value == [] then None else p.fullPath
  }

  /**
   * `CreateFromProjectItem`: an item of a solution folder targets that
   * folder's directory as a solution folder; any other item targets the
   * directory of the file it resolves to (the path itself when no file
   * exists there, being a directory), or nothing when it resolves to no name.
   */
  function CreateFromProjectItem(item: DteItem, solutionFullName: string, existingFiles: set<string>): (r: Option<Target>)
    ensures ProjectHelpers.IsKind(item.kind, [SolutionItemKind]) ==>
      r == Some(Target(Some(SolutionFolderPath(item.containingProject, solutionFullName)), Some(item.containingProject), None, true))
      && IsSolutionFolder(r.value)
    ensures !ProjectHelpers.IsKind(item.kind, [SolutionItemKind]) ==>
      (r.None? <==> ResolvedFileName(item).None?)
      && (r.Some? ==>
        var fileName := ResolvedFileName(item).value;
        && r.value.directory == Some(if PathKey(fileName) in existingFiles then GetDirectoryName(fileName) else fileName)
        && r.value.project == Some(item.containingProject)
        && r.value.projectItem == Some(item)
        && !IsSolution(r.value) && !IsSolutionFolder(r.value))
  {
    if ProjectHelpers.IsKind(item.kind, [SolutionItemKind]) then
      Some(Target(Some(SolutionFolderPath(item.containingProject, solutionFullName)), Some(item.containingProject), None, true))
    else
      match ResolvedFileName(item)
      case None => None
      case Some(fileName) =>
        var directory := if PathKey(fileName) in existingFiles then GetDirectoryName(fileName) else fileName;
        Some(Target(Some(directory), Some(item.containingProject), Some(item), false))
  }

  /**
   * `CreateFromSolutionExplorerSelection`: nothing unless exactly one node is
   * selected; the solution targets its directory as the solution, a solution
   * folder its folder path, any other project its root folder, and an item
   * what `CreateFromProjectItem` gives.
   */
  function CreateFromSolutionExplorerSelection(selection: seq<Selected>, solutionFullName: string, existingFiles: set<string>): (r: Option<Target>)
    ensures |selection| != 1 ==> r.None?
    ensures |selection| == 1 && selection[0].SolutionNode? ==>
      r == Some(Target(Some(GetDirectoryName(selection[0].fullName)), None, None, true)) && IsSolution(r.value)
    ensures |selection| == 1 && selection[0].ProjectNode? ==>
      var p := selection[0].project;
      r.Some? && r.value.project == Some(p) && r.value.projectItem.None?
      && (IsSolutionFolder(r.value) <==> ProjectHelpers.IsKind(p.kind, [SolutionFolderKind]))
      && !IsSolution(r.value)
      && r.value.directory == (if ProjectHelpers.IsKind(p.kind, [SolutionFolderKind]) then Some(SolutionFolderPath(p, solutionFullName)) else p.rootFolder)
    ensures |selection| == 1 && selection[0].ItemNode? ==>
      r == CreateFromProjectItem(selection[0].item, solutionFullName, existingFiles)
    ensures |selection| == 1 && selection[0].OtherNode? ==> r.None?
  {
    if |selection| != 1 then None
    else
      match selection[0]
      case SolutionNode(fullName) => Some(Target(Some(GetDirectoryName(fullName)), None, None, true))
      case ProjectNode(p) =>
        if ProjectHelpers.IsKind(p.kind, [SolutionFolderKind]) then
          Some(Target(Some(SolutionFolderPath(p, solutionFullName)), Some(p), None, true))
        else Some(Target(p.rootFolder, Some(p), None, false))
      case ItemNode(item) => CreateFromProjectItem(item, solutionFullName, existingFiles)
      case OtherNode => None
  }

  /**
   * `CreateFromActiveDocument`: the active document's file, when it exists
   * and the solution finds an item for it, gives that item's target.
   */
  function CreateFromActiveDocument(document: Option<string>, findProjectItem: map<string, DteItem>,
                                    solutionFullName: string, existingFiles: set<string>): (r: Option<Target>)
    ensures r.Some? ==> document.Some? && PathKey(document.value) in existingFiles && document.value in findProjectItem
    ensures r.Some? ==> r == CreateFromProjectItem(findProjectItem[document.value], solutionFullName, existingFiles)
    ensures document.Some? && PathKey(document.value) in existingFiles && document.value in findProjectItem ==>
      r == CreateFromProjectItem(findProjectItem[document.value], solutionFullName, existingFiles)
    ensures document.None? || PathKey(document.value) !in existingFiles || document.value !in findProjectItem ==> r.None?
  {
    match document
    case None => None
    case Some(fileName) =>
      if PathKey(fileName) in existingFiles && fileName in findProjectItem then
        CreateFromProjectItem(findProjectItem[fileName], solutionFullName, existingFiles)
      else None
  }

  /**
   * `Create`: with a document window active, the document's target when it
   * has one; otherwise the Solution Explorer selection's.
   */
  function Create(documentWindowActive: bool, document: Option<string>, findProjectItem: map<string, DteItem>,
                  selection: seq<Selected>, solutionFullName: string, existingFiles: set<string>): (r: Option<Target>)
    ensures var fromDocument := CreateFromActiveDocument(document, findProjectItem, solutionFullName, existingFiles);
      documentWindowActive && fromDocument.Some? ==> r == fromDocument
    ensures var fromDocument := CreateFromActiveDocument(document, findProjectItem, solutionFullName, existingFiles);
      !documentWindowActive || fromDocument.None? ==>
        r == CreateFromSolutionExplorerSelection(selection, solutionFullName, existingFiles)
  {
    var fromDocument := if documentWindowActive then CreateFromActiveDocument(document, findProjectItem, solutionFullName, existingFiles) else None;
    if fromDocument.Some? then fromDocument
    else CreateFromSolutionExplorerSelection(selection, solutionFullName, existingFiles)
  }
}

=== FILE: non_templated_item_creator.dfy ===
/**
 * The older subsystem's `NonTemplatedItemCreator`: writes the typed file under
 * the root folder, filled from the extension's template file when one exists,
 * adds it to the active project and reports what was created. The file system
 * and the project are a `Workspace`; whether a directory can be created and
 * whether opening the file in the editor fails are parameters.
 */
module PlainItems {
  import opened Wrappers
  import opened Text
  import opened Paths
  import ProjectHelpers
  import AddAnyFilePackage

  /** `ItemInfo`; `Empty` is the shared instance whose two properties are null. */
  datatype ItemInfo = Empty | Info(fileName: string, extension: string)

  /** The active project as `AddFileToActiveProject` reads it: its kind and its project file. */
  datatype ActiveProject = ActiveProject(kind: string, projectFilePath: string)

  // ---------------------------------------------------------------------------
  // The template and the `$` marker

  /** Where the template for `file` lives: `Templates\` under the lower-cased folder of the extension's assembly, named by the extension. */
  function TemplatePath(assemblyLocation: string, file: string): (r: string)
    ensures GetExtension(file) != [] ==> EndsWith(r, GetExtension(file))
  {
    Combine(Combine(Lower(GetDirectoryName(assemblyLocation)), "Templates\\"), GetExtension(file))
  }

  /** A file with an extension finds its template in a file named exactly by that extension. */
  lemma TemplateIsNamedByExtension(assemblyLocation: string, file: string)
    requires GetExtension(file) != []
    ensures GetFileName(TemplatePath(assemblyLocation, file)) == GetExtension(file)
  {
    var ext := GetExtension(file);
    var folder := Combine(Lower(GetDirectoryName(assemblyLocation)), "Templates\\");
    assert !IsRooted("Templates\\");
    assert folder[|folder| - 1] == '\\';
    CombineEndsWithComponent(folder, ext);
    FileNameOfComponent(Combine(folder, ext), ext);
  }

  /** The template's text: `None` when there is no template file. */
  function TemplateText(files: map<string, string>, path: string): (r: Option<string>)
    ensures r.Some? <==> PathKey(path) in files
    ensures r.Some? ==> r.value == files[PathKey(path)]
  {
    if PathKey(path) in files then Some(files[PathKey(path)]) else None
  }

  /**
   * `WriteFile` as written: an existing template loses the character at
   * `IndexOf('$')`; `None` stands for the exception `Remove(-1, 1)` throws
   * when the template has no `$`. Without a template an empty file is
   * written and the position is 0. Wherever it does not throw, it agrees with
   * the marker removal of the newer command.
   */
  function WriteFileAsWritten(template: Option<string>): (r: Option<AddAnyFilePackage.Written>)
    ensures template.None? ==> r == Some(AddAnyFilePackage.Written([], 0))
    ensures template.Some? ==> (r.None? <==> '$' !in template.value)
    ensures r.Some? ==> r.value == AddAnyFilePackage.RemoveCaretMarker(template)
  {
    match template
    case None => Some(AddAnyFilePackage.Written([], 0))
    case Some(content) =>
      var index := IndexOf(content, '$');
      if index < 0 then None
      else Some(AddAnyFilePackage.Written(content[..index] + content[index + 1..], index))
  }

  /**
   * A template file without a `$` (an empty one included) makes the written
   * `WriteFile` throw, so no file is written; the marker removal that the
   * creator uses writes such a template unchanged.
   */
  lemma UnmarkedTemplateThrows()
    ensures WriteFileAsWritten(Some("body")).None?
    ensures WriteFileAsWritten(Some("")).None?
    ensures AddAnyFilePackage.RemoveCaretMarker(Some("body")).content == "body"
  {
    assert '$' !in "body";
  }

  /**
   * The caret move after opening: `CharRight(position - 1)` from the start of
   * the document when the position is positive; one character less than the
   * offset the newer command moves the caret to.
   */
  function CaretMove(position: int): (r: Option<nat>)
    ensures r.Some? <==> AddAnyFilePackage.CaretOffset(position).Some?
    ensures r.Some? ==> r.value + 1 == AddAnyFilePackage.CaretOffset(position).value
  {
    if position > 0 then Some(position - 1) else None
  }

  /**
   * With a `$` after the first character of the template, the caret stops
   * just before the character that preceded the `$`.
   */
  lemma CaretStopsBeforeMarker(template: string)
    requires '$' in template && template[0] != '$'
    ensures var w := AddAnyFilePackage.RemoveCaretMarker(Some(template));
      CaretMove(w.position).Some?
      && template[CaretMove(w.position).value + 1] == '$'
      && '$' !in template[..CaretMove(w.position).value + 1]
  {
    AddAnyFilePackage.CaretLandsOnMarker(template);
  }

  // ---------------------------------------------------------------------------
  // Adding to the project

  /**
   * `AddFileToActiveProject` calls `AddFromFile` only for a project that is
   * not ASP.NET 5 (kind compared exactly) and a file whose path starts with
   * the project file's directory, ignoring case.
   */
  predicate AddsToProject(project: Option<ActiveProject>, fileName: string) {
    && project.Some?
    && project.value.kind != ProjectHelpers.AspNet5Kind
    && StartsWithIgnoreCase(fileName, GetDirectoryName(project.value.projectFilePath))
  }

  /**
   * The directory test has no separator boundary: a file in a sibling folder
   * whose name extends the project's folder is added to the project too.
   */
  lemma SiblingFolderIsAdded()
    ensures AddsToProject(Some(ActiveProject("{FAE04EC0-301F-11D3-BF4B-00C04F79EFBC}", "C:\\Proj\\p.csproj")), "C:\\Proj2\\a.cs")
    ensures !ProjectHelpers.AddFileGuard("C:\\Proj", "C:\\Proj2\\a.cs")
  {
    var p := "C:\\Proj\\p.csproj";
    LastSeparatorIs(p, 7);
    assert GetDirectoryName(p) == "C:\\Proj";
    assert Upper("C:\\Proj2\\a.cs"[..7]) == Upper("C:\\Proj");
    assert TrimEndChar("C:\\Proj", '\\') == "C:\\Proj";
    assert Upper("C:\\Proj2\\a.cs"[..8])[7] != Upper("C:\\Proj\\")[7];
  }

  // ---------------------------------------------------------------------------
  // The file system and the creator

  /** The folders and files on disk, keyed by `PathKey`, and the files the active project holds. */
  class Workspace {
    var directories: set<string>
    var files: map<string, string>
    var projectFiles: seq<string>

    constructor(directories: set<string>, files: map<string, string>)
      ensures this.directories == directories && this.files == files && projectFiles == []
    {
      this.directories := directories;
      this.files := files;
      projectFiles := [];
    }

    /** `Directory.CreateDirectory`. */
    method CreateDirectory(dir: string)
      modifies this
      ensures directories == WithDirectory(old(directories), dir)
      ensures files == old(files) && projectFiles == old(projectFiles)
    {
      directories := WithDirectory(directories, dir);
    }

    /** `File.WriteAllText`: creates or replaces the file. */
    method WriteAllText(file: string, content: string)
      modifies this
      ensures files == old(files)[PathKey(file) := content]
      ensures directories == old(directories) && projectFiles == old(projectFiles)
    {
      files := files[PathKey(file) := content];
    }

    /** `ProjectItems.AddFromFile` on the active project. */
    method AddFromFile(file: string)
      modifies this
      ensures projectFiles == old(projectFiles) + [file]
      ensures directories == old(directories) && files == old(files)
    {
      projectFiles := projectFiles + [file];
    }
  }

  /** `Directory.CreateDirectory(dir)`: the directory and every directory above it exist afterwards. */
  function WithDirectory(directories: set<string>, dir: string): (r: set<string>)
    ensures directories <= r && PathKey(dir) in r
    ensures forall d :: d in r ==> d in directories || d in Ancestors(PathKey(dir))
  {
    directories + set d | d in Ancestors(PathKey(dir))
  }

  /** The directory is there already, or it can be made: `CreateDirectory("")` throws. */
  predicate DirectoryReady(directories: set<string>, dir: string, creatable: bool) {
    PathKey(dir) in directories || (dir != [] && creatable)
  }

  /** What `Create` leaves on disk and in the project, and what it returns. */
  datatype Outcome = Outcome(
    directories: set<string>, files: map<string, string>, projectFiles: seq<string>,
    info: ItemInfo, caret: Option<nat>)

  /** Every file sits in a directory that exists. */
  predicate FilesInDirectories(directories: set<string>, files: map<string, string>) {
    forall f :: f in files ==> GetDirectoryName(f) in directories
  }

  /**
   * The outcome of creating `file`, given the text of its template, whether
   * the project accepts it, whether its directory can be made and whether
   * opening it fails. A file is written only when its directory is there
   * and it did not exist; no existing file ever changes.
   */
  function CreateOutcome(directories: set<string>, files: map<string, string>, projectFiles: seq<string>,
                         file: string, template: Option<string>, adds: bool, creatable: bool, openFails: bool): (r: Outcome)
    ensures !DirectoryReady(directories, GetDirectoryName(file), creatable) ==>
      r == Outcome(directories, files, projectFiles, Empty, None)
    ensures directories <= r.directories
    ensures PathKey(GetDirectoryName(file)) in directories ==> r.directories == directories
    ensures DirectoryReady(directories, GetDirectoryName(file), creatable) && PathKey(GetDirectoryName(file)) !in directories ==>
      r.directories == WithDirectory(directories, GetDirectoryName(file))
    ensures !DirectoryReady(directories, GetDirectoryName(file), creatable) ==> r.directories == directories
    ensures forall f :: f in files ==> f in r.files && r.files[f] == files[f]
    ensures forall f :: f in r.files ==> f in files || f == PathKey(file)
    ensures DirectoryReady(directories, GetDirectoryName(file), creatable) && PathKey(file) !in files ==>
      PathKey(file) in r.files
    ensures PathKey(file) in r.files && PathKey(file) !in files ==>
      r.files[PathKey(file)] == AddAnyFilePackage.RemoveCaretMarker(template).content
      && r.projectFiles == projectFiles + (if adds then [file] else [])
    ensures PathKey(file) !in r.files || PathKey(file) in files ==> r.projectFiles == projectFiles
    ensures r.info != Empty <==>
      DirectoryReady(directories, GetDirectoryName(file), creatable) && PathKey(file) !in files && !openFails
    ensures r.info != Empty ==>
      && r.info == Info(file, GetExtension(file))
      && PathKey(file) in r.files
      && r.caret == CaretMove(AddAnyFilePackage.RemoveCaretMarker(template).position)
    ensures r.info == Empty ==> r.caret.None?
    ensures FilesInDirectories(directories, files) ==> FilesInDirectories(r.directories, r.files)
  {
    var dir := GetDirectoryName(file);
    if !DirectoryReady(directories, dir, creatable) then Outcome(directories, files, projectFiles, Empty, None)
    else
      var dirs := if PathKey(dir) in directories then directories else WithDirectory(directories, dir);
      if PathKey(file) in files then Outcome(dirs, files, projectFiles, Empty, None)
      else
        var w := AddAnyFilePackage.RemoveCaretMarker(template);
        var added := projectFiles + (if adds then [file] else []);
        DirectoryOfKey(file);
        if openFails then Outcome(dirs, files[PathKey(file) := w.content], added, Empty, None)
        else Outcome(dirs, files[PathKey(file) := w.content], added, Info(file, GetExtension(file)), CaretMove(w.position))
  }

  /** How `Create` as written ends: it returns an outcome, or an exception escapes with this state left behind. */
  datatype Ending =
    | Returned(outcome: Outcome)
    | Escaped(directories: set<string>, files: map<string, string>, projectFiles: seq<string>)

  /**
   * `Create` as written: `WriteFile` runs after the `try` has closed, so a
   * template without `$` makes its exception escape once the directory is
   * there, before the file is written or added to the project. Every other
   * case ends as `CreateOutcome` says.
   */
  function CreateOutcomeAsWritten(directories: set<string>, files: map<string, string>, projectFiles: seq<string>,
                                  file: string, template: Option<string>, adds: bool, creatable: bool, openFails: bool): (r: Ending)
    ensures r.Escaped? <==>
      DirectoryReady(directories, GetDirectoryName(file), creatable) && PathKey(file) !in files
      && template.Some? && '$' !in template.value
    ensures r.Escaped? ==>
      && r.directories == CreateOutcome(directories, files, projectFiles, file, template, adds, creatable, openFails).directories
      && PathKey(GetDirectoryName(file)) in r.directories
      && r.files == files && r.projectFiles == projectFiles
    ensures r.Returned? ==> r.outcome == CreateOutcome(directories, files, projectFiles, file, template, adds, creatable, openFails)
  {
    var dir := GetDirectoryName(file);
    if DirectoryReady(directories, dir, creatable) && PathKey(file) !in files && WriteFileAsWritten(template).None? then
      var dirs := if PathKey(dir) in directories then directories else WithDirectory(directories, dir);
      Escaped(dirs, files, projectFiles)
    else Returned(CreateOutcome(directories, files, projectFiles, file, template, adds, creatable, openFails))
  }

  /**
   * Where the written code throws, the corrected outcome writes the unmarked
   * template unchanged and reports the new file unless opening it fails.
   */
  lemma UnmarkedTemplateEscapes(directories: set<string>, files: map<string, string>, projectFiles: seq<string>,
                                file: string, text: string, adds: bool, creatable: bool, openFails: bool)
    requires DirectoryReady(directories, GetDirectoryName(file), creatable) && PathKey(file) !in files
    requires '$' !in text
    ensures CreateOutcomeAsWritten(directories, files, projectFiles, file, Some(text), adds, creatable, openFails).Escaped?
    ensures var o := CreateOutcome(directories, files, projectFiles, file, Some(text), adds, creatable, openFails);
      PathKey(file) in o.files && o.files[PathKey(file)] == text
      && o.projectFiles == projectFiles + (if adds then [file] else [])
      && (o.info != Empty <==> !openFails)
  {
    var o := CreateOutcome(directories, files, projectFiles, file, Some(text), adds, creatable, openFails);
    assert PathKey(file) in o.files;
    assert AddAnyFilePackage.RemoveCaretMarker(Some(text)).content == text;
  }

  class NonTemplatedItemCreator {
    const folder: string
    const relativePath: seq<string>

    constructor(rootFolder: string, relativePath: seq<string>)
      ensures folder == rootFolder && this.relativePath == relativePath
    {
      folder := rootFolder;
      this.relativePath := relativePath;
    }

    /** The file to create: the root folder and the path segments combined. */
    function ItemFile(): string {
      Combine(folder, CombineAll(relativePath))
    }

    /**
     * `Create`: the file is the root folder and the path segments combined;
     * its template is looked up next to the extension's assembly, and the
     * project is asked whether it takes the file. The second result is the
     * caret move.
     */
    method Create(ws: Workspace, project: Option<ActiveProject>, assemblyLocation: string, directoryCreatable: bool, openFails: bool)
      returns (info: ItemInfo, caret: Option<nat>)
      modifies ws
      ensures Outcome(ws.directories, ws.files, ws.projectFiles, info, caret) ==
        CreateOutcome(old(ws.directories), old(ws.files), old(ws.projectFiles), ItemFile(),
          TemplateText(old(ws.files), TemplatePath(assemblyLocation, ItemFile())),
          AddsToProject(project, ItemFile()), directoryCreatable, openFails)
    {
      var file := Combine(folder, CombineAll(relativePath));
      var template := TemplateText(ws.files, TemplatePath(assemblyLocation, file));
      info, caret := CreateFile(ws, file, template, AddsToProject(project, file), directoryCreatable, openFails);
    }
  }

  /**
   * The steps of `Create` once the file, its template's text and whether the
   * project takes it are known: makes the file's directory when it is missing
   * (giving `Empty` when that fails), refuses a file that exists, otherwise
   * writes the file with the `$` removed, adds it to the project when the
   * project takes it, opens it and moves the caret. An exception while
   * opening gives `Empty` and leaves the written file in place.
   */
  method CreateFile(ws: Workspace, file: string, template: Option<string>, adds: bool, directoryCreatable: bool, openFails: bool)
    returns (info: ItemInfo, caret: Option<nat>)
    modifies ws
    ensures Outcome(ws.directories, ws.files, ws.projectFiles, info, caret) ==
      CreateOutcome(old(ws.directories), old(ws.files), old(ws.projectFiles), file, template, adds, directoryCreatable, openFails)
  {
    var dir := GetDirectoryName(file);
    info, caret := Empty, None;
    if DirectoryReady(ws.directories, dir, directoryCreatable) {
      if PathKey(dir) !in ws.directories {
        ws.CreateDirectory(dir);
      }
      if PathKey(file) !in ws.files {
        var written := AddAnyFilePackage.RemoveCaretMarker(template);
        ws.WriteAllText(file, written.content);
        if adds {
          ws.AddFromFile(file);
        }
        if !openFails {
          info, caret := Info(file, GetExtension(file)), CaretMove(written.position);
        }
      }
    }
  }

  /**
   * The created file is named by the last typed segment, and the reported
   * extension is that segment's own, whatever the root folder.
   */
  lemma ItemFileIsLastSegment(folder: string, relativePath: seq<string>)
    requires relativePath != []
    requires relativePath[|relativePath| - 1] != [] && Plain(relativePath[|relativePath| - 1])
    ensures var file := Combine(folder, CombineAll(relativePath));
      var name := relativePath[|relativePath| - 1];
      GetFileName(file) == name && GetExtension(file) == GetExtension(name)
  {
    var name := relativePath[|relativePath| - 1];
    var rest := CombineAll(relativePath);
    LastComponentIsFileName(folder, rest, name);
    FileNameOfPlainName(name);
  }

  /** Combined onto any folder, a path whose last component is a plain name has that name as its file name. */
  lemma LastComponentIsFileName(folder: string, rest: string, name: string)
    requires EndsWithComponent(rest, name) && Plain(name) && name != []
    ensures GetFileName(Combine(folder, rest)) == name
  {
    var file := Combine(folder, rest);
    CombineEndsWithComponent(folder, rest);
    ComponentOfComponent(file, rest, name);
    FileNameOfComponent(file, name);
  }
}

=== FILE: paths.dfy ===
/**
 * The `System.IO.Path` and `DirectoryInfo` operations used by the extension,
 * on Windows path strings: `\` and `/` separate directories and `:` ends a
 * drive name.
 */
module Paths {
  import opened Wrappers
  import opened Text

  predicate IsSeparator(c: char) {
    c == '\\' || c == '/'
  }

  /** A character after which a file name starts: a separator or the volume separator. */
  predicate IsNameBoundary(c: char) {
    IsSeparator(c) || c == ':'
  }

  /** Where the last component of `p` starts. */
  function NameStart(p: string): (k: nat)
    ensures k <= |p|
    ensures 0 < k ==> IsNameBoundary(p[k - 1])
    ensures forall j :: k <= j < |p| ==> !IsNameBoundary(p[j])
  {
    if p == [] then 0
    else if IsNameBoundary(p[|p| - 1]) then |p|
    else NameStart(p[..|p| - 1])
  }

  /** `Path.GetFileName`: the text after the last separator or drive colon. */
  function GetFileName(p: string): (r: string)
    ensures EndsWith(p, r)
    ensures forall j :: 0 <= j < |r| ==> !IsNameBoundary(r[j])
    ensures |r| < |p| ==> IsNameBoundary(p[|p| - |r| - 1])
  {
    p[NameStart(p)..]
  }

  /**
   * `Path.GetExtension`: from the last `.` of the file name to its end, or
   * empty when the name has no `.` or ends with it.
   */
  function GetExtension(p: string): (r: string)
    ensures r != [] ==> |r| >= 2 && r[0] == '.' && EndsWith(GetFileName(p), r)
    ensures forall j :: 1 <= j < |r| ==> r[j] != '.'
    ensures forall j :: 0 <= j < |r| ==> !IsNameBoundary(r[j])
  {
    ExtensionOfName(GetFileName(p))
  }

  /** The extension of a file name that has no separator or drive colon. */
  function ExtensionOfName(n: string): (r: string)
    requires forall j :: 0 <= j < |n| ==> !IsNameBoundary(n[j])
    ensures r != [] ==> |r| >= 2 && r[0] == '.' && EndsWith(n, r)
    ensures forall j :: 1 <= j < |r| ==> r[j] != '.'
    ensures forall j :: 0 <= j < |r| ==> !IsNameBoundary(r[j])
  {
    var k := LastIndexOf(n, '.');
    if k < 0 || k == |n| - 1 then []
    else
      var r := n[k..];
      assert n[|n| - |r|..] == r;
      r
  }

  /** `Path.GetFileNameWithoutExtension`: the file name cut before its last `.`. */
  function GetFileNameWithoutExtension(p: string): (r: string)
  {
    Stem(GetFileName(p))
  }

  /** A file name cut before its last `.`; the whole name when it has none. */
  function Stem(n: string): (r: string)
    ensures StartsWith(n, r)
    ensures |r| < |n| ==> n[|r|] == '.' && forall j :: |r| < j < |n| ==> n[j] != '.'
    ensures |r| == |n| <==> '.' !in n
  {
    var k := LastIndexOf(n, '.');
    if k < 0 then n else n[..k]
  }

  /** The position of the last directory separator, or -1. */
  function LastSeparator(p: string): (k: int)
    ensures -1 <= k < |p|
    ensures 0 <= k ==> IsSeparator(p[k])
    ensures forall j :: k < j < |p| ==> !IsSeparator(p[j])
  {
    if p == [] then -1
    else if IsSeparator(p[|p| - 1]) then |p| - 1
    else LastSeparator(p[..|p| - 1])
  }

  /** The last separator is the one with no separator after it. */
  lemma LastSeparatorIs(p: string, k: nat)
    requires k < |p| && IsSeparator(p[k])
    requires forall j :: k < j < |p| ==> !IsSeparator(p[j])
    ensures LastSeparator(p) == k
  {
  }

  /**
   * `Path.GetDirectoryName`: everything before the last separator (empty when
   * there is none). Drive roots are not special-cased.
   */
  function GetDirectoryName(p: string): (r: string)
    ensures StartsWith(p, r) && |r| <= |p|
    ensures |r| < |p| && 0 < LastSeparator(p) ==> IsSeparator(p[|r|])
  {
    var k := LastSeparator(p);
    if k < 0 then [] else p[..k]
  }

  /**
   * Windows finds a file or a folder whatever the letter case of its path:
   * the file systems of this model are keyed by the upper-cased path, so
   * two paths name the same entry exactly when they are equal ignoring case.
   */
  function PathKey(p: string): string {
    Upper(p)
  }

  /** Paths whose characters agree ignoring case have the same key. */
  lemma SameKey(a: string, b: string)
    requires |a| == |b| && forall i :: 0 <= i < |a| ==> ToUpper(a[i]) == ToUpper(b[i])
    ensures PathKey(a) == PathKey(b)
  {
  }

  /** Upper-casing leaves separators where they were: the last one is found at the same place. */
  lemma LastSeparatorOfKey(p: string)
    ensures LastSeparator(PathKey(p)) == LastSeparator(p)
  {
    var k := LastSeparator(p);
    var u := PathKey(p);
    assert forall j :: 0 <= j < |p| ==> (IsSeparator(u[j]) <==> IsSeparator(p[j]));
    if k >= 0 {
      LastSeparatorIs(u, k);
    }
  }

  /** The key of a path's directory is the directory of the path's key. */
  lemma DirectoryOfKey(p: string)
    ensures GetDirectoryName(PathKey(p)) == PathKey(GetDirectoryName(p))
  {
    LastSeparatorOfKey(p);
  }

  /** `DirectoryInfo.Parent`: the directory one level up; none once no separator is left. */
  function Parent(d: string): (r: Option<string>)
    ensures r.Some? ==> |r.value| < |d| && StartsWith(d, r.value) && IsSeparator(d[|r.value|])
    ensures r.None? <==> forall j :: 0 <= j < |d| ==> !IsSeparator(d[j])
  {
    var k := LastSeparator(d);
    if k < 0 then None else Some(d[..k])
  }

  /** `DirectoryInfo.Name`: the last component of a directory path. */
  function DirName(d: string): (r: string)
    ensures EndsWith(d, r)
    ensures forall j :: 0 <= j < |r| ==> !IsSeparator(r[j])
  {
    d[LastSeparator(d) + 1..]
  }

  /** `Path.IsPathRooted`. */
  predicate IsRooted(p: string) {
    (|p| >= 1 && IsSeparator(p[0])) || (|p| >= 2 && p[1] == ':')
  }

  /** `Path.Combine(a, b)`: `b` alone when it is rooted, otherwise `a` and `b` with one separator between. */
  function Combine(a: string, b: string): (r: string)
    ensures b != [] ==> EndsWith(r, b)
    ensures b == [] ==> r == a
    ensures b != [] && r != b ==> |r| > |b| && IsNameBoundary(r[|r| - |b| - 1])
    ensures !IsRooted(b) ==> StartsWith(r, a)
  {
    if b == [] then a
    else if a == [] || IsRooted(b) then b
    else if IsNameBoundary(a[|a| - 1]) then a + b
    else a + "\\" + b
  }

  /** `d` and then each directory reached through `Parent`, nearest first. */
  function Ancestors(d: string): (r: seq<string>)
    ensures |r| >= 1 && r[0] == d
    ensures forall i :: 0 <= i < |r| ==> StartsWith(d, r[i])
    ensures forall i, j :: 0 <= i < j < |r| ==> |r[j]| < |r[i]|
    decreases |d|
  {
    match Parent(d)
    case None => [d]
    case Some(p) => [d] + Ancestors(p)
  }

  /** Cutting a directory in front of any of its separators gives one of its ancestors. */
  lemma {:induction false} AncestorAtSeparator(d: string, k: nat)
    requires k < |d| && IsSeparator(d[k])
    ensures d[..k] in Ancestors(d)
    decreases |d|
  {
    var p := Parent(d).value;
    assert Ancestors(d) == [d] + Ancestors(p);
    if k < |p| {
      assert p[k] == d[k];
      AncestorAtSeparator(p, k);
      assert p[..k] == d[..k];
    } else {
      assert k == |p|;
    }
  }

  /** No separator or drive colon anywhere in `s`. */
  predicate Plain(s: string) {
    forall j :: 0 <= j < |s| ==> !IsNameBoundary(s[j])
  }

  /** A plain file name is its own file name. */
  lemma FileNameOfPlainName(s: string)
    requires Plain(s)
    ensures GetFileName(s) == s
  {
  }

  /** `p` ends with the component `name`: `name` is all of `p` or follows a separator or drive colon. */
  predicate EndsWithComponent(p: string, name: string) {
    EndsWith(p, name) && (|name| < |p| ==> IsNameBoundary(p[|p| - |name| - 1]))
  }

  /** A non-empty second part of `Combine` is the last component of the result. */
  lemma CombineEndsWithComponent(a: string, b: string)
    requires b != []
    ensures EndsWithComponent(Combine(a, b), b)
  {
  }

  /** The last component of the last component is the last component of the whole. */
  lemma ComponentOfComponent(p: string, q: string, name: string)
    requires EndsWithComponent(p, q) && EndsWithComponent(q, name)
    ensures EndsWithComponent(p, name)
  {
    if |name| < |q| {
      assert p[|p| - |name| - 1] == q[|q| - |name| - 1];
    }
  }

  /** A plain, non-empty last component is the file name. */
  lemma FileNameOfComponent(p: string, name: string)
    requires EndsWithComponent(p, name) && Plain(name) && name != []
    ensures GetFileName(p) == name
  {
  }

  /**
   * `Path.Combine(params string[])`: the parts combined in order, an empty
   * part skipped and a rooted part starting the path afresh.
   */
  function CombineAll(parts: seq<string>): (r: string)
    ensures parts != [] && parts[|parts| - 1] != [] ==> EndsWithComponent(r, parts[|parts| - 1])
  {
    if parts == [] then []
    else
      var rest := CombineAll(parts[1..]);
      var r := Combine(parts[0], rest);
      if |parts| > 1 && parts[|parts| - 1] != [] then
        assert parts[1..][|parts| - 2] == parts[|parts| - 1];
        ComponentOfComponent(r, rest, parts[|parts| - 1]);
        r
      else r
  }
}

=== FILE: project_helpers.dfy ===
/**
 * The project helpers of src/Helpers/ProjectHelpers.cs: namespace cleaning,
 * the root namespace, project kinds, the MVC reference, and how a new file is
 * hooked into the project's item tree, creating the folders on its way.
 */
module ProjectHelpers {
  import opened Wrappers
  import opened Text
  import opened Paths
  import opened Seqs

  const AspNet5Kind := "{8BB2217D-0F2D-49D1-97BC-3654ED321F3B}"
  const SsdtKind := "{00d1a9c2-b5f0-4af3-8072-f6c62b433612}"

  /**
   * What the helpers read from an EnvDTE project: its name, its
   * `RootNamespace` property (none when reading it fails), its kind GUID and
   * the names of its references (none when it is not a `VSProject`).
   */
  datatype Project = Project(
    name: Option<string>,
    rootNamespace: Option<string>,
    kind: string,
    references: Option<seq<string>>)

  // ---------------------------------------------------------------------------
  // Namespaces

  /**
   * `CleanNameSpace`: optionally removes every `.`, then removes every space
   * and `-`, then turns every `\` into `.`.
   */
  function CleanNameSpace(ns: string, stripPeriods: bool): (r: string)
    ensures ' ' !in r && '-' !in r && '\\' !in r
    ensures stripPeriods ==> Count(r, '.') == Count(ns, '\\')
    ensures !stripPeriods ==> Count(r, '.') == Count(ns, '.') + Count(ns, '\\')
    ensures WithoutPunctuation(r) == WithoutPunctuation(ns)
  {
    var s := if stripPeriods then Replace(ns, ".", "") else ns;
    var r := Replace(Replace(Replace(s, " ", ""), "-", ""), "\\", ".");
    CleanNameSpaceIsCharwise(ns, stripPeriods);
    CleanCharsProperties(ns, stripPeriods);
    r
  }

  /** The characters `CleanNameSpace` can only drop or rewrite: `.`, space, `-` and `\`. */
  predicate IsPunctuation(c: char) {
    c == '.' || c == ' ' || c == '-' || c == '\\'
  }

  /** `s` with the punctuation characters left out. */
  function WithoutPunctuation(s: string): string
    decreases |s|
  {
    if s == [] then [] else (if IsPunctuation(s[0]) then [] else [s[0]]) + WithoutPunctuation(s[1..])
  }

  /** What one character of the input becomes. */
  function CleanChar(c: char, stripPeriods: bool): string {
    if c == ' ' || c == '-' || (stripPeriods && c == '.') then []
    else if c == '\\' then "."
    else [c]
  }

  /** A reference definition of `CleanNameSpace`, one character at a time. */
  function CleanChars(ns: string, stripPeriods: bool): string
    decreases |ns|
  {
    if ns == [] then [] else CleanChar(ns[0], stripPeriods) + CleanChars(ns[1..], stripPeriods)
  }

  /** The chain of `Replace` calls is the character-by-character cleaning. */
  lemma {:induction false} CleanNameSpaceIsCharwise(ns: string, stripPeriods: bool)
    ensures
      var s := if stripPeriods then Replace(ns, ".", "") else ns;
      Replace(Replace(Replace(s, " ", ""), "-", ""), "\\", ".") == CleanChars(ns, stripPeriods)
  {
    var s := if stripPeriods then Replace(ns, ".", "") else ns;
    if stripPeriods {
      ReplaceCharIsSubst(ns, '.', "");
    }
    ReplaceCharIsSubst(s, ' ', "");
    ReplaceCharIsSubst(Subst(s, ' ', ""), '-', "");
    ReplaceCharIsSubst(Subst(Subst(s, ' ', ""), '-', ""), '\\', ".");
    SubstChainIsClean(ns, stripPeriods);
  }

  /** The cleaning as four character substitutions in a row. */
  function SubstChain(ns: string, stripPeriods: bool): string {
    var s := if stripPeriods then Subst(ns, '.', "") else ns;
    Subst(Subst(Subst(s, ' ', ""), '-', ""), '\\', ".")
  }

  lemma {:induction false} SubstChainIsClean(ns: string, stripPeriods: bool)
    ensures SubstChain(ns, stripPeriods) == CleanChars(ns, stripPeriods)
    decreases |ns|
  {
    if ns != [] {
      var c := ns[0];
      var rest := ns[1..];
      assert ns == [c] + rest;
      var s := if stripPeriods then Subst(ns, '.', "") else ns;
      var sc := if stripPeriods && c == '.' then [] else [c];
      var srest := if stripPeriods then Subst(rest, '.', "") else rest;
      assert s == sc + srest;
      SubstAppend(sc, srest, ' ', "");
      var a := Subst(sc, ' ', "");
      var b := Subst(srest, ' ', "");
      SubstAppend(a, b, '-', "");
      SubstAppend(Subst(a, '-', ""), Subst(b, '-', ""), '\\', ".");
      assert Subst(Subst(a, '-', ""), '\\', ".") == CleanChar(c, stripPeriods);
      SubstChainIsClean(rest, stripPeriods);
    }
  }

  lemma {:induction false} CleanCharsProperties(ns: string, stripPeriods: bool)
    ensures var r := CleanChars(ns, stripPeriods);
      && ' ' !in r && '-' !in r && '\\' !in r
      && (stripPeriods ==> Count(r, '.') == Count(ns, '\\'))
      && (!stripPeriods ==> Count(r, '.') == Count(ns, '.') + Count(ns, '\\'))
      && WithoutPunctuation(r) == WithoutPunctuation(ns)
    decreases |ns|
  {
    if ns != [] {
      var head := CleanChar(ns[0], stripPeriods);
      var tail := CleanChars(ns[1..], stripPeriods);
      assert CleanChars(ns, stripPeriods) == head + tail;
      CleanCharsProperties(ns[1..], stripPeriods);
      CleanCharProperties(ns[0], stripPeriods);
      CountAppend(head, tail, '.');
      WithoutPunctuationAppend(head, tail);
    }
  }

  /** What cleaning does to one character: no space, `-` or `\` comes out, and the `.`s and other characters are accounted for. */
  lemma CleanCharProperties(c: char, stripPeriods: bool)
    ensures var r := CleanChar(c, stripPeriods);
      && ' ' !in r && '-' !in r && '\\' !in r
      && Count(r, '.') == (if c == '\\' || (!stripPeriods && c == '.') then 1 else 0)
      && WithoutPunctuation(r) == (if IsPunctuation(c) then [] else [c])
  {
    var r := CleanChar(c, stripPeriods);
    if r != [] {
      assert r[1..] == [];
    }
  }

  lemma {:induction false} WithoutPunctuationAppend(a: string, b: string)
    ensures WithoutPunctuation(a + b) == WithoutPunctuation(a) + WithoutPunctuation(b)
    decreases |a|
  {
    if a == [] {
      assert a + b == b;
    } else {
      assert (a + b)[1..] == a[1..] + b;
      WithoutPunctuationAppend(a[1..], b);
    }
  }

  /**
   * `GetRootNamespace`: none without a project; otherwise the non-empty
   * `RootNamespace` property, falling back to the project name (or the empty
   * string), cleaned with its periods kept.
   */
  function GetRootNamespace(project: Option<Project>): (r: Option<string>)
    ensures project.None? <==> r.None?
    ensures project.Some? && project.value.rootNamespace.Some? && project.value.rootNamespace.value != [] ==>
      r == Some(CleanNameSpace(project.value.rootNamespace.value, false))
    ensures project.Some? && (project.value.rootNamespace.None? || project.value.rootNamespace.value == []) ==>
      r == Some(CleanNameSpace(project.value.name.GetOr([]), false))
  {
    match project
    case None => None
    case Some(p) =>
      var ns := p.name.GetOr([]);
      var ns' := if p.rootNamespace.Some? && p.rootNamespace.value != [] then p.rootNamespace.value else ns;
      Some(CleanNameSpace(ns', false))
  }

  // ---------------------------------------------------------------------------
  // Kinds and references

  /**
   * Both `IsKind` overloads: the kind equals one of the GUIDs ignoring case,
   * tried in order with an early return.
   */
  function IsKind(kind: string, kindGuids: seq<string>): (r: bool)
    ensures r <==> exists i :: 0 <= i < |kindGuids| && EqualsIgnoreCase(kind, kindGuids[i])
    decreases |kindGuids|
  {
    if kindGuids == [] then false
    else if EqualsIgnoreCase(kind, kindGuids[0]) then true
    else
      var r := IsKind(kind, kindGuids[1..]);
      assert forall i :: 1 <= i < |kindGuids| ==> kindGuids[i] == kindGuids[1..][i - 1];
      r
  }

  predicate IsMvcReference(name: string) {
    name == "Microsoft.AspNetCore.Mvc" || name == "System.Web.Mvc"
  }

  /** The position of the first reference that is an MVC assembly, looking from `k` on. */
  function FirstMvcReferenceFrom(refs: seq<string>, k: nat): (r: Option<nat>)
    requires k <= |refs|
    ensures r.None? <==> forall i :: k <= i < |refs| ==> !IsMvcReference(refs[i])
    ensures r.Some? ==> k <= r.value < |refs| && IsMvcReference(refs[r.value])
    ensures r.Some? ==> forall j :: k <= j < r.value ==> !IsMvcReference(refs[j])
    decreases |refs| - k
  {
    if k == |refs| then None
    else if IsMvcReference(refs[k]) then Some(k)
    else FirstMvcReferenceFrom(refs, k + 1)
  }

  /** `GetMVCNamespace`: the first MVC reference; none when there is none or the project has no reference list. */
  function GetMVCNamespace(project: Project): (r: Option<string>)
    ensures r.Some? ==> IsMvcReference(r.value)
    ensures r.None? <==> project.references.None? || forall i :: 0 <= i < |project.references.value| ==> !IsMvcReference(project.references.value[i])
    ensures r.Some? ==> exists i :: (0 <= i < |project.references.value| && project.references.value[i] == r.value
      && forall j :: 0 <= j < i ==> !IsMvcReference(project.references.value[j]))
  {
    match project.references
    case None => None
    case Some(refs) =>
      match FirstMvcReferenceFrom(refs, 0)
      case None => None
      case Some(i) => Some(refs[i])
  }

  predicate IsMVCProject(project: Project) {
    GetMVCNamespace(project).Some?
  }

  /** A project is an MVC project exactly when it has a reference list holding an MVC assembly. */
  lemma IsMVCProjectIff(project: Project)
    ensures IsMVCProject(project) <==>
      project.references.Some? && exists i :: 0 <= i < |project.references.value| && IsMvcReference(project.references.value[i])
  {
  }

  // ---------------------------------------------------------------------------
  // The project's item tree

  /** Item names compared exactly or ordinal ignoring case. */
  predicate SameName(a: string, b: string, ignoreCase: bool) {
    if ignoreCase then EqualsIgnoreCase(a, b) else a == b
  }

  /** `item` sits directly under `parent` and is called `name`. */
  predicate IsNamedChild(item: seq<string>, parent: seq<string>, name: string, ignoreCase: bool) {
    |item| == |parent| + 1 && item[..|parent|] == parent && SameName(item[|parent|], name, ignoreCase)
  }

  /** `FirstOrDefault` over the items under `parent`: the first one, in item order, called `name`. */
  function FindChild(items: seq<seq<string>>, parent: seq<string>, name: string, ignoreCase: bool): (r: Option<nat>)
    ensures r.Some? ==> r.value < |items| && IsNamedChild(items[r.value], parent, name, ignoreCase)
    ensures r.Some? ==> forall j :: 0 <= j < r.value ==> !IsNamedChild(items[j], parent, name, ignoreCase)
    ensures r.None? ==> forall j :: 0 <= j < |items| ==> !IsNamedChild(items[j], parent, name, ignoreCase)
  {
    FindChildFrom(items, parent, name, ignoreCase, 0)
  }

  function FindChildFrom(items: seq<seq<string>>, parent: seq<string>, name: string, ignoreCase: bool, k: nat): (r: Option<nat>)
    requires k <= |items|
    requires forall j :: 0 <= j < k ==> !IsNamedChild(items[j], parent, name, ignoreCase)
    ensures r.Some? ==> k <= r.value < |items| && IsNamedChild(items[r.value], parent, name, ignoreCase)
    ensures r.Some? ==> forall j :: 0 <= j < r.value ==> !IsNamedChild(items[j], parent, name, ignoreCase)
    ensures r.None? ==> forall j :: 0 <= j < |items| ==> !IsNamedChild(items[j], parent, name, ignoreCase)
    decreases |items| - k
  {
    if k == |items| then None
    else if IsNamedChild(items[k], parent, name, ignoreCase) then Some(k)
    else FindChildFrom(items, parent, name, ignoreCase, k + 1)
  }

  /** The first matching item is the one at `k` when it matches and none before it does. */
  lemma FindChildIs(items: seq<seq<string>>, parent: seq<string>, name: string, ignoreCase: bool, k: nat)
    requires k < |items| && IsNamedChild(items[k], parent, name, ignoreCase)
    requires forall j :: 0 <= j < k ==> !IsNamedChild(items[j], parent, name, ignoreCase)
    ensures FindChild(items, parent, name, ignoreCase) == Some(k)
  {
  }

  /** Items added after a matching one do not change which item is found. */
  lemma FindChildStable(items: seq<seq<string>>, more: seq<seq<string>>, parent: seq<string>, name: string, ignoreCase: bool)
    requires FindChild(items, parent, name, ignoreCase).Some?
    requires |items| <= |more| && more[..|items|] == items
    ensures FindChild(more, parent, name, ignoreCase) == FindChild(items, parent, name, ignoreCase)
  {
    var k := FindChild(items, parent, name, ignoreCase).value;
    assert forall j :: 0 <= j <= k ==> more[j] == items[j] by {
      forall j | 0 <= j <= k ensures more[j] == items[j] {
        assert more[..|items|][j] == more[j];
      }
    }
    FindChildIs(more, parent, name, ignoreCase, k);
  }

  /**
   * One level of the walk: the first item under `parent` called `name`, or
   * else a new folder of that name added at the end of the items.
   */
  function Step(items: seq<seq<string>>, parent: seq<string>, name: string, ignoreCase: bool): (r: (seq<seq<string>>, seq<string>))
    ensures IsNamedChild(r.1, parent, name, ignoreCase)
    ensures |items| <= |r.0| <= |items| + 1 && r.0[..|items|] == items
    ensures |r.0| == |items| + 1 ==> r.0[|items|] == r.1 && r.1 == parent + [name]
    ensures |r.0| == |items| + 1 ==> forall j :: 0 <= j < |items| ==> !IsNamedChild(items[j], parent, name, ignoreCase)
    ensures FindChild(r.0, parent, name, ignoreCase).Some?
    ensures r.0[FindChild(r.0, parent, name, ignoreCase).value] == r.1
  {
    match FindChild(items, parent, name, ignoreCase)
    case Some(k) => (items, items[k])
    case None =>
      var child := parent + [name];
      assert child[..|parent|] == parent;
      FindChildIs(items + [child], parent, name, ignoreCase, |items|);
      (items + [child], child)
  }

  /**
   * The walk of `AddFolders` (and of the legacy `GetItemParent`) from
   * `parent` down `segs`, one `Step` per segment. Gives the new item list and
   * the item reached.
   */
  function EnsurePath(items: seq<seq<string>>, parent: seq<string>, segs: seq<string>, ignoreCase: bool): (r: (seq<seq<string>>, seq<string>))
    decreases |segs|
  {
    if segs == [] then (items, parent)
    else
      var s := Step(items, parent, segs[0], ignoreCase);
      EnsurePath(s.0, s.1, segs[1..], ignoreCase)
  }

  /** Looks the path up without adding anything; none when a level is missing. */
  function Lookup(items: seq<seq<string>>, parent: seq<string>, segs: seq<string>, ignoreCase: bool): Option<seq<string>>
    decreases |segs|
  {
    if segs == [] then Some(parent)
    else
      match FindChild(items, parent, segs[0], ignoreCase)
      case Some(k) => Lookup(items, items[k], segs[1..], ignoreCase)
      case None => None
  }

  /**
   * The walk reaches an item one level below `parent` per segment, each level
   * named like its segment, and only adds items at the end of the list.
   */
  lemma {:induction false} EnsurePathShape(items: seq<seq<string>>, parent: seq<string>, segs: seq<string>, ignoreCase: bool)
    ensures var r := EnsurePath(items, parent, segs, ignoreCase);
      |r.1| == |parent| + |segs| && r.1[..|parent|] == parent
    ensures var r := EnsurePath(items, parent, segs, ignoreCase);
      forall i :: 0 <= i < |segs| ==> SameName(r.1[|parent| + i], segs[i], ignoreCase)
    ensures var r := EnsurePath(items, parent, segs, ignoreCase);
      |items| <= |r.0| && r.0[..|items|] == items
    decreases |segs|
  {
    if segs != [] {
      var s := Step(items, parent, segs[0], ignoreCase);
      var r := EnsurePath(items, parent, segs, ignoreCase);
      assert r == EnsurePath(s.0, s.1, segs[1..], ignoreCase);
      EnsurePathShape(s.0, s.1, segs[1..], ignoreCase);
      assert r.1[..|parent|] == r.1[..|s.1|][..|parent|];
      forall i | 0 <= i < |segs| ensures SameName(r.1[|parent| + i], segs[i], ignoreCase) {
        if i == 0 {
          assert r.1[|parent|] == r.1[..|s.1|][|parent|];
        } else {
          assert r.1[|s.1| + (i - 1)] == r.1[|parent| + i];
          assert segs[1..][i - 1] == segs[i];
        }
      }
      assert r.0[..|items|] == r.0[..|s.0|][..|items|];
    }
  }

  /** Every item the walk adds lies on the way down to the item it reaches, below `parent`. */
  lemma {:induction false} EnsurePathAddsOnlyTheWay(items: seq<seq<string>>, parent: seq<string>, segs: seq<string>, ignoreCase: bool)
    ensures var r := EnsurePath(items, parent, segs, ignoreCase);
      forall j :: |items| <= j < |r.0| ==> |parent| < |r.0[j]| <= |r.1| && r.0[j] == r.1[..|r.0[j]|]
    decreases |segs|
  {
    if segs != [] {
      var s := Step(items, parent, segs[0], ignoreCase);
      var r := EnsurePath(items, parent, segs, ignoreCase);
      assert r == EnsurePath(s.0, s.1, segs[1..], ignoreCase);
      EnsurePathShape(s.0, s.1, segs[1..], ignoreCase);
      EnsurePathAddsOnlyTheWay(s.0, s.1, segs[1..], ignoreCase);
      forall j | |items| <= j < |r.0| ensures |parent| < |r.0[j]| <= |r.1| && r.0[j] == r.1[..|r.0[j]|] {
        if j < |s.0| {
          assert r.0[j] == r.0[..|s.0|][j] == s.1;
        }
      }
    }
  }

  /** After the walk, looking the same segments up finds the item the walk reached. */
  lemma {:induction false} EnsurePathThenLookup(items: seq<seq<string>>, parent: seq<string>, segs: seq<string>, ignoreCase: bool)
    ensures var r := EnsurePath(items, parent, segs, ignoreCase);
      Lookup(r.0, parent, segs, ignoreCase) == Some(r.1)
    decreases |segs|
  {
    if segs != [] {
      var s := Step(items, parent, segs[0], ignoreCase);
      var r := EnsurePath(items, parent, segs, ignoreCase);
      assert r == EnsurePath(s.0, s.1, segs[1..], ignoreCase);
      EnsurePathThenLookup(s.0, s.1, segs[1..], ignoreCase);
      EnsurePathShape(s.0, s.1, segs[1..], ignoreCase);
      FindChildStable(s.0, r.0, parent, segs[0], ignoreCase);
      var k := FindChild(s.0, parent, segs[0], ignoreCase).value;
      assert r.0[k] == r.0[..|s.0|][k] == s.1;
    }
  }

  /** When the path is already there, the walk adds nothing and reaches it. */
  lemma {:induction false} LookupThenEnsurePath(items: seq<seq<string>>, parent: seq<string>, segs: seq<string>, ignoreCase: bool)
    requires Lookup(items, parent, segs, ignoreCase).Some?
    ensures EnsurePath(items, parent, segs, ignoreCase) == (items, Lookup(items, parent, segs, ignoreCase).value)
    decreases |segs|
  {
    if segs != [] {
      var k := FindChild(items, parent, segs[0], ignoreCase).value;
      assert Step(items, parent, segs[0], ignoreCase) == (items, items[k]);
      LookupThenEnsurePath(items, items[k], segs[1..], ignoreCase);
    }
  }

  /** Walking the same segments a second time changes nothing. */
  lemma EnsurePathIdempotent(items: seq<seq<string>>, parent: seq<string>, segs: seq<string>, ignoreCase: bool)
    ensures var r := EnsurePath(items, parent, segs, ignoreCase);
      EnsurePath(r.0, parent, segs, ignoreCase) == r
  {
    EnsurePathThenLookup(items, parent, segs, ignoreCase);
    var r := EnsurePath(items, parent, segs, ignoreCase);
    LookupThenEnsurePath(r.0, parent, segs, ignoreCase);
  }

  /** No two items under the same parent have the same name. */
  predicate NoDuplicateSiblings(items: seq<seq<string>>, ignoreCase: bool) {
    forall i, j :: 0 <= i < j < |items| && |items[i]| >= 1 ==>
      !IsNamedChild(items[j], items[i][..|items[i]| - 1], items[i][|items[i]| - 1], ignoreCase)
  }

  /** A new child clashing with an existing item means that item already was a child of that name. */
  lemma NamedChildClash(x: seq<string>, c: seq<string>, parent: seq<string>, name: string, ignoreCase: bool)
    requires |x| >= 1 && IsNamedChild(c, parent, name, ignoreCase)
    ensures IsNamedChild(c, x[..|x| - 1], x[|x| - 1], ignoreCase) ==> IsNamedChild(x, parent, name, ignoreCase)
  {
    if IsNamedChild(c, x[..|x| - 1], x[|x| - 1], ignoreCase) {
      assert x[..|parent|] == c[..|parent|];
    }
  }

  /** The walk never adds an item next to one of the same name. */
  lemma {:induction false} EnsurePathKeepsNamesUnique(items: seq<seq<string>>, parent: seq<string>, segs: seq<string>, ignoreCase: bool)
    requires NoDuplicateSiblings(items, ignoreCase)
    ensures NoDuplicateSiblings(EnsurePath(items, parent, segs, ignoreCase).0, ignoreCase)
    decreases |segs|
  {
    if segs != [] {
      var s := Step(items, parent, segs[0], ignoreCase);
      forall i, j | 0 <= i < j < |s.0| && |s.0[i]| >= 1
        ensures !IsNamedChild(s.0[j], s.0[i][..|s.0[i]| - 1], s.0[i][|s.0[i]| - 1], ignoreCase)
      {
        assert s.0[i] == s.0[..|items|][i];
        if j < |items| {
          assert s.0[j] == s.0[..|items|][j];
        } else {
          NamedChildClash(s.0[i], s.1, parent, segs[0], ignoreCase);
        }
      }
      EnsurePathKeepsNamesUnique(s.0, s.1, segs[1..], ignoreCase);
    }
  }

  // ---------------------------------------------------------------------------
  // From the root folder down to a directory

  /** Appends `tail` to the segments, when there are any. */
  function Then(segs: Option<seq<string>>, tail: seq<string>): Option<seq<string>> {
    match segs
    case None => None
    case Some(s) => Some(s + tail)
  }

  /**
   * The directory names from just below `root` down to `target`, outermost
   * first; none when climbing through `Parent` never meets `root` (ignoring case).
   */
  function SegmentsBetween(root: string, target: string): Option<seq<string>>
    decreases |target|
  {
    if EqualsIgnoreCase(target, root) then Some([])
    else
      match Parent(target)
      case None => None
      case Some(p) => Then(SegmentsBetween(root, p), [DirName(target)])
  }

  /**
   * The `while` loop of `AddFolders`: collects `target.Name` climbing from the
   * target to the root with its trailing `\` trimmed, then reverses the list.
   * Reaching a directory without parent first fails, as the next
   * `target.FullName` would dereference null.
   */
  method FolderSegments(root: string, targetFolder: string) returns (r: Option<seq<string>>)
    ensures r == SegmentsBetween(TrimEndChar(root, '\\'), targetFolder)
  {
    var trimmed := TrimEndChar(root, '\\');
    var list: seq<string> := [];
    var target := targetFolder;
    assert Reversed(list) == [];
    match SegmentsBetween(trimmed, targetFolder) {
      case None =>
      case Some(segs) => assert segs + [] == segs;
    }
    while !EqualsIgnoreCase(target, trimmed)
      invariant SegmentsBetween(trimmed, targetFolder) == Then(SegmentsBetween(trimmed, target), Reversed(list))
      decreases |target|
    {
      var parent := Parent(target);
      if parent.None? {
        return None;
      }
      ghost var before := SegmentsBetween(trimmed, parent.value);
      ReversedSnoc(list, DirName(target));
      if before.Some? {
        assert before.value + [DirName(target)] + Reversed(list) == before.value + Reversed(list + [DirName(target)]);
      }
      list := list + [DirName(target)];
      target := parent.value;
    }
    assert Then(SegmentsBetween(trimmed, target), Reversed(list)) == Some([] + Reversed(list));
    assert [] + Reversed(list) == Reversed(list);
    list := Reversed(list);
    return Some(list);
  }

  /** Climbing from `d` meets `root` when one of `d`'s ancestors equals it ignoring case. */
  lemma {:induction false} SegmentsReachAncestor(root: string, d: string, a: string)
    requires a in Ancestors(d) && EqualsIgnoreCase(a, root)
    ensures SegmentsBetween(root, d).Some?
    decreases |d|
  {
    if !EqualsIgnoreCase(d, root) {
      var p := Parent(d).value;
      assert a in Ancestors(p);
      SegmentsReachAncestor(root, p, a);
    }
  }

  // ---------------------------------------------------------------------------
  // Adding a file to the project

  /** The containment test of `AddFileToProject` as the source writes it: the path starts with the root, ignoring case. */
  predicate AddFileGuardAsWritten(root: string, fullName: string) {
    root != [] && StartsWithIgnoreCase(fullName, root)
  }

  /** The containment test it needs: besides the written test, a separator follows the root (trailing separators trimmed). */
  predicate AddFileGuard(root: string, fullName: string) {
    AddFileGuardAsWritten(root, fullName) && StartsWithIgnoreCase(fullName, TrimEndChar(root, '\\') + "\\")
  }

  /**
   * With the written test, a file in a sibling folder whose name extends the
   * root's passes, and climbing from its folder never meets the root: the
   * walk of `AddFolders` dereferences a null parent.
   */
  lemma AsWrittenGuardAdmitsSibling()
    ensures AddFileGuardAsWritten("C:\\Proj", "C:\\Proj2\\a.cs")
    ensures GetDirectoryName("C:\\Proj2\\a.cs") == "C:\\Proj2"
    ensures SegmentsBetween(TrimEndChar("C:\\Proj", '\\'), "C:\\Proj2") == None
  {
    assert Upper("C:\\Proj2\\a.cs"[..7]) == Upper("C:\\Proj");
    LastSeparatorIs("C:\\Proj2\\a.cs", 8);
    assert "C:\\Proj2\\a.cs"[..8] == "C:\\Proj2";
    assert TrimEndChar("C:\\Proj", '\\') == "C:\\Proj";
    LastSeparatorIs("C:\\Proj2", 2);
    assert "C:\\Proj2"[..2] == "C:";
    assert Parent("C:\\Proj2") == Some("C:");
    assert Parent("C:") == None;
    assert !EqualsIgnoreCase("C:\\Proj2", "C:\\Proj");
    assert !EqualsIgnoreCase("C:", "C:\\Proj");
  }

  /** Upper-casing makes no separator out of anything else. */
  lemma UpperSeparator(c: char)
    requires ToUpper(c) == '\\'
    ensures c == '\\'
  {
  }

  /**
   * With the corrected test, a file outside the root's own folder always has
   * a non-empty list of folders from the root down to its directory.
   */
  lemma GuardedFolderReachesRoot(root: string, fullName: string)
    requires AddFileGuard(root, fullName)
    requires !EqualsIgnoreCase(TrimEndChar(root, '\\'), GetDirectoryName(fullName))
    ensures var segs := SegmentsBetween(TrimEndChar(root, '\\'), GetDirectoryName(fullName));
      segs.Some? && segs.value != []
  {
    var trimmed := TrimEndChar(root, '\\');
    var n := |trimmed|;
    var prefix := trimmed + "\\";
    assert Upper(fullName[..n + 1])[n] == Upper(prefix)[n];
    UpperSeparator(fullName[n]);
    var last := LastSeparator(fullName);
    assert n <= last;
    var dir := GetDirectoryName(fullName);
    assert dir == fullName[..last];
    assert Upper(dir[..n]) == Upper(trimmed) by {
      assert dir[..n] == fullName[..n + 1][..n];
      assert Upper(prefix)[..n] == Upper(trimmed);
      assert Upper(fullName[..n + 1])[..n] == Upper(dir[..n]);
    }
    assert n < last;
    assert dir[n] == '\\';
    AncestorAtSeparator(dir, n);
    SegmentsReachAncestor(trimmed, dir, dir[..n]);
  }

  /** The outcome of `AddFileToProject`. */
  datatype AddOutcome =
    | FoundInSolution            // ASP.NET 5 and SSDT projects pick the file up themselves
    | NotAdded                   // no root folder, or the file lies outside it
    | Added(item: seq<string>)   // the new item's path in the project tree

  /** The items of a project, each named by its path of item names from the project root, in the order they were added. */
  class ProjectTree {
    var items: seq<seq<string>>

    constructor(items0: seq<seq<string>>)
      ensures items == items0
    {
      items := items0;
    }

    /**
     * `AddFolders`: the folder items from the root down to `targetFolder`,
     * reusing at each level the first item whose name matches ignoring case
     * and adding a folder otherwise. Fails, changing nothing, when the climb
     * never meets the root or there is no folder between them.
     */
    method AddFolders(root: string, targetFolder: string) returns (r: Option<seq<string>>)
      modifies this
      ensures var segs := SegmentsBetween(TrimEndChar(root, '\\'), targetFolder);
        if segs.None? || segs.value == [] then r.None? && items == old(items)
        else (items, r) == (EnsurePath(old(items), [], segs.value, true).0, Some(EnsurePath(old(items), [], segs.value, true).1))
    {
      var segs := FolderSegments(root, targetFolder);
      if segs.None? || segs.value == [] {
        return None;
      }
      var list := segs.value;
      var item: seq<string>;
      var existing := FindChild(items, [], list[0], true);
      if existing.Some? {
        item := items[existing.value];
      } else {
        items := items + [[list[0]]];
        item := [list[0]];
      }
      for i := 1 to |list|
        invariant EnsurePath(items, item, list[i..], true) == EnsurePath(old(items), [], list, true)
      {
        assert list[i..][1..] == list[i + 1..];
        existing := FindChild(items, item, list[i], true);
        if existing.Some? {
          item := items[existing.value];
        } else {
          items := items + [item + [list[i]]];
          item := item + [list[i]];
        }
      }
      assert list[|list|..] == [];
      return Some(item);
    }

    /**
     * `AddFileToProject`, with the corrected containment test: ASP.NET 5 and
     * SSDT projects are left alone, a file outside the root is not added, a
     * file in the root folder goes to the top level, and any other file goes
     * under its folders, created as needed.
     */
    method AddFileToProject(kind: string, root: string, fullName: string) returns (r: AddOutcome)
      modifies this
      ensures IsKind(kind, [AspNet5Kind, SsdtKind]) ==> r == FoundInSolution && items == old(items)
      ensures !IsKind(kind, [AspNet5Kind, SsdtKind]) && !AddFileGuardAsWritten(root, fullName) ==>
        r == NotAdded && items == old(items)
      ensures !IsKind(kind, [AspNet5Kind, SsdtKind]) && !AddFileGuard(root, fullName) ==>
        r == NotAdded && items == old(items)
      ensures r.Added? ==> AddFileGuard(root, fullName) && r.item != [] && r.item[|r.item| - 1] == GetFileName(fullName)
      ensures r.Added? ==> (SegmentsBetween(TrimEndChar(root, '\\'), GetDirectoryName(fullName)).Some?
        && items == EnsurePath(old(items), [], SegmentsBetween(TrimEndChar(root, '\\'), GetDirectoryName(fullName)).value, true).0 + [r.item])
      ensures r.Added? ==>
        r.item == EnsurePath(old(items), [], SegmentsBetween(TrimEndChar(root, '\\'), GetDirectoryName(fullName)).value, true).1
          + [GetFileName(fullName)]
      ensures !IsKind(kind, [AspNet5Kind, SsdtKind]) && AddFileGuard(root, fullName) ==> r.Added?
    {
      if IsKind(kind, [AspNet5Kind, SsdtKind]) {
        return FoundInSolution;
      }
      if !AddFileGuard(root, fullName) {
        return NotAdded;
      }
      var dir := GetDirectoryName(fullName);
      var parent: seq<string>;
      if EqualsIgnoreCase(TrimEndChar(root, '\\'), dir) {
        assert EqualsIgnoreCase(dir, TrimEndChar(root, '\\'));
        parent := [];
      } else {
        GuardedFolderReachesRoot(root, fullName);
        var folder := AddFolders(root, dir);
        parent := folder.value;
      }
      var item := parent + [GetFileName(fullName)];
      items := items + [item];
      return Added(item);
    }
  }
}

=== FILE: project_item_manager.dfy ===
/**
 * The older subsystem's `ProjectItemManager`: picks the first rule of the
 * template map that matches the typed item name and decides whether the item
 * is created from a Visual Studio template or written as a plain file.
 */
module ItemManager {
  import opened Wrappers
  import opened Text
  import opened Regexes
  import opened LegacyTemplateMap
  import ProjectHelpers

  /** Project kinds other than ASP.NET 5 take item templates; the kind is compared exactly. */
  predicate DoesProjectSupportTemplates(kind: string) {
    kind != ProjectHelpers.AspNet5Kind
  }

  /**
   * The exact comparison sets this test apart from `IsKind` used elsewhere:
   * the ASP.NET 5 kind written in lower case counts as that kind for `IsKind`
   * and yet supports templates here.
   */
  lemma SupportTestIsCaseSensitive()
    ensures var k := Lower(ProjectHelpers.AspNet5Kind);
      k != ProjectHelpers.AspNet5Kind
      && DoesProjectSupportTemplates(k)
      && ProjectHelpers.IsKind(k, [ProjectHelpers.AspNet5Kind])
  {
    var k := Lower(ProjectHelpers.AspNet5Kind);
    assert k[2] == 'b' != ProjectHelpers.AspNet5Kind[2];
    UpperOfLower(ProjectHelpers.AspNet5Kind);
    assert EqualsIgnoreCase(k, [ProjectHelpers.AspNet5Kind][0]);
  }

  /** What `GetTemplate` finds: a mapping and the suggested file name, nothing, or an exception. */
  datatype TemplateLookup =
    | Found(mapping: TemplateMapping, suggestedFileName: string)
    | NotFound
    /** A mapping with neither a compiled expression nor a pattern was reached: `new Regex(null)` throws. */
    | PatternMissing

  /** The lookup that a scan over the given mappings ends in. */
  function LookupOf(mappings: seq<TemplateMapping>, s: Scan): (r: TemplateLookup)
    requires s.Hit? ==> s.index < |mappings|
    ensures r.Found? <==> s.Hit?
    ensures r.Found? ==> r.mapping == mappings[s.index] && r.suggestedFileName == s.capture
    ensures r.PatternMissing? <==> s.NullPattern?
  {
    match s
    case Hit(i, c) => Found(mappings[i], c)
    case Miss => NotFound
    case NullPattern(_) => PatternMissing
  }

  /** The creator `GetCreator` picks, with the path segments it is given. */
  datatype Creator =
    | Templated(template: TemplateMapping, path: seq<string>)
    | NonTemplated(rootFolder: string, path: seq<string>)

  class ProjectItemManager {
    const templateMap: TemplateMap

    constructor(templateMap: TemplateMap)
      ensures this.templateMap == templateMap
    {
      this.templateMap := templateMap;
    }

    /**
     * Tries the mappings in list order and returns the first whose compiled
     * pattern matches `itemName`, with the `name` capture as the suggested
     * file name. Compiling fills the caches of the mappings it reaches;
     * nothing else changes.
     */
    method GetTemplate(itemName: string, matcher: Matcher) returns (r: TemplateLookup)
      modifies set m | m in templateMap.mappings
      ensures Patterns(templateMap.mappings) == old(Patterns(templateMap.mappings))
      ensures r == LookupOf(templateMap.mappings, ScanFrom(old(Patterns(templateMap.mappings)), itemName, matcher, 0))
      ensures forall m :: m in templateMap.mappings ==>
        m.Pattern == old(m.Pattern) && m.Language == old(m.Language) && m.TemplateName == old(m.TemplateName)
    {
      var mappings := templateMap.mappings;
      ghost var patterns := Patterns(mappings);
      for i := 0 to |mappings|
        invariant Patterns(mappings) == patterns
        invariant ScanFrom(patterns, itemName, matcher, i) == ScanFrom(patterns, itemName, matcher, 0)
        invariant forall m :: m in mappings ==>
          m.Pattern == old(m.Pattern) && m.Language == old(m.Language) && m.TemplateName == old(m.TemplateName)
      {
        var mapping := mappings[i];
        var expression := mapping.GetPatternExpression();
        if expression.None? {
          return PatternMissing;
        }
        var found := matcher(expression.value.Pattern, itemName);
        if found.Some? {
          return Found(mapping, found.value);
        }
      }
      return NotFound;
    }

    /**
     * Splits the relative path at `\\` and looks up a template for its last
     * segment; the creator is then chosen as `ChooseCreator` says.
     */
    method GetCreator(projectKind: string, rootFolder: string, relativePath: string, matcher: Matcher) returns (r: Option<Creator>)
      modifies set m | m in templateMap.mappings
      ensures var path := Split(relativePath, '\\');
        r == ChooseCreator(projectKind, rootFolder, path,
          LookupOf(templateMap.mappings, ScanFrom(old(Patterns(templateMap.mappings)), path[|path| - 1], matcher, 0)))
    {
      var path := Split(relativePath, '\\');
      r := CreatorForPath(projectKind, rootFolder, path, matcher);
    }

    /**
     * The rest of `GetCreator`, given the split path: looks up a template for
     * the last segment and picks the templated creator (with the suggested
     * file name as last segment) when one is found and the project supports
     * templates, the plain creator otherwise, and none when the lookup throws.
     */
    method CreatorForPath(projectKind: string, rootFolder: string, path: seq<string>, matcher: Matcher) returns (r: Option<Creator>)
      requires |path| >= 1
      modifies set m | m in templateMap.mappings
      ensures r == ChooseCreator(projectKind, rootFolder, path,
        LookupOf(templateMap.mappings, ScanFrom(old(Patterns(templateMap.mappings)), path[|path| - 1], matcher, 0)))
    {
      var lookup := GetTemplate(path[|path| - 1], matcher);
      match lookup
      case PatternMissing =>
        r := None;
      case NotFound =>
        r := Some(NonTemplated(rootFolder, path));
      case Found(template, fileName) =>
        if DoesProjectSupportTemplates(projectKind) {
          r := Some(Templated(template, path[|path| - 1 := fileName]));
        } else {
          r := Some(NonTemplated(rootFolder, path));
        }
    }
  }

  /**
   * The creator for a split path and the outcome of the template lookup on
   * its last segment: a found template in a project that supports templates
   * gives a templated creator whose last segment is the suggested file name
   * and whose other segments are kept; in every other case the plain creator
   * gets the split path unchanged; a lookup that threw gives none.
   */
  function ChooseCreator(projectKind: string, rootFolder: string, path: seq<string>, lookup: TemplateLookup): (r: Option<Creator>)
    requires |path| >= 1
    ensures r.None? <==> lookup.PatternMissing?
    ensures r.Some? && r.value.Templated? <==> lookup.Found? && DoesProjectSupportTemplates(projectKind)
    ensures r.Some? && r.value.Templated? ==>
      && r.value.template == lookup.mapping
      && |r.value.path| == |path|
      && r.value.path[..|path| - 1] == path[..|path| - 1]
      && r.value.path[|path| - 1] == lookup.suggestedFileName
    ensures r.Some? && r.value.NonTemplated? ==> r.value == NonTemplated(rootFolder, path)
  {
    match lookup
    case PatternMissing => None
    case NotFound => Some(NonTemplated(rootFolder, path))
    case Found(template, fileName) =>
      if DoesProjectSupportTemplates(projectKind) then Some(Templated(template, path[|path| - 1 := fileName]))
      else Some(NonTemplated(rootFolder, path))
  }
}

=== FILE: regexes.dfy ===
/**
 * Compiled regular expressions, with the matching engine abstracted away.
 *
 * A `Regex` object remembers the pattern it was built from; it is a class so
 * that "the same object" means reference equality, as for .NET's `Regex`.
 * Matching itself is a `Matcher`: given a pattern and an input it answers
 * `None` when the match fails and `Some(capture)` with the value of the
 * group `name` when it succeeds (empty when the pattern has no such group).
 */
module Regexes {
  import opened Wrappers

  class Regex {
    const Pattern: string

    /** `new Regex(pattern, RegexOptions.Compiled)` for a non-null pattern. */
    constructor(pattern: string)
      ensures Pattern == pattern
    {
      Pattern := pattern;
    }
  }

  type Matcher = (string, string) -> Option<string>

  /** How a first-match scan over a list of patterns ends. */
  datatype Scan =
    | Hit(index: nat, capture: string)
    | Miss
    /** A pattern that is null had to be compiled: `new Regex(null)` throws. */
    | NullPattern(index: nat)

  /**
   * Tries the patterns from position `k` on, in order, against `input`: the
   * first pattern that matches wins, and a null pattern met before any match
   * stops the scan.
   */
  function ScanFrom(patterns: seq<Option<string>>, input: string, matcher: Matcher, k: nat): (r: Scan)
    requires k <= |patterns|
    ensures r.Hit? ==>
      && k <= r.index < |patterns|
      && patterns[r.index].Some?
      && matcher(patterns[r.index].value, input) == Some(r.capture)
    ensures r.NullPattern? ==> k <= r.index < |patterns| && patterns[r.index].None?
    ensures r.Hit? || r.NullPattern? ==>
      forall j :: k <= j < r.index ==>
        patterns[j].Some? && matcher(patterns[j].value, input).None?
    ensures r.Miss? <==>
      forall j :: k <= j < |patterns| ==> patterns[j].Some? && matcher(patterns[j].value, input).None?
    decreases |patterns| - k
  {
    if k == |patterns| then Miss
    else match patterns[k]
      case None => NullPattern(k)
      case Some(p) =>
        match matcher(p, input)
        case Some(c) => Hit(k, c)
        case None => ScanFrom(patterns, input, matcher, k + 1)
  }

  /**
   * Any list of patterns in which the `k`th is the first to match (and none
   * before it is null) is scanned to `k`.
   */
  lemma {:induction false} ScanFindsFirst(patterns: seq<Option<string>>, input: string, matcher: Matcher, k: nat, c: string)
    requires k < |patterns| && patterns[k].Some? && matcher(patterns[k].value, input) == Some(c)
    requires forall j :: 0 <= j < k ==> patterns[j].Some? && matcher(patterns[j].value, input).None?
    ensures ScanFrom(patterns, input, matcher, 0) == Hit(k, c)
  {
    var i := k;
    while i > 0
      invariant 0 <= i <= k
      invariant ScanFrom(patterns, input, matcher, i) == Hit(k, c)
    {
      i := i - 1;
    }
  }
}

=== FILE: seqs.dfy ===
/** `List<T>.Reverse()` as a function on sequences. */
module Seqs {

  function Reversed<T>(s: seq<T>): (r: seq<T>)
    ensures |r| == |s|
    ensures forall i :: 0 <= i < |s| ==> r[i] == s[|s| - 1 - i]
    decreases |s|
  {
    if s == [] then [] else Reversed(s[1..]) + [s[0]]
  }

  /** Reversing a sequence with one more element at its end puts that element first. */
  lemma ReversedSnoc<T>(s: seq<T>, x: T)
    ensures Reversed(s + [x]) == [x] + Reversed(s)
  {
    var r := Reversed(s + [x]);
    assert |r| == |[x] + Reversed(s)|;
    forall i | 0 <= i < |r| ensures r[i] == ([x] + Reversed(s))[i] {
      if i > 0 {
        assert r[i] == (s + [x])[|s| - i];
      }
    }
  }

  /** Concatenation is associative. */
  lemma AppendAssoc<T>(a: seq<T>, b: seq<T>, c: seq<T>)
    ensures a + (b + c) == (a + b) + c
  {
  }
}

=== FILE: template_map.dfy ===
/**
 * Template resolution of src/Templatemap.cs: the list of template files to
 * search, the three matching tiers, the name-based specialisation of the
 * extension tier, token substitution and line-ending normalisation.
 *
 * The file system is given as values: `listing` maps each existing directory
 * to the `*.txt` files found under it, and `files` maps each existing file to
 * its text; both are keyed by `PathKey`, so a lookup ignores letter case.
 */
module TemplateMap {
  import opened Wrappers
  import opened Text
  import opened Paths
  import opened ProjectHelpers
  import opened Seqs

  const DefaultExt := ".txt"
  const TemplateDir := ".templates"

  /** `Directory.GetFiles` on a directory: its files, or nothing when it does not exist. */
  function FilesIn(dir: string, listing: map<string, seq<string>>): seq<string> {
    if PathKey(dir) in listing then listing[PathKey(dir)] else []
  }

  // ---------------------------------------------------------------------------
  // The search list

  /**
   * The static constructor: the templates under `.vs\.templates` in the user
   * profile when that folder exists, then those installed beside the
   * extension. None when the installed folder is missing, where
   * `Directory.GetFiles` throws.
   */
  function StaticTemplates(userProfile: string, assemblyLocation: string, listing: map<string, seq<string>>): (r: Option<seq<string>>)
    ensures var installed := Combine(GetDirectoryName(assemblyLocation), "Templates");
      r.None? <==> PathKey(installed) !in listing
    ensures var user := Combine(Combine(userProfile, ".vs"), TemplateDir);
      var installed := Combine(GetDirectoryName(assemblyLocation), "Templates");
      r.Some? ==> (|r.value| == |FilesIn(user, listing)| + |listing[PathKey(installed)]|
        && r.value[..|FilesIn(user, listing)|] == FilesIn(user, listing)
        && r.value[|FilesIn(user, listing)|..] == listing[PathKey(installed)])
  {
    var user := Combine(Combine(userProfile, ".vs"), TemplateDir);
    var installed := Combine(GetDirectoryName(assemblyLocation), "Templates");
    if PathKey(installed) !in listing then None
    else Some(FilesIn(user, listing) + listing[PathKey(installed)])
  }

  /** The templates of the `.templates` folders of `d` and of each of its parents, nearest first. */
  function TemplatesUp(d: string, listing: map<string, seq<string>>): seq<string>
    decreases |d|
  {
    FilesIn(Combine(d, TemplateDir), listing) +
      match Parent(d)
      case None => []
      case Some(p) => TemplatesUp(p, listing)
  }

  /** What one turn of the loop in `AddTemplatesFromCurrentFolder` collects. */
  lemma CollectStep(collected: seq<string>, d: string, listing: map<string, seq<string>>)
    ensures var tmplDir := Combine(d, TemplateDir);
      PathKey(tmplDir) in listing ==>
        collected + TemplatesFrom(Some(d), listing) == (collected + listing[PathKey(tmplDir)]) + TemplatesFrom(Parent(d), listing)
    ensures var tmplDir := Combine(d, TemplateDir);
      PathKey(tmplDir) !in listing ==>
        collected + TemplatesFrom(Some(d), listing) == collected + TemplatesFrom(Parent(d), listing)
  {
    var tmplDir := Combine(d, TemplateDir);
    var found := FilesIn(tmplDir, listing);
    var rest := TemplatesFrom(Parent(d), listing);
    assert TemplatesFrom(Some(d), listing) == found + rest;
    AppendAssoc(collected, found, rest);
    if PathKey(tmplDir) !in listing {
      assert found == [];
      assert found + rest == rest;
    }
  }

  /** The templates from `current` upwards; none past the top. */
  function TemplatesFrom(current: Option<string>, listing: map<string, seq<string>>): seq<string> {
    match current
    case None => []
    case Some(d) => TemplatesUp(d, listing)
  }

  /** The same list, following the chain of `Ancestors`. */
  lemma {:induction false} TemplatesUpFollowsAncestors(d: string, listing: map<string, seq<string>>)
    ensures TemplatesUp(d, listing) == TemplatesIn(Ancestors(d), listing)
    decreases |d|
  {
    var rest := if Parent(d).None? then [] else Ancestors(Parent(d).value);
    AncestorsStep(d);
    TemplatesInCons(d, rest, listing);
    if Parent(d).Some? {
      TemplatesUpFollowsAncestors(Parent(d).value, listing);
    }
  }

  /** `Ancestors` unfolded once. */
  lemma AncestorsStep(d: string)
    ensures Ancestors(d) == [d] + if Parent(d).None? then [] else Ancestors(Parent(d).value)
  {
  }

  /** `TemplatesIn` unfolded once. */
  lemma TemplatesInCons(d: string, rest: seq<string>, listing: map<string, seq<string>>)
    ensures TemplatesIn([d] + rest, listing) == FilesIn(Combine(d, TemplateDir), listing) + TemplatesIn(rest, listing)
  {
    assert ([d] + rest)[1..] == rest;
  }

  /** The templates of the `.templates` folders of `dirs`, in that order. */
  function TemplatesIn(dirs: seq<string>, listing: map<string, seq<string>>): seq<string>
    decreases |dirs|
  {
    if dirs == [] then [] else FilesIn(Combine(dirs[0], TemplateDir), listing) + TemplatesIn(dirs[1..], listing)
  }

  /**
   * `AddTemplatesFromCurrentFolder`: walks from `dir` up through its parents
   * collecting the templates of each `.templates` folder, then puts them all
   * in front of `list`.
   */
  method AddTemplatesFromCurrentFolder(list: seq<string>, dir: string, listing: map<string, seq<string>>) returns (r: seq<string>)
    ensures r == TemplatesUp(dir, listing) + list
  {
    var current: Option<string> := Some(dir);
    var dynaList: seq<string> := [];
    while current.Some?
      invariant dynaList + TemplatesFrom(current, listing) == TemplatesUp(dir, listing)
      decreases if current.Some? then |current.value| + 1 else 0
    {
      var tmplDir := Combine(current.value, TemplateDir);
      CollectStep(dynaList, current.value, listing);
      if PathKey(tmplDir) in listing {
        dynaList := dynaList + listing[PathKey(tmplDir)];
      }
      current := Parent(current.value);
    }
    assert dynaList + [] == dynaList;
    r := dynaList + list;
  }

  /** `p` holds for some path of the list. */
  predicate Any(paths: seq<string>, p: string -> bool) {
    exists i :: 0 <= i < |paths| && p(paths[i])
  }

  /** `FirstOrDefault(p)`: the position of the first path satisfying `p`. */
  function FirstMatch(paths: seq<string>, p: string -> bool): (r: Option<nat>)
    ensures r.None? <==> !Any(paths, p)
    ensures r.Some? ==> r.value < |paths| && p(paths[r.value])
    ensures r.Some? ==> forall j :: 0 <= j < r.value ==> !p(paths[j])
    decreases |paths|
  {
    if paths == [] then None
    else if p(paths[0]) then Some(0)
    else
      match FirstMatch(paths[1..], p)
      case None => None
      case Some(i) => Some(i + 1)
  }

  /** A match in an earlier part of the list hides every later one. */
  lemma {:induction false} FirstMatchAppend(a: seq<string>, b: seq<string>, p: string -> bool)
    ensures Any(a, p) ==> FirstMatch(a + b, p) == FirstMatch(a, p)
    ensures !Any(a, p) && FirstMatch(b, p).Some? ==> FirstMatch(a + b, p) == Some(|a| + FirstMatch(b, p).value)
    ensures !Any(a, p) && FirstMatch(b, p).None? ==> FirstMatch(a + b, p).None?
    decreases |a|
  {
    if a != [] {
      assert (a + b)[0] == a[0];
      assert (a + b)[1..] == a[1..] + b;
      FirstMatchAppend(a[1..], b, p);
      AnyStep(a, p);
      FirstMatchStep(a, p);
      FirstMatchStep(a + b, p);
    } else {
      assert a + b == b;
    }
  }

  /** Some path of a non-empty list satisfies `p` exactly when the first or a later one does. */
  lemma AnyStep(a: seq<string>, p: string -> bool)
    requires a != []
    ensures Any(a, p) <==> p(a[0]) || Any(a[1..], p)
  {
    if Any(a, p) && !p(a[0]) {
      var i :| 0 <= i < |a| && p(a[i]);
      assert a[1..][i - 1] == a[i];
    }
    if Any(a[1..], p) {
      var i :| 0 <= i < |a[1..]| && p(a[1..][i]);
      assert a[i + 1] == a[1..][i];
    }
  }

  /** `FirstMatch` unfolded once on a non-empty list. */
  lemma FirstMatchStep(a: seq<string>, p: string -> bool)
    requires a != []
    ensures FirstMatch(a, p) ==
      if p(a[0]) then Some(0)
      else if FirstMatch(a[1..], p).None? then None
      else Some(FirstMatch(a[1..], p).value + 1)
  {
  }

  /**
   * Search order: when the target directory's own `.templates` folder holds
   * a template the predicate accepts, the first such template is found before
   * anything from a parent directory or the profile and installed templates.
   */
  lemma {:induction false} NearestTemplateWins(dir: string, base: seq<string>, listing: map<string, seq<string>>, p: string -> bool)
    requires Any(FilesIn(Combine(dir, TemplateDir), listing), p)
    ensures FirstMatch(TemplatesUp(dir, listing) + base, p) == FirstMatch(FilesIn(Combine(dir, TemplateDir), listing), p)
  {
    var own := FilesIn(Combine(dir, TemplateDir), listing);
    var rest := TemplatesFrom(Parent(dir), listing);
    TemplatesUpStep(dir, listing);
    AppendAssoc(own, rest, base);
    FirstMatchAppend(own, rest + base, p);
  }

  /** `TemplatesUp` unfolded once. */
  lemma TemplatesUpStep(d: string, listing: map<string, seq<string>>)
    ensures TemplatesUp(d, listing) == FilesIn(Combine(d, TemplateDir), listing) + TemplatesFrom(Parent(d), listing)
  {
  }

  /** Templates found along the directory chain come before the profile and installed templates. */
  lemma {:induction false} LocalTemplatesFirst(dir: string, base: seq<string>, listing: map<string, seq<string>>, p: string -> bool)
    requires Any(TemplatesUp(dir, listing), p)
    ensures FirstMatch(TemplatesUp(dir, listing) + base, p) == FirstMatch(TemplatesUp(dir, listing), p)
  {
    FirstMatchAppend(TemplatesUp(dir, listing), base, p);
  }

  // ---------------------------------------------------------------------------
  // Matching a file name to a template

  /** The name templates are matched by: the whole file name when it starts with `.`, else the name without its extension. */
  function SafeName(file: string): (r: string)
    ensures StartsWith(GetFileName(file), ".") ==> r == GetFileName(file)
    ensures !StartsWith(GetFileName(file), ".") ==> StartsWith(GetFileName(file), r)
    ensures !StartsWith(GetFileName(file), ".") && |r| < |GetFileName(file)| ==>
      GetFileName(file)[|r|] == '.' && '.' !in GetFileName(file)[|r| + 1..]
    ensures !StartsWith(GetFileName(file), ".") ==> (|r| == |GetFileName(file)| <==> '.' !in GetFileName(file))
  {
    var name := GetFileName(file);
    if StartsWith(name, ".") then name else GetFileNameWithoutExtension(file)
  }

  /** A template named exactly like the file, plus `.txt`, ignoring case. */
  predicate DirectMatch(name: string, path: string) {
    EqualsIgnoreCase(GetFileName(path), name + DefaultExt)
  }

  /** A template whose file name ends the safe name plus `.txt`, ignoring case. */
  predicate ConventionMatch(safeName: string, path: string) {
    EndsWithIgnoreCase(safeName + DefaultExt, GetFileName(path))
  }

  /** An existing template named after the lower-cased extension, plus `.txt`. */
  predicate ExtensionMatch(extension: string, files: map<string, string>, path: string) {
    EqualsIgnoreCase(GetFileName(path), extension + DefaultExt) && PathKey(path) in files
  }

  /** `^I[A-Z].*`: an `I` and then an ASCII capital. */
  predicate InterfaceShaped(s: string) {
    |s| >= 2 && s[0] == 'I' && 'A' <= s[1] <= 'Z'
  }

  /**
   * `.+word$`: `word` at the end, or before a final newline, with a character
   * other than a newline in front of it.
   */
  predicate EndsWithWord(s: string, word: string) {
    (|s| > |word| && EndsWith(s, word) && s[|s| - |word| - 1] != '\n')
    || (|s| > |word| + 1 && s[|s| - 1] == '\n' && EndsWith(s[..|s| - 1], word) && s[|s| - |word| - 2] != '\n')
  }

  /**
   * `AdjustForSpecific`: the extension tier's template name, made specific
   * for interfaces, enums and, in MVC projects, controllers.
   */
  function AdjustForSpecific(isMvc: bool, safeName: string, extension: string): (r: string)
    ensures r == extension || r == extension + "-interface" || r == extension + "-enum" || r == extension + "-controller"
    ensures InterfaceShaped(safeName) ==> r == extension + "-interface"
    ensures !InterfaceShaped(safeName) && EndsWithWord(safeName, "Enum") ==> r == extension + "-enum"
    ensures !InterfaceShaped(safeName) && !EndsWithWord(safeName, "Enum") && EndsWithWord(safeName, "Controller") && isMvc ==>
      r == extension + "-controller"
    ensures !InterfaceShaped(safeName) && !EndsWithWord(safeName, "Enum") && !(EndsWithWord(safeName, "Controller") && isMvc) ==>
      r == extension
  {
    if InterfaceShaped(safeName) then extension + "-interface"
    else if EndsWithWord(safeName, "Enum") then extension + "-enum"
    else if EndsWithWord(safeName, "Controller") && isMvc then extension + "-controller"
    else extension
  }

  /** The interface test comes first: it wins over `Enum`, and `Icon` fails it (its second letter is lower case). */
  lemma InterfaceBeforeEnum()
    ensures AdjustForSpecific(false, "IStatusEnum", ".cs") == ".cs-interface"
    ensures AdjustForSpecific(false, "Icon", ".cs") == ".cs"
  {
    assert InterfaceShaped("IStatusEnum");
    assert !InterfaceShaped("Icon");
    assert !EndsWithWord("Icon", "Enum") && !EndsWithWord("Icon", "Controller");
  }

  /** `Enum` needs a character in front of it: `StatusEnum` is an enum name, a bare `Enum` is not. */
  lemma EnumNeedsPrefix()
    ensures AdjustForSpecific(false, "StatusEnum", ".cs") == ".cs-enum"
    ensures AdjustForSpecific(false, "Enum", ".cs") == ".cs"
  {
    var s := "StatusEnum";
    assert !InterfaceShaped(s);
    assert s[|s| - 4..] == "Enum" && s[|s| - 5] != '\n';
    assert EndsWithWord(s, "Enum");
    assert !InterfaceShaped("Enum");
    assert !EndsWithWord("Enum", "Enum") && !EndsWithWord("Enum", "Controller");
  }

  /** A controller name picks the controller template in MVC projects only. */
  lemma ControllerOnlyInMvc()
    ensures AdjustForSpecific(true, "HomeController", ".cs") == ".cs-controller"
    ensures AdjustForSpecific(false, "HomeController", ".cs") == ".cs"
  {
    var s := "HomeController";
    assert !InterfaceShaped(s);
    assert s[|s| - 4..] != "Enum" && s[|s| - 1] != '\n';
    assert !EndsWithWord(s, "Enum");
    assert s[|s| - 10..] == "Controller" && s[|s| - 11] != '\n';
    assert EndsWithWord(s, "Controller");
  }

  /**
   * `GetMatchingTemplateFromFileName`: the first direct match, else the first
   * convention match, else the first existing extension match; none when no
   * tier matches.
   */
  function GetMatchingTemplate(isMvc: bool, paths: seq<string>, files: map<string, string>, file: string): (r: Option<string>)
    ensures var name := GetFileName(file);
      var direct := FirstMatch(paths, path => DirectMatch(name, path));
      direct.Some? ==> (r.Some?
        && EndsWith(r.value, name + DefaultExt)
        && StartsWith(r.value, GetDirectoryName(paths[direct.value])))
    ensures var name := GetFileName(file);
      var direct := FirstMatch(paths, path => DirectMatch(name, path));
      direct.Some? ==> r == Some(Combine(GetDirectoryName(paths[direct.value]), name + DefaultExt))
    ensures var name := GetFileName(file);
      var convention := FirstMatch(paths, path => ConventionMatch(SafeName(file), path));
      !Any(paths, path => DirectMatch(name, path)) && convention.Some? ==>
        r == Some(paths[convention.value])
    ensures var name := GetFileName(file);
      var extension := Lower(GetExtension(file));
      var byExtension := FirstMatch(paths, path => ExtensionMatch(extension, files, path));
      !Any(paths, path => DirectMatch(name, path)) && !Any(paths, path => ConventionMatch(SafeName(file), path)) && byExtension.Some? ==>
        (r.Some?
        && EndsWith(r.value, AdjustForSpecific(isMvc, SafeName(file), extension) + DefaultExt)
        && StartsWith(r.value, GetDirectoryName(paths[byExtension.value])))
    ensures var name := GetFileName(file);
      var extension := Lower(GetExtension(file));
      var byExtension := FirstMatch(paths, path => ExtensionMatch(extension, files, path));
      !Any(paths, path => DirectMatch(name, path)) && !Any(paths, path => ConventionMatch(SafeName(file), path)) && byExtension.Some? ==>
        r == Some(Combine(GetDirectoryName(paths[byExtension.value]), AdjustForSpecific(isMvc, SafeName(file), extension) + DefaultExt))
    ensures r.None? <==>
      !Any(paths, path => DirectMatch(GetFileName(file), path))
      && !Any(paths, path => ConventionMatch(SafeName(file), path))
      && !Any(paths, path => ExtensionMatch(Lower(GetExtension(file)), files, path))
  {
    var name := GetFileName(file);
    var safeName := SafeName(file);
    var extension := Lower(GetExtension(file));
    match FirstMatch(paths, path => DirectMatch(name, path))
    case Some(i) =>
      NameTemplateNotRooted(name);
      Some(Combine(GetDirectoryName(paths[i]), name + DefaultExt))
    case None =>
      match FirstMatch(paths, path => ConventionMatch(safeName, path))
      case Some(i) => Some(paths[i])
      case None =>
        match FirstMatch(paths, path => ExtensionMatch(extension, files, path))
        case Some(i) =>
          var tmpl := AdjustForSpecific(isMvc, safeName, extension) + DefaultExt;
          ExtensionTemplateNotRooted(isMvc, safeName, file);
          Some(Combine(GetDirectoryName(paths[i]), tmpl))
        case None => None
  }

  /** A file name plus `.txt` is never a rooted path. */
  lemma {:induction false} NameTemplateNotRooted(name: string)
    requires forall j :: 0 <= j < |name| ==> !IsNameBoundary(name[j])
    ensures !IsRooted(name + DefaultExt)
  {
    var s := name + DefaultExt;
    if |name| >= 2 {
      assert s[1] == name[1];
    } else if |name| == 1 {
      assert s[1] == '.';
    }
  }

  /** The extension tier's template name is never a rooted path: it starts with the extension's `.`, or with `.txt` or `-` when there is no extension. */
  lemma {:induction false} ExtensionTemplateNotRooted(isMvc: bool, safeName: string, file: string)
    ensures !IsRooted(AdjustForSpecific(isMvc, safeName, Lower(GetExtension(file))) + DefaultExt)
  {
    var e := GetExtension(file);
    var low := Lower(e);
    AdjustedStart(isMvc, safeName, low);
    LowerExtensionStart(e);
    AdjustedNotRooted(low, AdjustForSpecific(isMvc, safeName, low));
  }

  /** Lower-casing keeps an extension's leading `.` and the non-boundary character after it. */
  lemma LowerExtensionStart(e: string)
    requires e != [] ==> |e| >= 2 && e[0] == '.' && !IsNameBoundary(e[1])
    ensures var low := Lower(e);
      low != [] ==> |low| >= 2 && low[0] == '.' && !IsNameBoundary(low[1])
  {
    if e != [] {
      assert Lower(e)[0] == ToLower(e[0]) && Lower(e)[1] == ToLower(e[1]);
    }
  }

  /**
   * A name that starts with a non-empty extension (its `.` and a character
   * that is no separator or colon), or, without one, is empty or starts with
   * `-` and no colon, is not rooted once `.txt` is appended.
   */
  lemma AdjustedNotRooted(low: string, a: string)
    requires |low| <= |a| && a[..|low|] == low
    requires low != [] ==> |low| >= 2 && low[0] == '.' && !IsNameBoundary(low[1])
    requires low == [] ==> a == [] || (|a| >= 2 && a[0] == '-' && a[1] != ':')
    ensures !IsRooted(a + DefaultExt)
  {
    var s := a + DefaultExt;
    if low != [] {
      assert s[0] == a[0] == low[0] && s[1] == a[1] == low[1];
    } else if a == [] {
      assert s == DefaultExt;
    } else {
      assert s[0] == a[0] && s[1] == a[1];
    }
  }

  /** The adjusted template name starts with the extension; without one it is empty or starts with `-` and a letter. */
  lemma AdjustedStart(isMvc: bool, safeName: string, extension: string)
    ensures var a := AdjustForSpecific(isMvc, safeName, extension);
      && |extension| <= |a| && a[..|extension|] == extension
      && (extension == [] ==> a == [] || (|a| >= 2 && a[0] == '-' && a[1] != ':'))
  {
    var a := AdjustForSpecific(isMvc, safeName, extension);
    if extension == [] && a != [] {
      assert a == "-interface" || a == "-enum" || a == "-controller";
    }
  }

  // ---------------------------------------------------------------------------
  // Filling the template in

  /** The root namespace, or `MyNamespace` when the project has none or it is empty. */
  function NamespaceRoot(project: Option<Project>): (r: string)
    ensures r != []
    ensures project.None? ==> r == "MyNamespace"
  {
    var root := GetRootNamespace(project);
    if root.None? || root.value == [] then "MyNamespace" else root.value
  }

  /** The namespace put in place of `{namespace}`: the root namespace, then `.` and the cleaned relative folder when there is one. */
  function Namespace(project: Option<Project>, relative: string): (r: string)
    ensures StartsWith(r, NamespaceRoot(project))
    ensures relative == [] ==> r == NamespaceRoot(project)
    ensures relative != [] ==> r[|NamespaceRoot(project)|..] == "." + CleanNameSpace(relative, true)
  {
    var ns := NamespaceRoot(project);
    if relative != [] then
      var r := ns + "." + CleanNameSpace(relative, true);
      assert r == ns + ("." + CleanNameSpace(relative, true));
      r
    else ns
  }

  /** Dots in the filled-in namespace below the root come only from the folders of the relative path. */
  lemma {:induction false} NamespaceFolders(project: Option<Project>, relative: string)
    requires relative != []
    ensures var tail := Namespace(project, relative)[|NamespaceRoot(project)| + 1..];
      Count(tail, '.') == Count(relative, '\\') && ' ' !in tail && '-' !in tail
  {
    var tail := Namespace(project, relative)[|NamespaceRoot(project)| + 1..];
    assert tail == ("." + CleanNameSpace(relative, true))[1..];
  }

  /** The MVC namespace put in place of `{mvcprojectnamespace}`; empty without a project or an MVC reference. */
  function MvcNamespace(project: Option<Project>): (r: string)
    ensures r != [] <==> project.Some? && IsMVCProject(project.value)
  {
    match project
    case None => []
    case Some(p) => GetMVCNamespace(p).GetOr([])
  }

  /** The three `Replace` calls, in their order. */
  function FillTokens(content: string, ns: string, name: string, mvc: string): string {
    Replace(Replace(Replace(content, "{namespace}", ns), "{itemname}", name), "{mvcprojectnamespace}", mvc)
  }

  /** The template as read and filled in. */
  datatype TemplateText =
    | NoTemplate              // no template matched: the path was null
    | Unreadable(path: string) // the matched path names no file: the reader throws
    | Text(content: string)

  /** `ReplaceTokensAsync`. */
  function ReplaceTokens(project: Option<Project>, name: string, relative: string, templateFile: Option<string>, files: map<string, string>): (r: TemplateText)
    ensures templateFile.None? || templateFile.value == [] ==> r == NoTemplate
    ensures templateFile.Some? && templateFile.value != [] && PathKey(templateFile.value) !in files ==> r == Unreadable(templateFile.value)
    ensures r.Text? ==> templateFile.Some? && PathKey(templateFile.value) in files
    ensures r.Text? ==> r.content == FillTokens(files[PathKey(templateFile.value)], Namespace(project, relative), name, MvcNamespace(project))
  {
    match templateFile
    case None => NoTemplate
    case Some(path) =>
      if path == [] then NoTemplate
      else if PathKey(path) !in files then Unreadable(path)
      else Text(FillTokens(files[PathKey(path)], Namespace(project, relative), name, MvcNamespace(project)))
  }

  /** The template is read whatever the letter case it was asked for under. */
  lemma TemplateReadIgnoringCase(project: Option<Project>, relative: string, content: string)
    ensures var files := map[PathKey("C:\\t\\Widget.cs.txt") := content];
      ReplaceTokens(project, "widget", relative, Some("C:\\t\\widget.cs.txt"), files)
        == Text(FillTokens(content, Namespace(project, relative), "widget", MvcNamespace(project)))
  {
    SameKey("C:\\t\\widget.cs.txt", "C:\\t\\Widget.cs.txt");
  }

  /**
   * A template cut at its tokens: literal text and the three placeholders,
   * in any order and any number of times.
   */
  datatype Part = Literal(text: string) | NamespaceSlot | ItemNameSlot | MvcSlot

  /** The token a placeholder is written as. */
  function Token(slot: Part): string
    requires !slot.Literal?
  {
    match slot
    case NamespaceSlot => "{namespace}"
    case ItemNameSlot => "{itemname}"
    case MvcSlot => "{mvcprojectnamespace}"
  }

  /** One part written out, the placeholders as the three given texts. */
  function PartText(p: Part, ns: string, name: string, mvc: string): string {
    match p
    case Literal(t) => t
    case NamespaceSlot => ns
    case ItemNameSlot => name
    case MvcSlot => mvc
  }

  /** The parts written out one after the other. */
  function Render(parts: seq<Part>, ns: string, name: string, mvc: string): string
    decreases |parts|
  {
    if parts == [] then [] else PartText(parts[0], ns, name, mvc) + Render(parts[1..], ns, name, mvc)
  }

  /** The template as it is stored, each placeholder written as its token. */
  function Template(parts: seq<Part>): string {
    Render(parts, "{namespace}", "{itemname}", "{mvcprojectnamespace}")
  }

  /** `Render` unfolded once. */
  /** The part at `i` followed by the parts after it. */
  lemma RenderAt(p: seq<Part>, i: nat, ns: string, name: string, mvc: string)
    requires i < |p|
    ensures Render(p[i..], ns, name, mvc) == PartText(p[i], ns, name, mvc) + Render(p[i + 1..], ns, name, mvc)
  {
    assert p[i..][1..] == p[i + 1..];
  }

  /**
   * Literal text in which none of the three tokens can start: every `{` is
   * followed, inside the text, by a character other than `n`, `i` or `m`.
   * The braces of C# or JavaScript code (`{ `, `{}`, a line break after `{`)
   * all pass.
   */
  predicate NoTokenStarts(t: string) {
    NoneStartsIn(t, "{namespace}") && NoneStartsIn(t, "{itemname}") && NoneStartsIn(t, "{mvcprojectnamespace}")
  }

  /** What a placeholder holds once `slot` has been filled with `rep`. */
  function Filled(slot: Part, which: Part, current: string, rep: string): string {
    if slot == which then rep else current
  }

  /**
   * One `Replace` pass: while the placeholder being filled still shows its
   * token and no occurrence of that token can start in any other part, every
   * one of those placeholders, and nothing else, becomes `rep`.
   */
  lemma {:induction false} FillPass(parts: seq<Part>, ns: string, name: string, mvc: string, slot: Part, rep: string)
    requires !slot.Literal? && PartText(slot, ns, name, mvc) == Token(slot)
    requires forall i :: 0 <= i < |parts| && parts[i] != slot ==> NoneStartsIn(PartText(parts[i], ns, name, mvc), Token(slot))
    ensures Replace(Render(parts, ns, name, mvc), Token(slot), rep)
      == Render(parts, Filled(slot, NamespaceSlot, ns, rep), Filled(slot, ItemNameSlot, name, rep), Filled(slot, MvcSlot, mvc, rep))
    decreases |parts|
  {
    var tok := Token(slot);
    if parts != [] {
      var p := parts[0];
      var rest := Render(parts[1..], ns, name, mvc);
      assert Render(parts, ns, name, mvc) == PartText(p, ns, name, mvc) + rest;
      if p == slot {
        ReplaceAtFront(rest, tok, rep);
      } else {
        ReplaceSkipsPrefix(PartText(p, ns, name, mvc), rest, tok, rep);
      }
      assert forall i :: 0 <= i < |parts[1..]| ==> parts[1..][i] == parts[i + 1];
      FillPass(parts[1..], ns, name, mvc, slot, rep);
    }
  }

  /** A text without `{` leaves no room for a token to start. */
  lemma NoBraceNoneStarts(t: string, pat: string)
    requires pat != [] && pat[0] == '{' && '{' !in t
    ensures NoneStartsIn(t, pat)
  {
  }

  /** A text whose only `{` is its first character, followed by something else than `pat`'s second one. */
  lemma LeadingBraceOnly(t: string, pat: string)
    requires |t| >= 2 && |pat| >= 2 && t[0] == pat[0] && t[1] != pat[1] && pat[0] !in t[1..]
    ensures NoneStartsIn(t, pat)
  {
    forall j | 0 < j < |t|
      ensures t[j] != pat[0]
    {
      assert t[1..][j - 1] == t[j];
    }
    assert CutShort(t, 0, pat);
  }

  /** No token can start inside another one. */
  lemma TokensApart()
    ensures NoneStartsIn("{itemname}", "{namespace}") && NoneStartsIn("{mvcprojectnamespace}", "{namespace}")
    ensures NoneStartsIn("{mvcprojectnamespace}", "{itemname}")
  {
    LeadingBraceOnly("{itemname}", "{namespace}");
    LeadingBraceOnly("{mvcprojectnamespace}", "{namespace}");
    LeadingBraceOnly("{mvcprojectnamespace}", "{itemname}");
  }

  /**
   * Filling a template puts the namespace, the item name and the MVC
   * namespace in place of every one of their tokens, wherever and however
   * often they occur, and keeps all other text, provided no token can start
   * inside the literal text and the namespace and the item name hold no `{`
   * (one that did could form a token that a later pass fills in).
   */
  lemma {:induction false} FillTokensFillsEverySlot(parts: seq<Part>, ns: string, name: string, mvc: string)
    requires forall i :: 0 <= i < |parts| && parts[i].Literal? ==> NoTokenStarts(parts[i].text)
    requires '{' !in ns && '{' !in name
    ensures FillTokens(Template(parts), ns, name, mvc) == Render(parts, ns, name, mvc)
  {
    var NS, IT, MV := "{namespace}", "{itemname}", "{mvcprojectnamespace}";
    TokensApart();
    NoBraceNoneStarts(ns, IT);
    NoBraceNoneStarts(ns, MV);
    NoBraceNoneStarts(name, MV);
    FillPass(parts, NS, IT, MV, NamespaceSlot, ns);
    FillPass(parts, ns, IT, MV, ItemNameSlot, name);
    FillPass(parts, ns, name, MV, MvcSlot, mvc);
  }

  /**
   * A template holding each token once, in order, between pieces in which no
   * token can start, gets the namespace, the item name and the MVC namespace
   * in their places and keeps everything else.
   */
  lemma FillTokensInOrder(a: string, b: string, c: string, d: string, ns: string, name: string, mvc: string)
    requires NoTokenStarts(a) && NoTokenStarts(b) && NoTokenStarts(c) && NoTokenStarts(d)
    requires '{' !in ns && '{' !in name
    ensures FillTokens(a + "{namespace}" + b + "{itemname}" + c + "{mvcprojectnamespace}" + d, ns, name, mvc)
      == a + ns + b + name + c + mvc + d
  {
    var parts := [Literal(a), NamespaceSlot, Literal(b), ItemNameSlot, Literal(c), MvcSlot, Literal(d)];
    RenderSeven(a, b, c, d, "{namespace}", "{itemname}", "{mvcprojectnamespace}");
    RenderSeven(a, b, c, d, ns, name, mvc);
    FillTokensFillsEverySlot(parts, ns, name, mvc);
  }

  /** The seven parts of a template holding each token once, written out. */
  lemma RenderSeven(a: string, b: string, c: string, d: string, ns: string, name: string, mvc: string)
    ensures Render([Literal(a), NamespaceSlot, Literal(b), ItemNameSlot, Literal(c), MvcSlot, Literal(d)], ns, name, mvc)
      == a + ns + b + name + c + mvc + d
  {
    var p := [Literal(a), NamespaceSlot, Literal(b), ItemNameSlot, Literal(c), MvcSlot, Literal(d)];
    RenderAt(p, 6, ns, name, mvc);
    assert p[7..] == [];
    assert Render(p[6..], ns, name, mvc) == d;
    RenderAt(p, 5, ns, name, mvc);
    RenderAt(p, 4, ns, name, mvc);
    AppendAssoc(c, mvc, d);
    RenderAt(p, 3, ns, name, mvc);
    AppendAssoc(name, c + mvc, d);
    AppendAssoc(name, c, mvc);
    var r3 := name + c + mvc + d;
    assert Render(p[3..], ns, name, mvc) == r3;
    RenderAt(p, 2, ns, name, mvc);
    AppendAssoc(b, name + c + mvc, d);
    AppendAssoc(b, name + c, mvc);
    AppendAssoc(b, name, c);
    var r2 := b + name + c + mvc + d;
    assert Render(p[2..], ns, name, mvc) == r2;
    RenderAt(p, 1, ns, name, mvc);
    AppendAssoc(ns, b + name + c + mvc, d);
    AppendAssoc(ns, b + name + c, mvc);
    AppendAssoc(ns, b + name, c);
    AppendAssoc(ns, b, name);
    var r1 := ns + b + name + c + mvc + d;
    assert Render(p[1..], ns, name, mvc) == r1;
    RenderAt(p, 0, ns, name, mvc);
    AppendAssoc(a, ns + b + name + c + mvc, d);
    AppendAssoc(a, ns + b + name + c, mvc);
    AppendAssoc(a, ns + b + name, c);
    AppendAssoc(a, ns + b, name);
    AppendAssoc(a, ns, b);
    assert p[0..] == p;
  }

  /**
   * The template a matched path names is read whatever the letter case, and
   * every one of its placeholders is filled: the namespace of the project and
   * the relative folder, the item name, the MVC namespace.
   */
  lemma ReplaceTokensFillsTemplate(project: Option<Project>, name: string, relative: string, path: string,
                                   files: map<string, string>, parts: seq<Part>)
    requires path != [] && PathKey(path) in files && files[PathKey(path)] == Template(parts)
    requires forall i :: 0 <= i < |parts| && parts[i].Literal? ==> NoTokenStarts(parts[i].text)
    requires '{' !in Namespace(project, relative) && '{' !in name
    ensures ReplaceTokens(project, name, relative, Some(path), files)
      == Text(Render(parts, Namespace(project, relative), name, MvcNamespace(project)))
  {
    FillTokensFillsEverySlot(parts, Namespace(project, relative), name, MvcNamespace(project));
  }

  /** A text whose one `{` at `k` is followed by something other than `pat`'s second character. */
  lemma OneBrace(t: string, k: nat, pat: string)
    requires k + 1 < |t| && |pat| >= 2 && t[k + 1] != pat[1]
    requires pat[0] !in t[..k] && pat[0] !in t[k + 1..]
    ensures NoneStartsIn(t, pat)
  {
    forall j | 0 <= j < |t| && j != k
      ensures t[j] != pat[0]
    {
      if j < k {
        assert t[..k][j] == t[j];
      } else {
        assert t[k + 1..][j - k - 1] == t[j];
      }
    }
    if t[k] == pat[0] {
      assert CutShort(t, k, pat);
    }
  }

  /** Literal text with one `{` followed by a space or a `}`, as in C# code. */
  lemma CodeBraceStartsNoToken(t: string, k: nat)
    requires k + 1 < |t| && (t[k + 1] == ' ' || t[k + 1] == '}')
    requires '{' !in t[..k] && '{' !in t[k + 1..]
    ensures NoTokenStarts(t)
  {
    OneBrace(t, k, "{namespace}");
    OneBrace(t, k, "{itemname}");
    OneBrace(t, k, "{mvcprojectnamespace}");
  }

  /** A class template with code braces around and between its tokens. */
  lemma FillClassTemplate(ns: string, name: string, mvc: string)
    requires '{' !in ns && '{' !in name
    ensures FillTokens("namespace " + "{namespace}" + " { class " + "{itemname}" + " {} }", ns, name, mvc)
      == "namespace " + ns + " { class " + name + " {} }"
  {
    var parts := [Literal("namespace "), NamespaceSlot, Literal(" { class "), ItemNameSlot, Literal(" {} }")];
    ClassLiteralsStartNoToken();
    RenderFive(parts, "{namespace}", "{itemname}", "{mvcprojectnamespace}");
    RenderFive(parts, ns, name, mvc);
    FillTokensFillsEverySlot(parts, ns, name, mvc);
  }

  /** The literal pieces of that class template. */
  lemma ClassLiteralsStartNoToken()
    ensures NoTokenStarts("namespace ") && NoTokenStarts(" { class ") && NoTokenStarts(" {} }")
  {
    NoBraceNoneStarts("namespace ", "{namespace}");
    NoBraceNoneStarts("namespace ", "{itemname}");
    NoBraceNoneStarts("namespace ", "{mvcprojectnamespace}");
    CodeBraceStartsNoToken(" { class ", 1);
    CodeBraceStartsNoToken(" {} }", 1);
  }

  /** A token named twice, for a class and its constructor, is filled in both places. */
  lemma FillRepeatedItemName(ns: string, name: string, mvc: string)
    requires '{' !in ns && '{' !in name
    ensures FillTokens("class " + "{itemname}" + " { public " + "{itemname}" + "() {} }", ns, name, mvc)
      == "class " + name + " { public " + name + "() {} }"
  {
    var parts := [Literal("class "), ItemNameSlot, Literal(" { public "), ItemNameSlot, Literal("() {} }")];
    ConstructorLiteralsStartNoToken();
    RenderFive(parts, "{namespace}", "{itemname}", "{mvcprojectnamespace}");
    RenderFive(parts, ns, name, mvc);
    FillTokensFillsEverySlot(parts, ns, name, mvc);
  }

  /** The literal pieces of that constructor template. */
  lemma ConstructorLiteralsStartNoToken()
    ensures NoTokenStarts("class ") && NoTokenStarts(" { public ") && NoTokenStarts("() {} }")
  {
    NoBraceNoneStarts("class ", "{namespace}");
    NoBraceNoneStarts("class ", "{itemname}");
    NoBraceNoneStarts("class ", "{mvcprojectnamespace}");
    CodeBraceStartsNoToken(" { public ", 1);
    CodeBraceStartsNoToken("() {} }", 3);
  }

  /** Five parts written out. */
  lemma RenderFive(p: seq<Part>, ns: string, name: string, mvc: string)
    requires |p| == 5
    ensures Render(p, ns, name, mvc) == PartText(p[0], ns, name, mvc) + PartText(p[1], ns, name, mvc)
      + PartText(p[2], ns, name, mvc) + PartText(p[3], ns, name, mvc) + PartText(p[4], ns, name, mvc)
  {
    var t0, t1, t2 := PartText(p[0], ns, name, mvc), PartText(p[1], ns, name, mvc), PartText(p[2], ns, name, mvc);
    var t3, t4 := PartText(p[3], ns, name, mvc), PartText(p[4], ns, name, mvc);
    RenderAt(p, 4, ns, name, mvc);
    assert p[5..] == [];
    assert Render(p[4..], ns, name, mvc) == t4;
    RenderAt(p, 3, ns, name, mvc);
    RenderAt(p, 2, ns, name, mvc);
    AppendAssoc(t2, t3, t4);
    RenderAt(p, 1, ns, name, mvc);
    AppendAssoc(t1, t2 + t3, t4);
    AppendAssoc(t1, t2, t3);
    RenderAt(p, 0, ns, name, mvc);
    AppendAssoc(t0, t1 + t2 + t3, t4);
    AppendAssoc(t0, t1 + t2, t3);
    AppendAssoc(t0, t1, t2);
    assert p[0..] == p;
  }

  /** A template without any `{` comes out as it went in. */
  lemma {:induction false} FillTokensNoBraces(content: string, ns: string, name: string, mvc: string)
    requires '{' !in content
    ensures FillTokens(content, ns, name, mvc) == content
  {
    ReplaceSkipsLiteral(content, [], "{namespace}", ns);
    ReplaceSkipsLiteral(content, [], "{itemname}", name);
    ReplaceSkipsLiteral(content, [], "{mvcprojectnamespace}", mvc);
    assert content + [] == content;
  }

  // ---------------------------------------------------------------------------
  // Line endings

  predicate IsBreak(c: char) {
    c == '\r' || c == '\n'
  }

  /** Text made only of `\r\n` pairs and characters that are not line breaks. */
  predicate CrLfOnly(s: string)
    decreases |s|
  {
    s == []
    || (|s| >= 2 && s[0] == '\r' && s[1] == '\n' && CrLfOnly(s[2..]))
    || (!IsBreak(s[0]) && CrLfOnly(s[1..]))
  }

  /**
   * `Regex.Replace(content, @"\r\n|\n\r|\n|\r", "\r\n")`: scanning left to
   * right, each `\r\n`, `\n\r`, lone `\n` or lone `\r` becomes `\r\n`.
   */
  function NormalizeBreaks(s: string): (r: string)
    ensures CrLfOnly(r)
    decreases |s|
  {
    if s == [] then []
    else
      var pair := |s| >= 2 && ((s[0] == '\r' && s[1] == '\n') || (s[0] == '\n' && s[1] == '\r'));
      var rest := if pair then NormalizeBreaks(s[2..]) else NormalizeBreaks(s[1..]);
      var head := if pair || IsBreak(s[0]) then "\r\n" else [s[0]];
      assert (head + rest)[|head|..] == rest;
      head + rest
  }

  /** `NormalizeLineEndings`: null and empty content come back unchanged. */
  function NormalizeLineEndings(content: Option<string>): (r: Option<string>)
    ensures content.None? <==> r.None?
    ensures r.Some? ==> CrLfOnly(r.value)
    ensures r.Some? && content.value == [] ==> r.value == []
  {
    match content
    case None => None
    case Some(c) => if c == [] then Some(c) else Some(NormalizeBreaks(c))
  }

  /** Text already in `\r\n` form is left as it is. */
  lemma {:induction false} NormalizeBreaksFixed(s: string)
    requires CrLfOnly(s)
    ensures NormalizeBreaks(s) == s
    decreases |s|
  {
    if s != [] {
      if |s| >= 2 && s[0] == '\r' && s[1] == '\n' && CrLfOnly(s[2..]) {
        NormalizeBreaksFixed(s[2..]);
        assert s == "\r\n" + s[2..];
      } else {
        NormalizeBreaksFixed(s[1..]);
        assert s == [s[0]] + s[1..];
      }
    }
  }

  /** A second normalisation changes nothing. */
  lemma {:induction false} NormalizeIdempotent(content: Option<string>)
    ensures NormalizeLineEndings(NormalizeLineEndings(content)) == NormalizeLineEndings(content)
  {
    if content.Some? && content.value != [] {
      NormalizeBreaksFixed(NormalizeBreaks(content.value));
    }
  }

  /** In `\r\n` form no `\r` stands without a following `\n`, and no `\n` without a preceding `\r`. */
  lemma {:induction false} CrLfOnlyHasNoLoneBreaks(s: string)
    requires CrLfOnly(s)
    ensures forall i :: 0 <= i < |s| && s[i] == '\r' ==> i + 1 < |s| && s[i + 1] == '\n'
    ensures forall i :: 0 <= i < |s| && s[i] == '\n' ==> i > 0 && s[i - 1] == '\r'
    decreases |s|
  {
    if s != [] {
      if |s| >= 2 && s[0] == '\r' && s[1] == '\n' && CrLfOnly(s[2..]) {
        CrLfOnlyHasNoLoneBreaks(s[2..]);
        forall i | 2 <= i < |s| ensures s[i] == s[2..][i - 2] {}
      } else {
        CrLfOnlyHasNoLoneBreaks(s[1..]);
        forall i | 1 <= i < |s| ensures s[i] == s[1..][i - 1] {}
      }
    }
  }

  /** The text with its line breaks left out. */
  function WithoutBreaks(s: string): string
    decreases |s|
  {
    if s == [] then [] else (if IsBreak(s[0]) then [] else [s[0]]) + WithoutBreaks(s[1..])
  }

  /** Normalising only touches line breaks: every other character stays, in order. */
  lemma {:induction false} NormalizeKeepsText(s: string)
    ensures WithoutBreaks(NormalizeBreaks(s)) == WithoutBreaks(s)
    decreases |s|
  {
    if s != [] {
      var pair := |s| >= 2 && ((s[0] == '\r' && s[1] == '\n') || (s[0] == '\n' && s[1] == '\r'));
      var n := NormalizeBreaks(s);
      if pair {
        NormalizeKeepsText(s[2..]);
        WithoutBreaksAppend("\r\n", NormalizeBreaks(s[2..]));
        assert WithoutBreaks(s) == WithoutBreaks(s[1..]);
        assert s[1..][1..] == s[2..];
      } else {
        NormalizeKeepsText(s[1..]);
        var head := if IsBreak(s[0]) then "\r\n" else [s[0]];
        WithoutBreaksAppend(head, NormalizeBreaks(s[1..]));
      }
    }
  }

  lemma {:induction false} WithoutBreaksAppend(a: string, b: string)
    ensures WithoutBreaks(a + b) == WithoutBreaks(a) + WithoutBreaks(b)
    decreases |a|
  {
    if a == [] {
      assert a + b == b;
    } else {
      assert (a + b)[1..] == a[1..] + b;
      WithoutBreaksAppend(a[1..], b);
    }
  }

  /** Text without any line-break character. */
  predicate NoBreaks(t: string) {
    forall j :: 0 <= j < |t| ==> !IsBreak(t[j])
  }

  /** Where the first line break of `s` is, or `|s|` when it has none. */
  function FirstBreak(s: string): (i: nat)
    ensures i <= |s| && NoBreaks(s[..i])
    ensures i < |s| ==> IsBreak(s[i])
    decreases |s|
  {
    if s == [] || IsBreak(s[0]) then 0
    else
      var k := FirstBreak(s[1..]);
      assert s[..k + 1] == [s[0]] + s[1..][..k];
      k + 1
  }

  /** How long the break at the front of `s` is: two different break characters in a row make one break. */
  function BreakLength(s: string): (k: nat)
    requires s != [] && IsBreak(s[0])
    ensures 1 <= k <= 2 && k <= |s|
  {
    if |s| >= 2 && IsBreak(s[1]) && s[1] != s[0] then 2 else 1
  }

  /** The lines of `s`: the text between its line breaks, read from left to right. */
  function Lines(s: string): (ls: seq<string>)
    ensures |ls| >= 1
    ensures forall l :: l in ls ==> NoBreaks(l)
    decreases |s|
  {
    var i := FirstBreak(s);
    if i == |s| then
      assert s[..i] == s;
      [s]
    else [s[..i]] + Lines(s[i + BreakLength(s[i..])..])
  }

  /** The lines put back together with `sep` between each two. */
  function Join(ls: seq<string>, sep: string): string
    requires |ls| >= 1
    decreases |ls|
  {
    if |ls| == 1 then ls[0] else ls[0] + sep + Join(ls[1..], sep)
  }

  /** Text without a break comes through unchanged, whatever follows it. */
  lemma {:induction false} NormalizeSkipsLine(x: string, z: string)
    requires NoBreaks(x)
    ensures NormalizeBreaks(x + z) == x + NormalizeBreaks(z)
    decreases |x|
  {
    if x == [] {
      assert x + z == z;
    } else {
      NoBreaksTail(x);
      NormalizeSkipsLine(x[1..], z);
      SkipsLineStep(x, z);
    }
  }

  /** One step of `NormalizeSkipsLine`: the first character is copied in front of the rest. */
  lemma SkipsLineStep(x: string, z: string)
    requires x != [] && !IsBreak(x[0])
    requires NormalizeBreaks(x[1..] + z) == x[1..] + NormalizeBreaks(z)
    ensures NormalizeBreaks(x + z) == x + NormalizeBreaks(z)
  {
    var xz := x + z;
    SplitFirst(x, z);
    NormalizeCopiesPlain(xz);
    ConsAssoc(x, NormalizeBreaks(z));
  }

  /** The first character of `x + z` and what follows it. */
  lemma SplitFirst(x: string, z: string)
    requires x != []
    ensures (x + z)[0] == x[0] && (x + z)[1..] == x[1..] + z
  {
  }

  /** Putting the first character of `x` back in front. */
  lemma ConsAssoc(x: string, a: string)
    requires x != []
    ensures [x[0]] + (x[1..] + a) == x + a
  {
    assert [x[0]] + x[1..] == x;
  }

  /** Dropping the first character keeps text free of breaks. */
  lemma NoBreaksTail(x: string)
    requires x != [] && NoBreaks(x)
    ensures !IsBreak(x[0]) && NoBreaks(x[1..])
  {
    forall j | 0 <= j < |x[1..]| ensures !IsBreak(x[1..][j]) {
      assert x[1..][j] == x[j + 1];
    }
  }

  /** A character that is not a break is copied. */
  lemma NormalizeCopiesPlain(s: string)
    requires s != [] && !IsBreak(s[0])
    ensures NormalizeBreaks(s) == [s[0]] + NormalizeBreaks(s[1..])
  {
  }

  /** A break at the front becomes one `\r\n`. */
  lemma NormalizeBreakAtFront(t: string)
    requires t != [] && IsBreak(t[0])
    ensures NormalizeBreaks(t) == "\r\n" + NormalizeBreaks(t[BreakLength(t)..])
  {
  }

  /**
   * Normalising is splitting into lines and joining them with `\r\n`: each
   * `\r\n`, `\n\r`, lone `\r` or lone `\n` becomes one `\r\n`, and the text
   * between the breaks is kept.
   */
  lemma {:induction false} NormalizeIsJoinOfLines(s: string)
    ensures NormalizeBreaks(s) == Join(Lines(s), "\r\n")
    decreases |s|
  {
    var i := FirstBreak(s);
    if i == |s| {
      NormalizeLastLine(s);
    } else {
      var rest := s[i + BreakLength(s[i..])..];
      NormalizeIsJoinOfLines(rest);
      NormalizeLineStep(s, rest);
    }
  }

  /** Text without a break is one line and comes through unchanged. */
  lemma NormalizeLastLine(s: string)
    requires FirstBreak(s) == |s|
    ensures NormalizeBreaks(s) == Join(Lines(s), "\r\n")
  {
    assert s[..|s|] == s;
    NormalizeSkipsLine(s, []);
    assert s + [] == s;
  }

  /** The first line, one `\r\n`, then the rest normalised. */
  lemma NormalizeLineStep(s: string, rest: string)
    requires FirstBreak(s) < |s|
    requires rest == s[FirstBreak(s) + BreakLength(s[FirstBreak(s)..])..]
    requires NormalizeBreaks(rest) == Join(Lines(rest), "\r\n")
    ensures NormalizeBreaks(s) == Join(Lines(s), "\r\n")
  {
    var i := FirstBreak(s);
    NormalizeFirstLine(s, rest);
    LinesStep(s, rest);
    JoinCons(s[..i], Lines(rest), "\r\n");
  }

  /** Normalising keeps the first line and turns the break after it into `\r\n`. */
  lemma NormalizeFirstLine(s: string, rest: string)
    requires FirstBreak(s) < |s|
    requires rest == s[FirstBreak(s) + BreakLength(s[FirstBreak(s)..])..]
    ensures NormalizeBreaks(s) == s[..FirstBreak(s)] + "\r\n" + NormalizeBreaks(rest)
  {
    var i := FirstBreak(s);
    assert s == s[..i] + s[i..];
    NormalizeLineThenBreak(s[..i], s[i..], rest, s);
  }

  /** `u` is a line, then a break, then `rest`. */
  lemma NormalizeLineThenBreak(line: string, t: string, rest: string, u: string)
    requires NoBreaks(line) && t != [] && IsBreak(t[0])
    requires rest == t[BreakLength(t)..] && u == line + t
    ensures NormalizeBreaks(u) == line + "\r\n" + NormalizeBreaks(rest)
  {
    NormalizeSkipsLine(line, t);
    NormalizeBreakAtFront(t);
    AppendAssoc(line, "\r\n", NormalizeBreaks(rest));
  }

  /** The lines of text with a break: the first line, then the lines after the break. */
  lemma LinesStep(s: string, rest: string)
    requires FirstBreak(s) < |s|
    requires rest == s[FirstBreak(s) + BreakLength(s[FirstBreak(s)..])..]
    ensures Lines(s) == [s[..FirstBreak(s)]] + Lines(rest)
  {
  }

  lemma JoinCons(a: string, ls: seq<string>, sep: string)
    requires |ls| >= 1
    ensures Join([a] + ls, sep) == a + sep + Join(ls, sep)
  {
    assert ([a] + ls)[1..] == ls;
  }

  /** Every kind of break becomes `\r\n`, and `\n\n` is two breaks while `\n\r` is one. */
  lemma NormalizeExamples(a: char, b: char)
    requires !IsBreak(a) && !IsBreak(b)
    ensures NormalizeBreaks([a, '\n', b]) == [a, '\r', '\n', b]
    ensures NormalizeBreaks([a, '\r', b]) == [a, '\r', '\n', b]
    ensures NormalizeBreaks([a, '\n', '\r', b]) == [a, '\r', '\n', b]
    ensures NormalizeBreaks([a, '\n', '\n', b]) == [a, '\r', '\n', '\r', '\n', b]
  {
    NormalizeOneBreak(a, ['\n', b], b, [a, '\n', b]);
    NormalizeOneBreak(a, ['\r', b], b, [a, '\r', b]);
    NormalizeOneBreak(a, ['\n', '\r', b], b, [a, '\n', '\r', b]);
    NormalizeTwoBreaks(a, b, [a, '\n', '\n', b]);
  }

  /** A character that is not a break comes through on its own. */
  lemma NormalizePlainChar(b: char)
    requires !IsBreak(b)
    ensures NormalizeBreaks([b]) == [b]
  {
    NormalizeCopiesPlain([b]);
    assert [b][1..] == [];
  }

  /** One break between two other characters becomes `\r\n`. */
  lemma NormalizeOneBreak(a: char, t: string, b: char, u: string)
    requires !IsBreak(a) && !IsBreak(b)
    requires t == ['\n', b] || t == ['\r', b] || t == ['\n', '\r', b]
    requires u == [a] + t
    ensures NormalizeBreaks(u) == [a, '\r', '\n', b]
  {
    NormalizePlainChar(b);
    assert t[BreakLength(t)..] == [b];
    NormalizeLineThenBreak([a], t, [b], u);
  }

  /** Two line feeds in a row are two breaks. */
  lemma NormalizeTwoBreaks(a: char, b: char, u: string)
    requires !IsBreak(a) && !IsBreak(b)
    requires u == [a, '\n', '\n', b]
    ensures NormalizeBreaks(u) == [a, '\r', '\n', '\r', '\n', b]
  {
    var t2 := ['\n', b];
    var t1 := ['\n', '\n', b];
    NormalizePlainChar(b);
    assert t2[BreakLength(t2)..] == [b];
    NormalizeLineThenBreak([], t2, [b], t2);
    assert t1[BreakLength(t1)..] == t2;
    NormalizeLineThenBreak([a], t1, t2, u);
  }

  /**
   * The extension tier tests only that the plain extension template exists:
   * an interface name is sent to the `-interface` template of that folder, and
   * when that file is missing the reader throws.
   */
  lemma MissingSpecificTemplateIsUnreadable(isMvc: bool, paths: seq<string>, files: map<string, string>, file: string,
                                            project: Option<Project>, relative: string)
    requires !Any(paths, path => DirectMatch(GetFileName(file), path))
    requires !Any(paths, path => ConventionMatch(SafeName(file), path))
    requires Any(paths, path => ExtensionMatch(Lower(GetExtension(file)), files, path))
    requires InterfaceShaped(SafeName(file))
    requires var i := FirstMatch(paths, path => ExtensionMatch(Lower(GetExtension(file)), files, path)).value;
      PathKey(Combine(GetDirectoryName(paths[i]), Lower(GetExtension(file)) + "-interface" + DefaultExt)) !in files
    ensures var i := FirstMatch(paths, path => ExtensionMatch(Lower(GetExtension(file)), files, path)).value;
      ReplaceTokens(project, SafeName(file), relative, GetMatchingTemplate(isMvc, paths, files, file), files)
        == Unreadable(Combine(GetDirectoryName(paths[i]), Lower(GetExtension(file)) + "-interface" + DefaultExt))
  {
    var i := FirstMatch(paths, path => ExtensionMatch(Lower(GetExtension(file)), files, path)).value;
    var template := Combine(GetDirectoryName(paths[i]), Lower(GetExtension(file)) + "-interface" + DefaultExt);
    assert GetMatchingTemplate(isMvc, paths, files, file) == Some(template);
    assert template != [];
  }

  // ---------------------------------------------------------------------------
  // Putting it together

  /**
   * `GetTemplateFilePathAsync`: the templates along the directory chain in
   * front of the static list, the matching template, filled in, with its
   * line endings normalised. `relative` is what `MakeRelative` gives for the
   * project root and the file's directory; `templateFiles` is the static
   * list, the value of `StaticTemplates` for the user profile and the
   * extension's location.
   */
  method GetTemplateFilePath(templateFiles: seq<string>, project: Option<Project>, file: string, relative: string,
                             listing: map<string, seq<string>>, files: map<string, string>) returns (r: TemplateText)
    ensures var paths := TemplatesUp(GetDirectoryName(file), listing) + templateFiles;
      var isMvc := project.Some? && IsMVCProject(project.value);
      var filled := ReplaceTokens(project, SafeName(file), relative, GetMatchingTemplate(isMvc, paths, files, file), files);
      r == if filled.Text? then Text(NormalizeLineEndings(Some(filled.content)).value) else filled
    ensures r.Text? ==> CrLfOnly(r.content)
  {
    var safeName := SafeName(file);
    var list := templateFiles;
    list := AddTemplatesFromCurrentFolder(list, GetDirectoryName(file), listing);
    var isMvc := project.Some? && IsMVCProject(project.value);
    var templateFile := GetMatchingTemplate(isMvc, list, files, file);
    r := ReplaceTokens(project, safeName, relative, templateFile, files);
    if r.Text? {
      r := Text(NormalizeLineEndings(Some(r.content)).value);
    }
  }
}

=== FILE: templated_item_creator.dfy ===
/**
 * The older subsystem's `TemplatedItemCreator`: adds an item from a Visual
 * Studio item template under the folders of the typed path, creating the
 * folders that are missing. The project's items are a `ProjectTree`; the
 * template file itself and its default name come from the host.
 */
module TemplatedItems {
  import opened Wrappers
  import opened Text
  import opened Paths
  import opened ProjectHelpers
  import LegacyTemplateMap

  /**
   * `GetRelativePath`: a full name that starts with the project's directory
   * (ignoring case) loses that directory and the separator after it; any
   * other full name is returned as it is. `None` stands for the exception
   * `Substring` throws when the full name is the directory itself.
   */
  function GetRelativePath(projectFullName: string, fullName: string): (r: Option<string>)
    ensures var dir := GetDirectoryName(projectFullName);
      !StartsWithIgnoreCase(fullName, dir) ==> r == Some(fullName)
    ensures var dir := GetDirectoryName(projectFullName);
      StartsWithIgnoreCase(fullName, dir) ==>
        (r.None? <==> |fullName| == |dir|)
        && (r.Some? ==> EndsWith(fullName, r.value) && |r.value| == |fullName| - |dir| - 1)
  {
    var dir := GetDirectoryName(projectFullName);
    if StartsWithIgnoreCase(fullName, dir) then
      if |dir| + 1 > |fullName| then None else Some(fullName[|dir| + 1..])
    else Some(fullName)
  }

  /**
   * A path relative to the project's directory, joined onto that directory,
   * is given back by `GetRelativePath` (for a directory that does not end in
   * a separator or drive colon).
   */
  lemma RelativePathRoundTrip(projectFullName: string, relative: string)
    requires GetDirectoryName(projectFullName) != []
    requires !IsNameBoundary(GetDirectoryName(projectFullName)[|GetDirectoryName(projectFullName)| - 1])
    requires relative != [] && !IsRooted(relative)
    ensures GetRelativePath(projectFullName, Combine(GetDirectoryName(projectFullName), relative)) == Some(relative)
  {
    var dir := GetDirectoryName(projectFullName);
    var full := Combine(dir, relative);
    assert full == dir + "\\" + relative;
    assert full[..|dir|] == dir;
    assert full[|dir| + 1..] == relative;
  }

  /** Plain texts joined are plain. */
  lemma PlainAppend(a: string, b: string)
    requires Plain(a) && Plain(b)
    ensures Plain(a + b)
  {
    forall j | 0 <= j < |a + b| ensures !IsNameBoundary((a + b)[j]) {
      if j >= |a| {
        assert (a + b)[j] == b[j - |a|];
      }
    }
  }

  /** Upper-casing keeps separators and drive colons and makes no new ones. */
  lemma UpperKeepsBoundaries(c: char)
    ensures IsNameBoundary(ToUpper(c)) <==> IsNameBoundary(c)
  {
  }

  /**
   * The last `|ext|` characters of `s` equal `ext` ignoring case, and `ext`
   * is plain: then so is that end of `s`.
   */
  lemma CaseSuffixHasNoBoundary(s: string, ext: string, j: nat)
    requires EndsWithIgnoreCase(s, ext) && Plain(ext)
    requires |s| - |ext| <= j < |s|
    ensures !IsNameBoundary(s[j])
  {
    var k := j - (|s| - |ext|);
    assert Upper(s[|s| - |ext|..])[k] == Upper(ext)[k];
    UpperKeepsBoundaries(s[j]);
    UpperKeepsBoundaries(ext[k]);
  }

  /** A path that ends with a plain text (ignoring case) has a file name at least that long. */
  lemma FileNameCoversSuffix(fileName: string, ext: string)
    requires EndsWithIgnoreCase(fileName, ext) && Plain(ext)
    ensures |ext| <= |GetFileName(fileName)|
  {
    var start := |fileName| - |ext|;
    forall j | start <= j < |fileName| ensures !IsNameBoundary(fileName[j]) {
      CaseSuffixHasNoBoundary(fileName, ext, j);
    }
    assert NameStart(fileName) <= start;
    assert GetFileName(fileName) == fileName[NameStart(fileName)..];
  }

  /**
   * Testing the whole typed path or only its file name for the extension is
   * the same: an extension has no separator or drive colon.
   */
  lemma ExtensionTestOnName(fileName: string, defaultName: string)
    ensures var ext := GetExtension(defaultName);
      EndsWithIgnoreCase(fileName, ext) <==> EndsWithIgnoreCase(GetFileName(fileName), ext)
  {
    var ext := GetExtension(defaultName);
    var name := GetFileName(fileName);
    if EndsWithIgnoreCase(fileName, ext) {
      FileNameCoversSuffix(fileName, ext);
      SuffixOfSuffix(fileName, name, |ext|);
    }
    if EndsWithIgnoreCase(name, ext) {
      SuffixOfSuffix(fileName, name, |ext|);
    }
  }

  /**
   * The name the item is added under: the file name of the typed path, with
   * the template's extension appended unless the typed path already ends
   * with it (ignoring case), which is the same as the file name ending with
   * it. The result always ends with the extension and is a plain file name.
   */
  function ItemName(fileName: string, defaultName: string): (r: string)
    ensures EndsWithIgnoreCase(r, GetExtension(defaultName))
    ensures StartsWith(r, GetFileName(fileName))
    ensures |r| <= |GetFileName(fileName)| + |GetExtension(defaultName)|
    ensures Plain(r)
    ensures EndsWithIgnoreCase(GetFileName(fileName), GetExtension(defaultName)) ==> r == GetFileName(fileName)
    ensures !EndsWithIgnoreCase(GetFileName(fileName), GetExtension(defaultName)) ==>
      r == GetFileName(fileName) + GetExtension(defaultName)
  {
    var ext := GetExtension(defaultName);
    var itemName := GetFileName(fileName);
    ExtensionTestOnName(fileName, defaultName);
    if EndsWithIgnoreCase(fileName, ext) then
      KeptName(fileName, ext);
      itemName
    else
      AppendedName(itemName, ext);
      itemName + ext
  }

  /** The extension is never doubled: naming the item a second time changes nothing. */
  lemma ItemNameIdempotent(fileName: string, defaultName: string)
    ensures var r := ItemName(fileName, defaultName);
      ItemName(r, defaultName) == r
  {
    var r := ItemName(fileName, defaultName);
    FileNameOfPlainName(r);
  }

  /** A typed path that already ends with the plain extension keeps its file name, which ends with it too. */
  lemma KeptName(fileName: string, ext: string)
    requires EndsWithIgnoreCase(fileName, ext) && Plain(ext)
    ensures var n := GetFileName(fileName);
      EndsWithIgnoreCase(n, ext) && StartsWith(n, n) && Plain(n)
  {
    var n := GetFileName(fileName);
    FileNameCoversSuffix(fileName, ext);
    SuffixOfSuffix(fileName, n, |ext|);
    assert EqualsIgnoreCase(n[|n| - |ext|..], ext);
    assert Plain(n);
    assert n[..|n|] == n;
  }

  /** A plain name with a plain extension appended starts with the name and ends with the extension. */
  lemma AppendedName(name: string, ext: string)
    requires Plain(name) && Plain(ext)
    ensures var r := name + ext;
      EndsWithIgnoreCase(r, ext) && StartsWith(r, name) && Plain(r)
  {
    var r := name + ext;
    assert r[|r| - |ext|..] == ext;
    assert r[..|name|] == name;
    PlainAppend(name, ext);
  }

  class TemplatedItemCreator {
    const fileName: string
    const template: LegacyTemplateMap.TemplateMapping
    const fullName: string

    constructor(template: LegacyTemplateMap.TemplateMapping, fileName: string, givenName: string)
      ensures this.template == template && this.fileName == fileName && fullName == givenName
    {
      this.template := template;
      this.fileName := fileName;
      this.fullName := givenName;
    }

    /**
     * `GetItemParent`: walks the folder segments of the relative path (every
     * segment but the last), reusing at each level the first item whose name
     * is exactly the segment and adding a folder otherwise. `None` when the
     * relative path cannot be computed; nothing changes then.
     */
    method GetItemParent(tree: ProjectTree, projectFullName: string) returns (r: Option<seq<string>>)
      modifies tree
      ensures GetRelativePath(projectFullName, fullName).None? ==> r.None? && tree.items == old(tree.items)
      ensures GetRelativePath(projectFullName, fullName).Some? ==>
        var directories := Split(GetRelativePath(projectFullName, fullName).value, '\\');
        var walk := EnsurePath(old(tree.items), [], directories[..|directories| - 1], false);
        r == Some(walk.1) && tree.items == walk.0
    {
      var relative := GetRelativePath(projectFullName, fullName);
      if relative.None? {
        return None;
      }
      var directories := Split(relative.value, '\\');
      var folders := directories[..|directories| - 1];
      var parent: seq<string> := [];
      for i := 0 to |directories| - 1
        invariant EnsurePath(tree.items, parent, folders[i..], false) == EnsurePath(old(tree.items), [], folders, false)
      {
        assert folders[i..][1..] == folders[i + 1..];
        var existing := FindChild(tree.items, parent, directories[i], false);
        if existing.Some? {
          parent := tree.items[existing.value];
        } else {
          tree.items := tree.items + [parent + [directories[i]]];
          parent := parent + [directories[i]];
        }
      }
      assert folders[|folders|..] == [];
      return Some(parent);
    }

    /**
     * `Create`: adds the item, named by `ItemName`, under the parent that
     * `GetItemParent` reaches; `defaultName` is the default name the template
     * declares. Gives the new item's path, or `None` when the relative path
     * cannot be computed.
     */
    method Create(tree: ProjectTree, projectFullName: string, defaultName: string) returns (r: Option<seq<string>>)
      modifies tree
      ensures GetRelativePath(projectFullName, fullName).None? ==> r.None? && tree.items == old(tree.items)
      ensures GetRelativePath(projectFullName, fullName).Some? ==>
        var directories := Split(GetRelativePath(projectFullName, fullName).value, '\\');
        var walk := EnsurePath(old(tree.items), [], directories[..|directories| - 1], false);
        r == Some(walk.1 + [ItemName(fileName, defaultName)]) && tree.items == walk.0 + [r.value]
    {
      var itemName := ItemName(fileName, defaultName);
      var parent := GetItemParent(tree, projectFullName);
      if parent.None? {
        return None;
      }
      var item := parent.value + [itemName];
      tree.items := tree.items + [item];
      return Some(item);
    }
  }

  /**
   * The new item sits one level below the folders of the typed path (the
   * segments `Split` gives), one item per segment: the file-name segment
   * never becomes a folder, and each folder level carries the segment's
   * exact name.
   */
  lemma CreatedItemShape(items: seq<seq<string>>, directories: seq<string>, itemName: string)
    requires |directories| >= 1
    ensures var item := EnsurePath(items, [], directories[..|directories| - 1], false).1 + [itemName];
      && |item| == |directories|
      && (forall i :: 0 <= i < |directories| - 1 ==> item[i] == directories[i])
      && item[|item| - 1] == itemName
  {
    var folders := directories[..|directories| - 1];
    EnsurePathShape(items, [], folders, false);
    var reached := EnsurePath(items, [], folders, false).1;
    var item := reached + [itemName];
    forall i | 0 <= i < |directories| - 1 ensures item[i] == directories[i] {
      assert SameName(reached[0 + i], folders[i], false);
    }
  }
}

=== FILE: text.dfy ===
/**
 * The .NET string operations the extension relies on: trimming, ordinal
 * case-insensitive comparison, searching, splitting and replacing.
 * Case folding is the ASCII one (`a`..`z` against `A`..`Z`).
 */
module Text {

  /** `char.IsWhiteSpace`: U+0009..U+000D, U+0085 and the Unicode space, line and paragraph separators. */
  predicate IsWhiteSpace(c: char) {
    c == ' ' || ('\t' <= c <= '\r') || c == '\U{85}' || c == '\U{A0}' || c == '\U{1680}'
    || ('\U{2000}' <= c <= '\U{200A}') || c == '\U{2028}' || c == '\U{2029}'
    || c == '\U{202F}' || c == '\U{205F}' || c == '\U{3000}'
  }

  /** `TrimStart()`: drops the longest all-white-space prefix. */
  function TrimStart(s: string): (r: string)
    ensures |r| <= |s| && r == s[|s| - |r|..]
    ensures r == [] || !IsWhiteSpace(r[0])
    ensures forall i :: 0 <= i < |s| - |r| ==> IsWhiteSpace(s[i])
  {
    if s != [] && IsWhiteSpace(s[0]) then TrimStart(s[1..]) else s
  }

  /** `TrimEnd()`: drops the longest all-white-space suffix. */
  function TrimEnd(s: string): (r: string)
    ensures |r| <= |s| && r == s[..|r|]
    ensures r == [] || !IsWhiteSpace(r[|r| - 1])
    ensures forall i :: |r| <= i < |s| ==> IsWhiteSpace(s[i])
  {
    if s != [] && IsWhiteSpace(s[|s| - 1]) then TrimEnd(s[..|s| - 1]) else s
  }

  /** `Trim()`: a contiguous slice of `s` that neither starts nor ends with white space. */
  function Trim(s: string): (r: string)
    ensures |r| <= |s| - LeadingWhiteSpace(s)
    ensures r == s[LeadingWhiteSpace(s)..LeadingWhiteSpace(s) + |r|]
    ensures r == [] || (!IsWhiteSpace(r[0]) && !IsWhiteSpace(r[|r| - 1]))
  {
    TrimEnd(TrimStart(s))
  }

  /** How many characters `Trim` drops at the front. */
  function LeadingWhiteSpace(s: string): (n: nat)
    ensures n <= |s| && TrimStart(s) == s[n..]
  {
    |s| - |TrimStart(s)|
  }

  /** Upper-casing of one character as ordinal case-insensitive comparison uses it. */
  function ToUpper(c: char): char {
    if 'a' <= c <= 'z' then (c as int - 32) as char else c
  }

  /** `ToLowerInvariant` on one character. */
  function ToLower(c: char): char {
    if 'A' <= c <= 'Z' then (c as int + 32) as char else c
  }

  function Upper(s: string): (r: string)
    ensures |r| == |s| && forall i :: 0 <= i < |s| ==> r[i] == ToUpper(s[i])
  {
    seq(|s|, i requires 0 <= i < |s| => ToUpper(s[i]))
  }

  /** `ToLowerInvariant()` on a string. */
  function Lower(s: string): (r: string)
    ensures |r| == |s| && forall i :: 0 <= i < |s| ==> r[i] == ToLower(s[i])
  {
    seq(|s|, i requires 0 <= i < |s| => ToLower(s[i]))
  }

  /** `string.Equals(a, b, StringComparison.OrdinalIgnoreCase)`. */
  predicate EqualsIgnoreCase(a: string, b: string) {
    Upper(a) == Upper(b)
  }

  predicate StartsWith(s: string, prefix: string) {
    |prefix| <= |s| && s[..|prefix|] == prefix
  }

  predicate EndsWith(s: string, suffix: string) {
    |suffix| <= |s| && s[|s| - |suffix|..] == suffix
  }

  /** A suffix of a suffix is a suffix. */
  lemma EndsWithTransitive(s: string, t: string, u: string)
    requires EndsWith(s, t) && EndsWith(t, u)
    ensures EndsWith(s, u)
  {
    assert s[|s| - |u|..] == t[|t| - |u|..];
  }

  /** The last `n` characters of a suffix are the last `n` of the whole. */
  lemma SuffixOfSuffix(s: string, t: string, n: nat)
    requires EndsWith(s, t) && n <= |t|
    ensures s[|s| - n..] == t[|t| - n..]
  {
    assert t == s[|s| - |t|..];
  }

  predicate StartsWithIgnoreCase(s: string, prefix: string) {
    |prefix| <= |s| && EqualsIgnoreCase(s[..|prefix|], prefix)
  }

  predicate EndsWithIgnoreCase(s: string, suffix: string) {
    |suffix| <= |s| && EqualsIgnoreCase(s[|s| - |suffix|..], suffix)
  }

  /** Ordinal case-insensitive equality is an equivalence: it is equality after upper-casing. */
  lemma EqualsIgnoreCaseTransitive(a: string, b: string, c: string)
    requires EqualsIgnoreCase(a, b) && EqualsIgnoreCase(b, c)
    ensures EqualsIgnoreCase(a, c) && EqualsIgnoreCase(c, a)
  {
  }

  /** Upper-casing and lower-casing agree on which characters are the same letter. */
  lemma LowerUpper(c: char)
    ensures ToUpper(ToLower(c)) == ToUpper(c)
  {
  }

  /** Lower-casing first does not change what upper-casing gives. */
  lemma UpperOfLower(s: string)
    ensures Upper(Lower(s)) == Upper(s)
  {
    forall i | 0 <= i < |s| ensures Upper(Lower(s))[i] == Upper(s)[i] {
      LowerUpper(s[i]);
    }
  }

  /** `IndexOf(c)`: the first position of `c`, or -1. */
  function IndexOf(s: string, c: char): (r: int)
    ensures -1 <= r < |s|
    ensures r == -1 <==> c !in s
    ensures 0 <= r ==> s[r] == c && forall j :: 0 <= j < r ==> s[j] != c
  {
    if s == [] then -1
    else if s[0] == c then 0
    else
      var k := IndexOf(s[1..], c);
      if k < 0 then -1 else k + 1
  }

  /** `LastIndexOf(c)`: the last position of `c`, or -1. */
  function LastIndexOf(s: string, c: char): (r: int)
    ensures -1 <= r < |s|
    ensures r == -1 <==> c !in s
    ensures 0 <= r ==> s[r] == c && forall j :: r < j < |s| ==> s[j] != c
  {
    if s == [] then -1
    else if s[|s| - 1] == c then |s| - 1
    else LastIndexOf(s[..|s| - 1], c)
  }

  /** The last position of `c` is the one with no `c` after it. */
  lemma LastIndexOfIs(s: string, c: char, k: nat)
    requires k < |s| && s[k] == c
    requires forall j :: k < j < |s| ==> s[j] != c
    ensures LastIndexOf(s, c) == k
  {
  }

  /** Joins the parts with the separator between neighbours (`string.Join`). */
  function Join(parts: seq<string>, sep: string): string
    requires |parts| >= 1
  {
    if |parts| == 1 then parts[0] else parts[0] + sep + Join(parts[1..], sep)
  }

  /** `Split(sep)`: the pieces between occurrences of `sep`. */
  function Split(s: string, sep: char): (r: seq<string>)
    ensures |r| >= 1
    ensures forall i :: 0 <= i < |r| ==> sep !in r[i]
    decreases |s|
  {
    var k := IndexOf(s, sep);
    if k < 0 then [s]
    else
      var rest := Split(s[k + 1..], sep);
      NoneBefore(s, sep, k);
      ConsWithout(s[..k], rest, sep);
      [s[..k]] + rest
  }

  /** The text before the first `c` holds no `c`. */
  lemma NoneBefore(s: string, c: char, k: nat)
    requires k <= |s| && forall j :: 0 <= j < k ==> s[j] != c
    ensures c !in s[..k]
  {
  }

  /** A piece without `c` in front of pieces without `c` gives pieces without `c`. */
  lemma ConsWithout(a: string, rest: seq<string>, c: char)
    requires c !in a && forall i :: 0 <= i < |rest| ==> c !in rest[i]
    ensures forall i :: 0 <= i < |[a] + rest| ==> c !in ([a] + rest)[i]
  {
    forall i | 0 <= i < |[a] + rest| ensures c !in ([a] + rest)[i] {
      if i > 0 {
        assert ([a] + rest)[i] == rest[i - 1];
      }
    }
  }

  /** Joining the pieces `Split` gives with the separator gives the text back. */
  lemma {:induction false} SplitJoin(s: string, sep: char)
    ensures Join(Split(s, sep), [sep]) == s
    decreases |s|
  {
    var k := IndexOf(s, sep);
    if k >= 0 {
      var rest := Split(s[k + 1..], sep);
      SplitJoin(s[k + 1..], sep);
      assert ([s[..k]] + rest)[1..] == rest;
      assert s == s[..k] + [sep] + s[k + 1..];
    }
  }

  /** `pat` occurs somewhere in `s`. */
  predicate Occurs(s: string, pat: string)
    decreases |s|
  {
    |pat| <= |s| && (s[..|pat|] == pat || (s != [] && Occurs(s[1..], pat)))
  }

  /** `s.Replace(pat, rep)`: every occurrence of `pat`, scanning left to right without overlap, becomes `rep`. */
  function Replace(s: string, pat: string, rep: string): (r: string)
    requires pat != []
    decreases |s|
  {
    if |s| < |pat| then s
    else if s[..|pat|] == pat then rep + Replace(s[|pat|..], pat, rep)
    else [s[0]] + Replace(s[1..], pat, rep)
  }

  /** Replacing a pattern that does not occur leaves the string as it was. */
  lemma {:induction false} ReplaceAbsent(s: string, pat: string, rep: string)
    requires pat != [] && !Occurs(s, pat)
    ensures Replace(s, pat, rep) == s
    decreases |s|
  {
    if |s| >= |pat| {
      ReplaceAbsent(s[1..], pat, rep);
    }
  }

  /** A leading piece free of the pattern's first character is copied through unchanged. */
  lemma {:induction false} ReplaceSkipsLiteral(t: string, s: string, pat: string, rep: string)
    requires pat != [] && pat[0] !in t
    ensures Replace(t + s, pat, rep) == t + Replace(s, pat, rep)
    decreases |t|
  {
    if t != [] {
      var ts := t + s;
      assert t[0] in t;
      assert ts[1..] == t[1..] + s;
      ReplaceSkipsLiteral(t[1..], s, pat, rep);
      if |ts| >= |pat| {
        assert ts[..|pat|][0] == t[0];
        assert ts[..|pat|] != pat;
        assert Replace(ts, pat, rep) == [t[0]] + Replace(t[1..] + s, pat, rep);
      } else {
        assert |s| < |pat|;
      }
      assert [t[0]] + t[1..] == t;
    } else {
      assert t + s == s;
    }
  }

  /** An occurrence at the front is replaced, and the scan resumes after it. */
  lemma ReplaceAtFront(s: string, pat: string, rep: string)
    requires pat != []
    ensures Replace(pat + s, pat, rep) == rep + Replace(s, pat, rep)
  {
    assert (pat + s)[..|pat|] == pat;
    assert (pat + s)[|pat|..] == s;
  }

  /** `pat` occurs in `s` at position `j`. */
  predicate OccursAt(s: string, j: int, pat: string) {
    0 <= j && j + |pat| <= |s| && s[j..j + |pat|] == pat
  }

  /** No occurrence of `pat` starts inside `x` and runs on into `s`. */
  predicate NoStraddle(x: string, s: string, pat: string) {
    forall j :: 0 <= j < |x| < j + |pat| ==> !OccursAt(x + s, j, pat)
  }

  /** Cutting `k` characters off the front keeps the seam clear. */
  lemma NoStraddleShift(x: string, s: string, pat: string, k: nat)
    requires k <= |x| && NoStraddle(x, s, pat)
    ensures NoStraddle(x[k..], s, pat)
  {
    var xs := x + s;
    forall j | 0 <= j < |x| - k < j + |pat|
      ensures !OccursAt(x[k..] + s, j, pat)
    {
      assert !OccursAt(xs, j + k, pat);
      if j + |pat| <= |x| - k + |s| {
        assert (x[k..] + s)[j..j + |pat|] == xs[j + k..j + k + |pat|];
      }
    }
  }

  /** `Replace` on a text that does not start with the pattern copies the first character. */
  lemma ReplaceStep(ts: string, pat: string, rep: string)
    requires pat != [] && ts != [] && !OccursAt(ts, 0, pat)
    ensures Replace(ts, pat, rep) == [ts[0]] + Replace(ts[1..], pat, rep)
  {
    if |ts| < |pat| {
      assert [ts[0]] + ts[1..] == ts;
    } else {
      assert ts[0..|pat|] == ts[..|pat|];
    }
  }

  /**
   * `Replace` works piece by piece: when no occurrence straddles the seam,
   * replacing in `x + s` is replacing in `x` and then in `s`.
   */
  lemma {:induction false} ReplaceConcat(x: string, s: string, pat: string, rep: string)
    requires pat != [] && NoStraddle(x, s, pat)
    ensures Replace(x + s, pat, rep) == Replace(x, pat, rep) + Replace(s, pat, rep)
    decreases |x|, 1
  {
    if x == [] {
      assert x + s == s;
    } else if |x| >= |pat| && x[..|pat|] == pat {
      ConcatAfterMatch(x, s, pat, rep);
    } else {
      ConcatAfterCopy(x, s, pat, rep);
    }
  }

  /** `ReplaceConcat` when `x` starts with the pattern. */
  lemma {:induction false} ConcatAfterMatch(x: string, s: string, pat: string, rep: string)
    requires pat != [] && NoStraddle(x, s, pat)
    requires |x| >= |pat| && x[..|pat|] == pat
    ensures Replace(x + s, pat, rep) == Replace(x, pat, rep) + Replace(s, pat, rep)
    decreases |x|, 0
  {
    var xs := x + s;
    var rest := x[|pat|..];
    assert xs[..|pat|] == pat;
    assert xs[|pat|..] == rest + s;
    NoStraddleShift(x, s, pat, |pat|);
    ReplaceConcat(rest, s, pat, rep);
  }

  /** `ReplaceConcat` when `x` does not start with the pattern. */
  lemma {:induction false} ConcatAfterCopy(x: string, s: string, pat: string, rep: string)
    requires pat != [] && NoStraddle(x, s, pat) && x != []
    requires !(|x| >= |pat| && x[..|pat|] == pat)
    ensures Replace(x + s, pat, rep) == Replace(x, pat, rep) + Replace(s, pat, rep)
    decreases |x|, 0
  {
    CopyFirst(x, s, pat, rep);
    NoStraddleShift(x, s, pat, 1);
    ReplaceConcat(x[1..], s, pat, rep);
    var head, tail, after := [x[0]], Replace(x[1..], pat, rep), Replace(s, pat, rep);
    assert head + (tail + after) == (head + tail) + after;
  }

  /** Neither `x` nor `x + s` starts with the pattern, so both copy the first character of `x`. */
  lemma CopyFirst(x: string, s: string, pat: string, rep: string)
    requires pat != [] && NoStraddle(x, s, pat) && x != []
    requires !(|x| >= |pat| && x[..|pat|] == pat)
    ensures Replace(x + s, pat, rep) == [x[0]] + Replace(x[1..] + s, pat, rep)
    ensures Replace(x, pat, rep) == [x[0]] + Replace(x[1..], pat, rep)
  {
    var xs := x + s;
    assert !OccursAt(x, 0, pat);
    assert !OccursAt(xs, 0, pat) by {
      if |x| >= |pat| {
        assert xs[..|pat|] == x[..|pat|];
      }
    }
    ReplaceStep(xs, pat, rep);
    ReplaceStep(x, pat, rep);
    assert xs[1..] == x[1..] + s;
  }

  /**
   * Every occurrence is replaced: an occurrence of `pat` between `x` and `y`
   * becomes `rep`, with `x` and `y` replaced on their own, unless an earlier
   * occurrence starting in `x` overlaps it.
   */
  lemma ReplaceAround(x: string, pat: string, y: string, rep: string)
    requires pat != [] && NoStraddle(x, pat + y, pat)
    ensures Replace(x + pat + y, pat, rep) == Replace(x, pat, rep) + rep + Replace(y, pat, rep)
  {
    assert x + pat + y == x + (pat + y);
    ReplaceConcat(x, pat + y, pat, rep);
    ReplaceAtFront(y, pat, rep);
  }

  /** The character after position `j` of `t` is in `t` and is not the second character of `pat`. */
  predicate CutShort(t: string, j: int, pat: string) {
    0 <= j && j + 1 < |t| && |pat| >= 2 && t[j + 1] != pat[1]
  }

  /**
   * Wherever `t` holds the first character of `pat`, the character after it
   * is still in `t` and differs from the second character of `pat`: no
   * occurrence can start inside `t`, whatever follows.
   */
  predicate NoneStartsIn(t: string, pat: string)
    requires pat != []
  {
    forall j :: 0 <= j < |t| && t[j] == pat[0] ==> CutShort(t, j, pat)
  }

  /** A leading piece in which no occurrence can start is copied through unchanged. */
  lemma {:induction false} ReplaceSkipsPrefix(t: string, s: string, pat: string, rep: string)
    requires pat != [] && NoneStartsIn(t, pat)
    ensures Replace(t + s, pat, rep) == t + Replace(s, pat, rep)
    decreases |t|
  {
    if t == [] {
      assert t + s == s;
    } else {
      var ts := t + s;
      NoneAtFront(t, s, pat);
      ReplaceStep(ts, pat, rep);
      assert ts[1..] == t[1..] + s;
      NoneStartsInTail(t, pat);
      ReplaceSkipsPrefix(t[1..], s, pat, rep);
      assert [t[0]] + t[1..] == t;
    }
  }

  /** No occurrence starts at the front of a text that begins with such a piece. */
  lemma NoneAtFront(t: string, s: string, pat: string)
    requires pat != [] && t != [] && NoneStartsIn(t, pat)
    ensures !OccursAt(t + s, 0, pat)
  {
    var ts := t + s;
    if |ts| >= |pat| {
      if t[0] == pat[0] {
        assert CutShort(t, 0, pat);
        assert ts[..|pat|][1] == t[1];
      } else {
        assert ts[..|pat|][0] == t[0];
      }
    }
  }

  /** The condition holds for the rest of the piece. */
  lemma NoneStartsInTail(t: string, pat: string)
    requires pat != [] && t != [] && NoneStartsIn(t, pat)
    ensures NoneStartsIn(t[1..], pat)
  {
    var u := t[1..];
    forall j | 0 <= j < |u| && u[j] == pat[0]
      ensures CutShort(u, j, pat)
    {
      assert t[j + 1] == pat[0];
      assert CutShort(t, j + 1, pat);
    }
  }

  /** Replacing one character distributes over concatenation: no occurrence can straddle the seam. */
  lemma {:induction false} ReplaceCharAppend(a: string, b: string, c: char, rep: string)
    ensures Replace(a + b, [c], rep) == Replace(a, [c], rep) + Replace(b, [c], rep)
    decreases |a|
  {
    if a != [] {
      assert (a + b)[1..] == a[1..] + b;
      assert (a + b)[..1] == a[..1];
      ReplaceCharAppend(a[1..], b, c, rep);
    } else {
      assert a + b == b;
    }
  }

  /** Replacing one character by another is a character-by-character substitution. */
  lemma {:induction false} ReplaceCharByChar(s: string, c: char, d: char)
    ensures |Replace(s, [c], [d])| == |s|
    ensures forall i :: 0 <= i < |s| ==> Replace(s, [c], [d])[i] == if s[i] == c then d else s[i]
    decreases |s|
  {
    if s != [] {
      ReplaceCharByChar(s[1..], c, d);
      assert s[..1] == [c] <==> s[0] == c;
    }
  }

  /** `TrimEnd(c)`: drops every trailing `c`. */
  function TrimEndChar(s: string, c: char): (r: string)
    ensures |r| <= |s| && r == s[..|r|]
    ensures r == [] || r[|r| - 1] != c
    ensures forall i :: |r| <= i < |s| ==> s[i] == c
  {
    if s != [] && s[|s| - 1] == c then TrimEndChar(s[..|s| - 1], c) else s
  }

  /** How many times `c` occurs in `s`. */
  function Count(s: string, c: char): nat
    decreases |s|
  {
    if s == [] then 0 else (if s[0] == c then 1 else 0) + Count(s[1..], c)
  }

  lemma {:induction false} CountAppend(a: string, b: string, c: char)
    ensures Count(a + b, c) == Count(a, c) + Count(b, c)
    decreases |a|
  {
    if a == [] {
      assert a + b == b;
    } else {
      assert (a + b)[1..] == a[1..] + b;
      CountAppend(a[1..], b, c);
    }
  }

  /** Every `c` in `s` replaced by `rep`, character by character. */
  function Subst(s: string, c: char, rep: string): string
    decreases |s|
  {
    if s == [] then [] else (if s[0] == c then rep else [s[0]]) + Subst(s[1..], c, rep)
  }

  /** Replacing a one-character pattern is the character-by-character substitution. */
  lemma {:induction false} ReplaceCharIsSubst(s: string, c: char, rep: string)
    ensures Replace(s, [c], rep) == Subst(s, c, rep)
    decreases |s|
  {
    if s != [] {
      ReplaceCharIsSubst(s[1..], c, rep);
      assert s[..1] == [c] <==> s[0] == c;
    }
  }

  lemma {:induction false} SubstAppend(a: string, b: string, c: char, rep: string)
    ensures Subst(a + b, c, rep) == Subst(a, c, rep) + Subst(b, c, rep)
    decreases |a|
  {
    if a == [] {
      assert a + b == b;
    } else {
      assert (a + b)[1..] == a[1..] + b;
      SubstAppend(a[1..], b, c, rep);
    }
  }
}

=== FILE: wrappers.dfy ===
/** The optional value that stands for a C# reference that may be null. */
module Wrappers {

  datatype Option<+T> = None | Some(value: T) {

    /** The value, or `default` when there is none (the `??` operator). */
    function GetOr(default: T): T {
      match this
      case Some(v) => v
      case None => default
    }
  }
}
